=== FILE: README.md ===
# Local logic of four small web applications, in Dafny

The repository holds four independent applications built as glue around a hosted language model and a
hosted database: an AI-assisted to-do list, a sentiment-analysis demo, a forum and a portfolio site.
This project models the sequential, self-contained logic around those calls and proves what it promises:

- **To-do summary** (`analyzeTodos` and the `POST /api/ai/summary` guards): the period filter,
  completion and priority counts and rates, deadline counts, time-of-day buckets, deadline compliance,
  the category histogram, the weekday table, the previous-period comparison and the urgent list
  (modules `Clock`, `Analytics`, `SummaryRoute`, `RateLimit`).
- **To-do home page**: the search/priority/status filters and the four sorts of
  `filteredAndSortedTodos`, the card's status classifier and label tables, and the ownership and
  not-found guards in front of every write (`Todos`, `TodoView`, `TodoGuards`).
- **Natural-language parse endpoint**, local part: input normalisation and validation, title
  truncation and defaulting, `HH:mm` validation with its `09:00` fallback, past-date rejection and
  trimming of the optional fields (`ParseTodo`), and the to-do form's schema, defaults, submit mapping
  and fill-from-parse step (`TodoForm`).
- **Authentication pages**: the `useAuth` hook's display-name, redirect and auth-event rules
  (`AuthHook`); the login, sign-up and reset-password schemas and their ordered provider-error
  classifiers and URL-parameter mappings (`LoginPage`, `SignupPage`, `ResetPasswordPage`); the guard
  chain of the account-deletion route (`DeleteAccount`).
- **Cookie adapter** of the route-handler database client: the lax `;`/`=` parser after the Cookie
  header of section 4.2.1 of RFC 6265, with a round trip through a rendered header (`Cookies`).
- **Sentiment endpoint**: input guards, the three regular expressions that read the label, the
  confidences and the reason out of the model's answer (modelled with JavaScript regex semantics:
  greedy `\s*`, lazy `(.+?)`, `.` not matching line terminators, leftmost match), per-label defaults,
  clamping, truncation and the error classification (`SentimentParse`, `SentimentRoute`); and the
  page in front of it, whose local checks are proved to agree with the route (`AnalyzePage`).
- **Forum post list**: pagination state, the previous/next buttons and the skeleton/empty/cards
  choice (`PostList`).

Everything is pure: datatypes with `Option` fields, integer millisecond timestamps, and functions
over `seq`. Things the code obtains from outside (the current time, the language model's answer, the
database's replies, whether a client or API key exists, `zod`'s e-mail check, `date-fns`' `parse`)
are parameters. Shared pieces live in `Base` (options, filters, counts), `Text` (JavaScript string
semantics) and `Keywords` (ordered "first rule whose keywords occur" chains, which all five error
classifiers are instances of).

Where the code and its intent read differently, the model follows the code:

- the sign-up password rule `^(?=.*[a-zA-Z])(?=.*\d)` needs the letter and the digit before the first
  line break, because `.` does not match line terminators;
- the "today" filter's third clause adds nothing to its first (`PeriodFilterSimplified`);
- the default confidences add up to 100 only for 긍정: 90 for 중립 and 95 for 부정 (`DefaultTotals`);
- the login credential rule is checked first, so an "email not confirmed" message that mentions
  "password" is reported as bad credentials (`CredentialRuleShadowsConfirmation`);
- a page count that shrinks between fetches can leave the forum on a page past the end
  (`StaleDeepPage`);
- in development the sentiment page shows the network message for any route error whose details
  mention "fetch" (`DevelopmentDetailsCanTurnIntoNetworkMessage`).

## Model

| member | source | states |
|---|---|---|
| Todos.StatusOf | todolist/todo/components/todo/todo-card.tsx:34-46 | a completed todo is "completed" whatever its due date; an open todo is "overdue" exactly when its due time is strictly before now; otherwise "in_progress" (including every open todo without a due date) |
| Todos.LabelsTotalAndDistinct | todolist/todo/components/todo/todo-card.tsx:22-32 | every priority and every status has a non-empty label, and different priorities (statuses) have different labels |
| Clock.StartOfDay | todolist/todo/app/api/ai/summary/route.ts:56 | the start of the day lies at or before the instant and less than one day before it, on a day boundary |
| Clock.EndOfDay | todolist/todo/app/api/ai/summary/route.ts:57 | the end of the day is at or after the instant, in the same day, and is that day's last millisecond |
| Clock.HourOf | todolist/todo/app/api/ai/summary/route.ts:220 | the hour h is in [0,24) and the instant lies in the h-th hour after its start of day |
| Clock.MinuteOf | todolist/todo/app/api/ai/parse-todo/route.ts:292-296 | the minute m is in [0,60) and the instant lies in the m-th minute after the start of its hour |
| Clock.DayOfWeek | todolist/todo/app/api/ai/summary/route.ts:263 | the weekday is in [0,7); its values are fixed by the three lemmas below |
| Clock.EpochIsThursday | todolist/todo/app/api/ai/summary/route.ts:263 | the day of instant 0 (1 January 1970) is a Thursday, weekday 4 |
| Clock.NextDayNextWeekday | todolist/todo/app/api/ai/summary/route.ts:263 | one day later the weekday is the next one, Saturday (6) wrapping to Sunday (0) |
| Clock.SameDaySameWeekday | todolist/todo/app/api/ai/summary/route.ts:263 | two instants of the same day have the same weekday |
| Clock.StartOfWeek | todolist/todo/app/api/ai/summary/route.ts:58 | the start of the week is a midnight falling on a Sunday (weekday 0), at most six days before the instant's day, so the week starting there contains that day |
| Clock.EndOfWeek | todolist/todo/app/api/ai/summary/route.ts:59 | the end of the week is the last millisecond of a Saturday (weekday 6), at or after the instant and less than seven days after the week's start |
| Clock.SameWeekSameStart | todolist/todo/app/api/ai/summary/route.ts:58-59 | every instant between a week's start and its end has that same start of week, so the interval is one whole week |
| Clock.WithinDayIffSameDay | todolist/todo/app/api/ai/summary/route.ts:69 | an instant lies within a day's interval exactly when its start of day is that day |
| Analytics.PeriodFilterSimplified | todolist/todo/app/api/ai/summary/route.ts:61-126 | the "today" filter keeps exactly the todos due or created today (its third clause adds nothing); the "week" filter keeps exactly the todos due, created or (when completed) updated within the week |
| Analytics.Rate | todolist/todo/app/api/ai/summary/route.ts:149-151 | a rate is 0 for an empty whole, otherwise part*100/whole, and lies in [0,100] when the part does not exceed the whole |
| Analytics.PriorityStatsOf | todolist/todo/app/api/ai/summary/route.ts:158-187 | per priority, the completed count is at most the total, the rate is 0 when the total is 0 and otherwise completed*100/total, within [0,100] |
| Analytics.PriorityTotalsPartition | todolist/todo/app/api/ai/summary/route.ts:158-174 | the three priority totals add up to the number of todos |
| Analytics.PriorityOpenPartition | todolist/todo/app/api/ai/summary/route.ts:189-192 | the three open-per-priority counts add up to the number of open todos |
| Analytics.DueCountsBounded | todolist/todo/app/api/ai/summary/route.ts:194-207 | overdue, due-today and due-tomorrow counts are disjoint and together at most the number of open todos |
| Analytics.BucketOf | todolist/todo/app/api/ai/summary/route.ts:222-230 | morning is [9,12), afternoon [12,18), evening [18,21), night every other hour, each stated as an if-and-only-if |
| Analytics.Distribute | todolist/todo/app/api/ai/summary/route.ts:209-231 | each time bucket counts exactly the dated todos whose due hour falls in it |
| Analytics.BucketsPartition | todolist/todo/app/api/ai/summary/route.ts:217-231 | the four buckets add up to the number of dated todos |
| Analytics.MostProductive | todolist/todo/app/api/ai/summary/route.ts:521-523 | the chosen bucket has the largest count, and every bucket listed before it has a strictly smaller one (stable descending sort, first entry) |
| Analytics.Categories | todolist/todo/app/api/ai/summary/route.ts:247-252 | a category is a key exactly when some todo has it (a missing or empty one counting as "기타"), its value is that count, and the values add up to the number of todos (for category names that are not keys of `Object.prototype`, see Left out) |
| Analytics.UncategorisedCountedAsOther | todolist/todo/app/api/ai/summary/route.ts:250 | a todo with a missing or empty category is counted under "기타" |
| Analytics.WeekDays | todolist/todo/app/api/ai/summary/route.ts:254-270 | the weekly distribution has exactly the seven weekdays as keys, each holding the count of todos due that weekday and the completed ones among them |
| Analytics.Compare | todolist/todo/app/api/ai/summary/route.ts:272-291 | the comparison is present exactly when a full list is given and the previous period (yesterday, or last week, as filtered at lines 128-147) has at least one todo; its rate is the completion rate of those previous-period todos, in [0,100], and the improvement is the current rate minus it |
| Analytics.UrgentTasks | todolist/todo/app/api/ai/summary/route.ts:293-297 | at most five titles, exactly min(5, open high-priority count), each the title of the open high-priority todo at that position in list order |
| Analytics.Filtered | todolist/todo/app/api/ai/summary/route.ts:61-126 | the period filter keeps exactly the todos in the period, each as often as in the list, and every kept todo satisfies it |
| Analytics.FilteredAppend | todolist/todo/app/api/ai/summary/route.ts:61-126 | the period filter keeps list order: the todos kept from a concatenation are those kept from its first part followed by those kept from its second |
| Analytics.SplitByCompletion | todolist/todo/app/api/ai/summary/route.ts:153-155 | completed and uncompleted tasks partition the list (as multisets), with sizes given by the completion counts |
| Analytics.AnalyzeTodos | todolist/todo/app/api/ai/summary/route.ts:54-320 | completed ≤ total, completion rate 0 on an empty total and otherwise in [0,100], completed/uncompleted sizes add to the total, deadline compliance in [0,100], postponed equals overdue, weekday map empty for "today" and seven days for "week", at most five urgent tasks; every other field is tied to its definition over the filtered todos by the `Analysis*` lemmas below |
| Analytics.AnalysisCompletion | todolist/todo/app/api/ai/summary/route.ts:149-243 | the completed and uncompleted lists are the filtered todos that are and are not completed, in order; the completion rate is completed over total; deadline compliance is the on-time share of the completed todos that have a due date |
| Analytics.AnalysisParts | todolist/todo/app/api/ai/summary/route.ts:158-297 | the urgent list, the three per-priority statistics and the previous-period comparison are those computed from the filtered todos (and the full list) |
| Analytics.AnalysisPriorityCounts | todolist/todo/app/api/ai/summary/route.ts:158-192 | the priority totals add up to the total and the open-per-priority counts to the uncompleted tasks |
| Analytics.AnalysisDueCounts | todolist/todo/app/api/ai/summary/route.ts:199-207 | overdue + due today + due tomorrow never exceeds the uncompleted tasks |
| Analytics.AnalysisTimeBuckets | todolist/todo/app/api/ai/summary/route.ts:209-231 | the time-of-day buckets are `Distribute` of the filtered todos, and add up to the dated filtered todos, at most the total |
| Analytics.AnalysisOpenCounts | todolist/todo/app/api/ai/summary/route.ts:189-192 | highPriority, mediumPriority and lowPriority are the counts of open filtered todos of each priority |
| Analytics.AnalysisDueValues | todolist/todo/app/api/ai/summary/route.ts:195-207 | overdue, todayDue and tomorrowDue are the counts of open filtered todos due before today, within today and within tomorrow |
| Analytics.AnalysisWeekDays | todolist/todo/app/api/ai/summary/route.ts:254-270 | for a week, the weekday table is `WeekDays` of the filtered todos |
| Analytics.AnalysisCategories | todolist/todo/app/api/ai/summary/route.ts:247-252 | the category distribution is the histogram of the filtered todos and adds up to the total |
| SummaryRoute.ParsePeriod | todolist/todo/app/api/ai/summary/route.ts:342-344 | only "today" and "week" are accepted periods |
| SummaryRoute.OwnRows | todolist/todo/app/api/ai/summary/route.ts:358-363 | the rows read are exactly the caller's, each as often as in the table, ordered by due date ascending with undated rows last |
| SummaryRoute.OwnRowsExact | todolist/todo/app/api/ai/summary/route.ts:358-363 | a todo is read exactly when it is in the table and belongs to the caller |
| SummaryRoute.OtherUsersIgnored | todolist/todo/app/api/ai/summary/route.ts:358-363 | rows of other users added to the table do not change the rows read |
| SummaryRoute.Caught | todolist/todo/app/api/ai/summary/route.ts:637-659 | a thrown value gives 429 with the fixed text when its message names 429, quota, rate limit or RESOURCE_EXHAUSTED, and otherwise 500 with "요약 생성에 실패했습니다: " and the message; a non-Error's fixed text always gives that 500 |
| SummaryRoute.Post | todolist/todo/app/api/ai/summary/route.ts:322-659 | 401 without a user; 400 for a malformed body; a JSON null body the caught TypeError; 400 for a bad period; 500 without an API key; 500 when the query fails; a zero total over the caller's rows gives the fixed summary with three empty lists; otherwise the model's summary as it is, or the caught error when it throws; insights only come from the model |
| SummaryRoute.PostIgnoresOtherUsers | todolist/todo/app/api/ai/summary/route.ts:322-659 | rows of other users in the table never change the response |
| SummaryRoute.EmptyPeriodSkipsModel | todolist/todo/app/api/ai/summary/route.ts:480-487 | with a zero total the response does not depend on the model at all and holds three empty lists |
| RateLimit.FailureStatus | todolist/todo/app/api/ai/summary/route.ts:642-658 | a message naming 429, quota, rate limit or RESOURCE_EXHAUSTED maps to 429, any other to the given status |
| RateLimit.NoMarkerLetterNotRateLimited | todolist/todo/app/api/ai/summary/route.ts:640-647 | a message without any of the characters 4, q, r and R names none of the four markers, so it is never a rate-limit message; the routes' fixed fallback texts are such messages |
| TodoView.LexLeqTotal | todolist/todo/app/page.tsx:131-133 | the code-point order standing in for the title comparison is total |
| TodoView.LexLeqTransitive | todolist/todo/app/page.tsx:131-133 | the code-point order standing in for the title comparison is transitive |
| TodoView.InOrderTotal | todolist/todo/app/page.tsx:116-135 | each of the four sort keys orders any two todos one way or the other |
| TodoView.InOrderTransitive | todolist/todo/app/page.tsx:116-135 | each of the four sort keys is transitive, so the sort has a well-defined result |
| TodoView.Insert | todolist/todo/app/page.tsx:116-135 | inserting into a sorted list keeps it sorted and adds exactly that todo |
| TodoView.SortBy | todolist/todo/app/page.tsx:116-135 | the sort returns a permutation of its input that is ordered by the chosen key |
| TodoView.InsertStable | todolist/todo/app/page.tsx:116-135 | inserting a todo into a sorted list places it ahead of the todos tied with it and keeps their order |
| TodoView.SortByStable | todolist/todo/app/page.tsx:116-135 | the sort is stable: the todos tied with any given todo under the key keep their order |
| TodoView.Search | todolist/todo/app/page.tsx:91-95 | a blank query keeps every todo; otherwise exactly the todos whose lowercased title contains the lowercased query, each as often as before |
| TodoView.PriorityStep | todolist/todo/app/page.tsx:97-100 | "all" keeps every todo; a priority keeps exactly the todos with that priority |
| TodoView.StatusStep | todolist/todo/app/page.tsx:102-114 | "all" keeps every todo; each status filter keeps exactly the todos it names, with multiplicity |
| TodoView.Selected | todolist/todo/app/page.tsx:88-114 | the three filters together keep exactly the todos that pass all of them |
| TodoView.FilteredAndSorted | todolist/todo/app/page.tsx:88-138 | the result holds exactly the todos passing every filter (a sub-multiset of the list) and is ordered by the chosen key |
| TodoView.NoFilterIsPermutation | todolist/todo/app/page.tsx:88-138 | with a blank query and both filters at "all" the result is a permutation of the list |
| TodoView.ShownSatisfyFilters | todolist/todo/app/page.tsx:92-114 | every shown todo is from the list, matches a non-blank query, has the chosen priority and is completed under the "completed" filter |
| TodoView.PassingTodoIsShown | todolist/todo/app/page.tsx:88-138 | every todo passing the filters is shown |
| TodoView.StatusFilterAgreesWithCard | todolist/todo/app/page.tsx:103-114 | each status filter keeps exactly the todos the card labels with that status, for the same "now" |
| TodoView.OpenTodoInExactlyOneOpenFilter | todolist/todo/app/page.tsx:106-111 | an open todo passes exactly one of "in_progress" and "overdue", and never "completed" |
| TodoView.DueDateOrderMeaning | todolist/todo/app/page.tsx:121-126 | sorted by due date, dated todos come first in ascending order and undated ones last |
| TodoView.DescendingOrderMeaning | todolist/todo/app/page.tsx:118-130 | sorted by priority the rank (high 3, medium 2, low 1) never increases; sorted by creation the timestamps never increase |
| TodoGuards.FindById | todolist/todo/app/page.tsx:232-235 | the lookup finds nothing exactly when no todo has the id, and otherwise the first todo with it |
| TodoGuards.Update | todolist/todo/app/page.tsx:179-202 | with nothing being edited or no user the update is refused; another user's todo is refused; otherwise exactly one update scoped to the todo's id and the caller's id is issued |
| TodoGuards.Delete | todolist/todo/app/page.tsx:225-254 | no user, an unknown id and another user's todo are refused in that order; a request is issued exactly for the caller's own todo after confirmation, scoped to its id and the caller |
| TodoGuards.Toggle | todolist/todo/app/page.tsx:275-299 | no user, an unknown id and another user's todo are refused in that order; otherwise one update of the completion flag scoped to the id and the caller |
| TodoGuards.Apply | todolist/todo/app/page.tsx:198-299 | a scoped delete removes exactly the rows matching id and user; a scoped write changes no row's id or owner and leaves every non-matching row unchanged; an update sets exactly the submitted fields on the matching rows and keeps their completion and timestamps; a toggle sets exactly their completion flag |
| TodoGuards.ApplyIdempotent | todolist/todo/app/page.tsx:198-299 | applying the same scoped write twice is the same as applying it once |
| TodoGuards.IssuedWriteReadsBack | todolist/todo/app/page.tsx:179-299 | after an issued update the caller's edited row reads back the submitted fields; after an issued toggle it reads back the new completion flag |
| TodoGuards.OtherUsersUntouched | todolist/todo/app/page.tsx:198-299 | no write ever changes a row belonging to another user |
| TodoGuards.DeleteRemovesOnlyTarget | todolist/todo/app/page.tsx:232-254 | an issued delete removes exactly the caller's rows with that id and nothing else |
| TodoForm.Validate | todolist/todo/components/todo/todo-form.tsx:30-36 | the form is accepted exactly when there are no issues; an empty title, a title over 80, a description over 500 and a category over 30 each raise their own issue exactly when they occur |
| TodoForm.Defaults | todolist/todo/components/todo/todo-form.tsx:66-75 | with no todo the form starts empty with priority medium; otherwise it copies the todo's fields, a missing description or category becoming "" |
| TodoForm.Submit | todolist/todo/components/todo/todo-form.tsx:132-141 | title, priority and due date pass through; an empty description becomes undefined and an empty category null, otherwise they pass through; the title length is in [1,80] |
| TodoForm.EditUnchangedRoundTrip | todolist/todo/components/todo/todo-form.tsx:66-141 | submitting an edit form left untouched gives back the todo's own fields, an empty description or category reading as absent |
| TodoForm.Fill | todolist/todo/components/todo/todo-form.tsx:103-118 | a parse fills title, priority and due date (a missing one clearing the field); a non-empty description replaces the field, otherwise it is kept; a missing category sets "" |
| TodoForm.ParseNaturalLanguage | todolist/todo/components/todo/todo-form.tsx:78-130 | a blank input sets the error and sends nothing; a success fills the form and clears input and error; a failure keeps the form and shows the server's error, or the fixed text when it has none |
| TodoForm.FilledTitleAccepted | todolist/todo/components/todo/todo-form.tsx:103-118 | a form filled from the endpoint's cleaned output never fails on its title; only an over-long description or category can reject it |
| ParseTodo.TrimKeepsNonSpace | todolist/todo/app/api/ai/parse-todo/route.ts:14 | trimming removes only whitespace: the non-space characters are unchanged |
| ParseTodo.Collapse | todolist/todo/app/api/ai/parse-todo/route.ts:17 | collapsing whitespace runs never lengthens the text and empties only the empty text |
| ParseTodo.CollapseEnds | todolist/todo/app/api/ai/parse-todo/route.ts:17 | collapsing keeps whether the text starts and ends with whitespace |
| ParseTodo.CollapseShape | todolist/todo/app/api/ai/parse-todo/route.ts:17 | after collapsing every whitespace character is a plain space and no two are adjacent |
| ParseTodo.CollapseKeepsNonSpace | todolist/todo/app/api/ai/parse-todo/route.ts:17 | collapsing keeps the non-space characters in order |
| ParseTodo.CollapseFixed | todolist/todo/app/api/ai/parse-todo/route.ts:17 | a text of single plain spaces is left unchanged by collapsing |
| ParseTodo.Preprocess | todolist/todo/app/api/ai/parse-todo/route.ts:12-23 | the output has no leading or trailing whitespace, no run of two whitespace characters, is no longer than the input and keeps its non-space characters; that a run between words becomes one space is `PreprocessGap` |
| ParseTodo.PreprocessIdempotent | todolist/todo/app/api/ai/parse-todo/route.ts:12-23 | preprocessing twice is the same as once |
| ParseTodo.PreprocessFixed | todolist/todo/app/api/ai/parse-todo/route.ts:12-23 | a normalised text (trimmed, plain single spaces) is its own preprocessing |
| ParseTodo.PreprocessGap | todolist/todo/app/api/ai/parse-todo/route.ts:12-23 | a white-space run between two trimmed pieces becomes exactly one space, each piece preprocessed on its own |
| ParseTodo.CollapseSplit | todolist/todo/app/api/ai/parse-todo/route.ts:16-17 | cutting a text anywhere but inside a white-space run commutes with `replace(/\s+/g, " ")` |
| ParseTodo.PreprocessBlank | todolist/todo/app/api/ai/parse-todo/route.ts:12-23 | preprocessing gives the empty text exactly for blank input |
| ParseTodo.ValidateInput | todolist/todo/app/api/ai/parse-todo/route.ts:26-52 | blank, then shorter than 2, then longer than 500 are rejected with their own messages; anything else is accepted, with a warning exactly when it has more than five emoji |
| ParseTodo.FinalTitle | todolist/todo/app/api/ai/parse-todo/route.ts:232-245 | the title has length in [1,80]; a blank one becomes "할 일", a trimmed one of at most 80 is kept, a longer one becomes its first 77 characters plus "..." |
| ParseTodo.ClockTimeIffFormatted | todolist/todo/app/api/ai/parse-todo/route.ts:285 | the accepted HH:mm strings are exactly the zero-padded renderings of hours 0-23 and minutes 0-59 |
| ParseTodo.FinalTime | todolist/todo/app/api/ai/parse-todo/route.ts:283-288 | the due time always matches HH:mm; a valid one is kept, anything else becomes "09:00" |
| ParseTodo.TrimmedOrNull | todolist/todo/app/api/ai/parse-todo/route.ts:301-304 | a field is present exactly when it is given and not blank, and then it is trimmed and non-empty |
| ParseTodo.DueDate | todolist/todo/app/api/ai/parse-todo/route.ts:257-296 | no date, an empty or unparseable one gives null; a day before today (and in the past) gives null; otherwise an instant in the parsed day at the due hour and minute, on the minute |
| ParseTodo.TimeOfDay | todolist/todo/app/api/ai/parse-todo/route.ts:292-296 | setting hours and minutes on a midnight stays in that day and gives that hour and minute, on the minute |
| ParseTodo.PastDateRejection | todolist/todo/app/api/ai/parse-todo/route.ts:266-274 | when the clock is not before today, a parsed date is dropped exactly when its day is before today |
| ParseTodo.Clean | todolist/todo/app/api/ai/parse-todo/route.ts:230-305 | the cleaned title has length in [1,80], description and category are trimmed or null, the priority passes through, and a due date only comes from a parseable one |
| ParseTodo.Post | todolist/todo/app/api/ai/parse-todo/route.ts:64-323 | a malformed body 400; a JSON null body 500 with the parse-failure prefix and the TypeError's message; a missing, non-string or empty input 400; invalid preprocessed input 400 with the validator's message; valid input without an API key 500; a model object gives exactly the cleaned todo, and a result comes only from one; a model failure gives the model-failure response |
| ParseTodo.ModelFailure | todolist/todo/app/api/ai/parse-todo/route.ts:208-228 | a model error naming 429, quota, rate limit or RESOURCE_EXHAUSTED gives 429 with the fixed text, any other 400 with the fixed processing-failure text; a non-Error (empty message) gives that 400 |
| ParseTodo.ParsedIgnoresInputText | todolist/todo/app/api/ai/parse-todo/route.ts:64-305 | once the input passes the checks, the response depends only on the model's answer, and its title is the final title made from that answer |
| Cookies.JoinSplit | todolist/todo/lib/supabase/server.js:39-43 | joining the pieces of a split with the separator gives back the text |
| Cookies.SplitFirst | todolist/todo/lib/supabase/server.js:40 | the first piece of a split on "=" is the text before the first "=", and the rest rejoined is everything after it |
| Cookies.SegmentIsSplitJoin | todolist/todo/lib/supabase/server.js:40-44 | parsing a segment is exactly the code's split-on-"=" then rejoin-the-rest, with name and value trimmed |
| Cookies.ParseCookies | todolist/todo/lib/supabase/server.js:34-46 | a missing or empty header gives no cookies; otherwise there are at most as many cookies as segments and every one has a non-empty name and value |
| Cookies.MappedFromSegment | todolist/todo/lib/supabase/server.js:39-44 | a cookie comes out of the mapping exactly when some segment parses to it |
| Cookies.ParsedFromSegments | todolist/todo/lib/supabase/server.js:39-45 | a cookie is in the result exactly when it is kept (non-empty name and value) and some ";"-separated segment parses to it |
| Cookies.ParseFirstSegment | todolist/todo/lib/supabase/server.js:39-45 | the cookies of a header are those of its first ";"-segment, when kept, followed by those of the rest of the header, in order |
| Cookies.HeaderIsJoinOfSegments | todolist/todo/lib/supabase/server.js:39 | a rendered header is the join of its segments with ";" |
| Cookies.ParseRendered | todolist/todo/lib/supabase/server.js:40-44 | a well-formed cookie rendered as "name=value", with or without a leading space, parses back to itself, keeping any "=" inside the value |
| Cookies.HeaderSplits | todolist/todo/lib/supabase/server.js:39 | splitting a rendered header on ";" gives its segments |
| Cookies.SegmentsParse | todolist/todo/lib/supabase/server.js:39-44 | the segments of a rendered header parse back to the cookies, in order |
| Cookies.ParseHeaderRoundTrip | todolist/todo/lib/supabase/server.js:37-46 | parsing a header rendered from well-formed cookies gives back exactly those cookies, in order |
| Cookies.SetAllIsNoOp | todolist/todo/lib/supabase/server.js:55-61 | whatever is written through setAll, getAll keeps returning the cookies parsed from the request header |
| AuthHook.LocalPart | todolist/todo/hooks/use-auth.ts:59 | the text before the first "@" is a prefix of the email holding no "@", followed by "@" when there is one, and the whole email when there is none |
| AuthHook.DisplayName | todolist/todo/hooks/use-auth.ts:59 | the name is never empty: the metadata name when it is non-empty, otherwise a prefix of the email with no "@", otherwise "사용자" |
| AuthHook.ToAuthUser | todolist/todo/hooks/use-auth.ts:56-60 | the user keeps the provider's id, its email or "", and the display name |
| AuthHook.NameFromEmail | todolist/todo/hooks/use-auth.ts:59 | without a metadata name, the name is the email's local part, or "사용자" when that is empty |
| AuthHook.SignedOutNav | todolist/todo/hooks/use-auth.ts:102-109 | signed out, a guest page (/login, /signup) stays put and any other path goes to /login, the same rule the check applies at lines 48-50 and 69-71 |
| AuthHook.SignedInNav | todolist/todo/hooks/use-auth.ts:98-101 | signed in, a guest page goes to "/" with a refresh and any other path stays put, as the check also does at lines 63-66 |
| AuthHook.CheckAuth | todolist/todo/hooks/use-auth.ts:36-83 | the check always ends with loading off; a user is set exactly when the provider returns one; it goes to /login exactly when there is no user on a protected path and to "/" (with refresh) exactly when there is a user on a guest page |
| AuthHook.Mount | todolist/todo/hooks/use-auth.ts:30-85 | with no client loading stops and nothing else happens; otherwise the check runs |
| AuthHook.OnAuthChange | todolist/todo/hooks/use-auth.ts:88-131 | SIGNED_IN with a user sets that user, stops loading and navigates by the signed-in rule; SIGNED_OUT clears the user and loading and navigates by the signed-out rule; INITIAL_SESSION sets the session's user or none and stops loading; TOKEN_REFRESHED with a user updates it; other events, or SIGNED_IN/TOKEN_REFRESHED without a user, change nothing; only sign-in and sign-out navigate |
| AuthHook.LandingMatchesUser | todolist/todo/hooks/use-auth.ts:36-131 | after any redirect the page reached is a guest page exactly when no user is signed in |
| AuthHook.LoadingStaysOff | todolist/todo/hooks/use-auth.ts:80-131 | once loading is off, no sequence of auth events turns it back on |
| AuthHook.SignOut | todolist/todo/hooks/use-auth.ts:138-145 | without a client the sign-out returns an error and makes no provider call; otherwise it returns the provider's error |
| AuthHook.GuestPageRedirect | todolist/todo/app/login/page.tsx:89-95 | the guest page leaves for "/" (with refresh) exactly when loading is over and a user is present |
| AuthHook.GuestRedirectRepeatsCheck | todolist/todo/app/login/page.tsx:89-95 | on a guest page the page's own redirect makes the same decision the hook's check already made |
| LoginPage.Validate | todolist/todo/app/login/page.tsx:25-28 | the form is accepted exactly when the email is valid and the password non-empty, each failure raising its own message |
| LoginPage.ErrorMessage | todolist/todo/app/login/page.tsx:97-111 | the message is never empty; no error gives the default; a lowercased message with the credential keywords ("&&" binding tighter than "\|\|") gives the credentials message |
| LoginPage.ErrorMessageFollowsTable | todolist/todo/app/login/page.tsx:97-133 | the mapping is the first of the four keyword rules (credentials, not confirmed, disabled/banned, network/fetch) to fire on the lowercased message, else the message itself, else the retry text |
| LoginPage.RulesFire | todolist/todo/app/login/page.tsx:103-129 | each rule fires exactly on its keyword condition |
| LoginPage.CredentialRuleShadowsConfirmation | todolist/todo/app/login/page.tsx:103-118 | an "email not confirmed" message that also mentions "password" is reported as bad credentials, since the credential rule is checked first |
| LoginPage.Submit | todolist/todo/app/login/page.tsx:135-171 | no client shows the client error; a successful sign-in goes home; a provider error or a thrown value shows its mapped message, never empty |
| LoginPage.LinkMessage | todolist/todo/app/login/page.tsx:60-68 | an expired code (otp_expired, token_expired) gives the expired text, else access_denied the invalid text, else the generic link problem |
| LoginPage.UrlNotice | todolist/todo/app/login/page.tsx:52-87 | nothing happens exactly when there is no error, no error code and no reset=true; error parameters win over reset=true and set the link message; reset=true alone shows the reset-mail-sent notice; every notice opens the reset form |
| LoginPage.RequestReset | todolist/todo/app/login/page.tsx:334-347 | a reset mail is requested exactly for a non-empty email containing "@" when a client exists, and for that email |
| LoginPage.MailResult | todolist/todo/app/login/page.tsx:347-366 | only a sent mail reports success; a provider error shows its message (or the fixed text), a thrown value the fixed failure text; the toast is never empty |
| SignupPage.Validate | todolist/todo/app/signup/page.tsx:26-41 | the form is accepted exactly when the email is valid, the password has at least 8 characters and a letter and a digit, and the confirmation equals it; each of the five failures raises its own message exactly when it occurs, the mismatch on the confirmation field |
| SignupPage.PasswordRuleMeaning | todolist/todo/app/signup/page.tsx:32-35 | the lookahead rule holds exactly when an ASCII letter and a digit each occur before the first line terminator |
| SignupPage.ErrorMessage | todolist/todo/app/signup/page.tsx:81-93 | the message is never empty; no error gives the default; an "already registered"/"이미" message gives the already-registered text first |
| SignupPage.ErrorMessageFollowsTable | todolist/todo/app/signup/page.tsx:81-112 | the mapping is the first of the four keyword rules (already registered, weak password, email/invalid, network/fetch) to fire on the lowercased message, else the message itself, else the retry text |
| SignupPage.RulesFire | todolist/todo/app/signup/page.tsx:87-108 | each rule fires exactly on its keyword condition, the weak-password rule needing both words |
| SignupPage.UserKeywordRedundant | todolist/todo/app/signup/page.tsx:87-90 | the "user already registered" keyword adds nothing: it contains "already registered" |
| SignupPage.Submit | todolist/todo/app/signup/page.tsx:114-162 | no client shows the client error; a returned user with zero identities awaits e-mail confirmation, any other returned user goes to /login, both remembering the email; errors and thrown values show their mapped message |
| ResetPasswordPage.Validate | todolist/todo/app/reset-password/page.tsx:25-33 | accepted exactly when the password has at least 8 characters and the confirmation equals it; a short password, a short confirmation and a mismatch each raise their own message exactly when they occur |
| ResetPasswordPage.SignupPasswordsAccepted | todolist/todo/app/reset-password/page.tsx:25-33 | every password pair the sign-up form accepts is accepted here too |
| ResetPasswordPage.ResetAcceptsWhatSignupRejects | todolist/todo/app/reset-password/page.tsx:27 | there is no letter-and-digit rule here: "password" is accepted though sign-up rejects it |
| ResetPasswordPage.LinkMessage | todolist/todo/app/reset-password/page.tsx:54-73 | no message exactly when there is no error and no error code; otherwise expired codes, then access_denied, then the description verbatim, then the generic text |
| ResetPasswordPage.LinkMessageAgreesWithLogin | todolist/todo/app/reset-password/page.tsx:59-69 | the page maps link errors as the login page does, except that a description replaces the generic text |
| ResetPasswordPage.Submit | todolist/todo/app/reset-password/page.tsx:75-110 | no client leaves the page alone; success is reached exactly on a successful update, which leaves no error; a thrown error shows its message, any other thrown value the fixed text |
| ResetPasswordPage.LinkChecked | todolist/todo/app/reset-password/page.tsx:54-73 | the link check sets the banner exactly when there is a link message and leaves everything else alone |
| DeleteAccount.Post | todolist/todo/app/api/auth/delete-account/route.ts:4-92 | success exactly when the body's email matches the session email and the password check passes; deletes are scoped to the caller's id only and both happen on success; a failure performs at most the password check; no session gives 401 with no action; every failure is 400, 401 or 500 |
| DeleteAccount.GuardOrder | todolist/todo/app/api/auth/delete-account/route.ts:18-56 | with a session: an unreadable body gives 400, a null body the 500 of the TypeError it raises, a missing email or password 400, a different email 400, a failed password check 401 |
| DeleteAccount.VerifiedBeforeDeleted | todolist/todo/app/api/auth/delete-account/route.ts:45-78 | the password check for the session email comes before any delete, and sign-out comes last |
| DeleteAccount.NoEmailNoDeletion | todolist/todo/app/api/auth/delete-account/route.ts:38-43 | a user with no email can never pass the email check, so nothing is deleted |
| SentimentParse.Label | analyze/app/api/sentiment/route.ts:59-75 | a "감성:" line naming 긍정 always gives 긍정; 긍정 is only chosen when the answer mentions it (or "positive"), and 부정 only when it mentions 부정 (or "negative") |
| SentimentParse.LowerKeepsHangul | analyze/app/api/sentiment/route.ts:69-74 | lowercasing does not create or destroy a match for a word without ASCII letters, so the fallback's 긍정/부정 tests read the answer as written |
| SentimentParse.IncludesIsMatch | analyze/app/api/sentiment/route.ts:61-65 | the literal "감성: w" test is subsumed by the regex: it only fires where the regex matches |
| SentimentParse.LabelAtIsRegex | analyze/app/api/sentiment/route.ts:61-65 | a label match at a position is exactly "감성:" followed by a run of whitespace and the word, as the pattern /감성:\s*w/ reads |
| SentimentParse.LabelReadBack | analyze/app/api/sentiment/route.ts:59-66 | an answer that starts with the requested "감성: <word>" line is read back as that word |
| SentimentParse.NotMarkedOther | analyze/app/api/sentiment/route.ts:59-66 | such an answer never carries a label line for another word |
| SentimentParse.FirstNumber | analyze/app/api/sentiment/route.ts:78-80 | the first confidence match is absent exactly when no position matches, and otherwise is the number at the leftmost matching position |
| SentimentParse.NumberAtIsRegex | analyze/app/api/sentiment/route.ts:78-80 | a confidence match at a position is exactly the key followed by a run of whitespace and at least one digit, as /key:\s*(\d+)/ reads |
| SentimentParse.NumberReadBack | analyze/app/api/sentiment/route.ts:78-82 | a confidence line "key n" whose key does not occur earlier is read back as n |
| SentimentParse.Clamp | analyze/app/api/sentiment/route.ts:101-103 | a clamped confidence is in [0,100], unchanged inside it, 100 above and 0 below |
| SentimentParse.DefaultConfidence | analyze/app/api/sentiment/route.ts:82-87 | a missing confidence defaults to 70 exactly for the chosen sentiment's own field and is never above 70 (positive 70/15/15, neutral 10/70/10, negative 10/15/70) |
| SentimentParse.DefaultTable | analyze/app/api/sentiment/route.ts:82-87 | the nine defaults: 70/15/15 for 긍정, 10/70/10 for 중립, 10/15/70 for 부정 (positive/neutral/negative) |
| SentimentParse.DefaultTotals | analyze/app/api/sentiment/route.ts:82-87 | the defaults add up to 100 for 긍정 but only 90 for 중립 and 95 for 부정 |
| SentimentParse.ConfidenceOf | analyze/app/api/sentiment/route.ts:78-103 | a confidence is the clamped first match for its key, or the per-sentiment default when there is none; always in [0,100] |
| SentimentParse.Confidences | analyze/app/api/sentiment/route.ts:100-104 | all three returned confidences lie in [0,100] |
| SentimentParse.EndUnique | analyze/app/api/sentiment/route.ts:90 | the lazy capture "(.+?)" before a line-terminator-led end has at most one possible end |
| SentimentParse.LazyEnd | analyze/app/api/sentiment/route.ts:90 | the lazy search finds the end of the capture when one exists and reports none only when there is none |
| SentimentParse.Backtrack | analyze/app/api/sentiment/route.ts:90 | backtracking over the separator run finds the longest separator prefix after which the capture can end, or none |
| SentimentParse.CaptureFrom | analyze/app/api/sentiment/route.ts:90 | at a given start the match is a capture the pattern allows, with the longest separator run of all such captures, or none exists |
| SentimentParse.FirstCapture | analyze/app/api/sentiment/route.ts:90 | the first reason match is the capture at the leftmost position where the pattern matches, and absent exactly when it matches nowhere |
| SentimentParse.RawReason | analyze/app/api/sentiment/route.ts:90-91 | absent exactly when neither pattern matches; otherwise the first pattern's capture when it matches, else the second's; a captured reason is non-empty and stays within one line |
| SentimentParse.Shorten | analyze/app/api/sentiment/route.ts:93-96 | a reason of at most 200 characters is kept; a longer one becomes exactly 200: its first 197 characters plus "..." |
| SentimentParse.Reason | analyze/app/api/sentiment/route.ts:90-96 | the reason has at most 200 characters; it is the captured text trimmed and shortened, or the fixed default text when neither pattern matches |
| SentimentParse.ReasonReadBack | analyze/app/api/sentiment/route.ts:90-91 | an answer whose only "이유" is the requested "이유: r" line gives back r |
| SentimentRoute.Classify | analyze/app/api/sentiment/route.ts:116-155 | the status is one of 400, 401, 500 and 503, and 401 exactly when the message names "API key" or "authentication" |
| SentimentRoute.ClassifyFollowsTable | analyze/app/api/sentiment/route.ts:116-155 | the status and text are those of the first of the three keyword rules (key/auth 401, model 400, network 503) to fire, else 500 |
| SentimentRoute.ErrorRulesFire | analyze/app/api/sentiment/route.ts:117-139 | each error rule fires exactly on its keywords |
| SentimentRoute.Caught | analyze/app/api/sentiment/route.ts:107-156 | a thrown value is answered with the classified status and text, carrying the message as details exactly in development |
| SentimentRoute.Analyse | analyze/app/api/sentiment/route.ts:56-106 | an analysed answer has all confidences in [0,100] and a reason of at most 200 characters |
| SentimentRoute.Post | analyze/app/api/sentiment/route.ts:7-156 | a result is returned exactly when the model is called and answers; a missing, non-string or blank text gets 400; an over-long text 400 with maxLength and currentLength; a missing key 500; every rejection is 400, 401, 500 or 503 and has details only in development |
| SentimentRoute.AnswerLabelReadBack | analyze/app/api/sentiment/route.ts:56-66 | an answer beginning with the requested label line is analysed as that sentiment |
| AnalyzePage.LocalCheck | analyze/app/page.tsx:33-42 | a blank text and an over-long text each show their error and send nothing; anything else is sent as typed |
| AnalyzePage.LocalCheckMatchesRoute | analyze/app/page.tsx:33-42 | the page sends exactly the texts the route admits, and for the rest shows the very message the route would answer with its 400 |
| AnalyzePage.EnabledIffSends | analyze/app/page.tsx:199 | when idle, the button is enabled exactly when pressing it would send the text |
| AnalyzePage.NearLimitThreshold | analyze/app/page.tsx:130-131 | the counter is near the limit exactly when the text is longer than 1900 characters, which includes every over-long text |
| AnalyzePage.Typed | analyze/app/page.tsx:162-172 | typing replaces the text (capped at 2010 characters by the text box) and clears the error |
| AnalyzePage.Pressed | analyze/app/page.tsx:30-47 | a local error only sets the error line; a request starts loading, hides the result and clears the error |
| AnalyzePage.FailureText | analyze/app/page.tsx:57-62 | a failed response's message is "error: details" when details are present (an absent error reading "undefined"), else the error, else "서버 오류: " and the status |
| AnalyzePage.CaughtMessage | analyze/app/page.tsx:72-87 | a non-Error shows the generic text; an Error mentioning fetch or network shows the fixed network message, any other its own message |
| AnalyzePage.FailedToFetchRedundant | analyze/app/page.tsx:80-82 | the "Failed to fetch" test adds nothing, since such a message already contains "fetch" |
| AnalyzePage.Completed | analyze/app/page.tsx:48-91 | loading always stops; a result is kept exactly on success; any failure clears and hides the result and shows the caught message |
| AnalyzePage.Revealed | analyze/app/page.tsx:67-71 | the timer a success sets turns the result display on and changes nothing else |
| AnalyzePage.SuccessIsShown | analyze/app/page.tsx:65-71 | a successful request followed by its timer shows the new analysis with loading over |
| AnalyzePage.RouteErrorShownVerbatim | analyze/app/page.tsx:57-87 | a route rejection without details shows the route's error text as it is, unless it mentions fetch or network |
| AnalyzePage.DevelopmentDetailsCanTurnIntoNetworkMessage | analyze/app/page.tsx:57-82 | a development rejection whose details mention "fetch" is shown as the network message, whatever the route's own error text |
| PostList.RequestFor | gesipan/components/PostList.tsx:18 | each fetch asks for the current page, ten posts, in "RESENT" order |
| PostList.Fetched | gesipan/components/PostList.tsx:15-28 | a successful reply with data replaces the posts (a missing list reading as empty) and the page count (missing reading 0); anything else keeps them; loading always stops and the page never moves |
| PostList.View | gesipan/components/PostList.tsx:41-53 | the skeleton shows exactly when loading with no posts, the empty message exactly when not loading with no posts, and the cards otherwise, one per post in order |
| PostList.PagerOf | gesipan/components/PostList.tsx:55-75 | the pager shows exactly when there is more than one page; previous is disabled exactly on page 0, next exactly from page totalPages-1 on; the label is page+1 / totalPages |
| PostList.Clicked | gesipan/components/PostList.tsx:58-68 | a disabled button does nothing; an enabled next moves exactly one page on and an enabled previous one page back, starting a fetch |
| PostList.ClickKeepsRange | gesipan/components/PostList.tsx:58-69 | from a page in [0, totalPages-1] no click leaves that range |
| PostList.ReplayKeepsRange | gesipan/components/PostList.tsx:58-69 | any sequence of clicks keeps the page in range and moves it at most one page per click |
| PostList.NextReachesEveryPage | gesipan/components/PostList.tsx:68-69 | every page can be reached from the first by pressing next |
| PostList.StaleDeepPage | gesipan/components/PostList.tsx:55-69 | a shorter page count after a fetch can leave the page past the end: next is disabled, the label shows "5 / 2", and previous only steps back one page |
| Text.Trim | todolist/todo/app/api/ai/parse-todo/route.ts:14 | the trimmed text is no longer than the input and neither starts nor ends with whitespace |
| Text.TrimIsSlice | todolist/todo/app/api/ai/parse-todo/route.ts:14 | the trimmed text is a slice of the input with only whitespace cut from either end |
| Text.LineHasMeaning | todolist/todo/app/signup/page.tsx:33 | a lookahead `(?=.*c)` holds exactly when a wanted character occurs before the first line terminator |
| Text.SplitJoin | todolist/todo/lib/supabase/server.js:39 | splitting a join of separator-free pieces gives back the pieces |
| Text.SkipWhile | analyze/app/api/sentiment/route.ts:61 | the greedy `\s*` stops at the first non-space character after a run of spaces |
| Text.RunEndsAtSkip | analyze/app/api/sentiment/route.ts:61 | a space run followed by a non-space ends exactly where the greedy skip stops |
| Text.NatToString | analyze/app/api/sentiment/route.ts:23 | a count renders as a non-empty string of digits without a leading zero |
| Text.DecimalOfNatToString | analyze/app/api/sentiment/route.ts:82 | reading back the rendered digits (as parseInt does) gives the number |
| Keywords.FirstFiring | todolist/todo/app/login/page.tsx:103-129 | an ordered keyword chain gives nothing exactly when no rule fires, and otherwise the outcome of the first rule that fires |
| Base.FilterCons | todolist/todo/app/api/ai/summary/route.ts:153-155 | the first element survives a filter exactly when it satisfies the predicate, ahead of the survivors of the rest |
| Base.FilterAppend | todolist/todo/app/api/ai/summary/route.ts:153-155 | filtering keeps the order: a filtered concatenation is the concatenation of the filtered parts |
| Base.MapAppend | todolist/todo/lib/supabase/server.js:39-44 | mapping keeps the order: a mapped concatenation is the concatenation of the mapped parts |

## Left out

- Calls to the language model (`generateObject`, `generateText`) and the prompt text: the model's
  answer is an arbitrary input value (a string or a record) or an exception.
- Database and auth-provider calls, `fetch`, toasts, router pushes, timers and `window.history`:
  I/O. Only the decision each guard makes, and the scope of each write, is modelled.
- Clock: `startOfDay`, `endOfDay`, `startOfWeek` (Sunday-first, as the `ko` locale has it),
  `getHours` and `getDay` are defined on integer milliseconds in one fixed time zone; daylight saving
  time and time-zone offsets are not modelled. The summary and parse endpoints' fixed "now"
  (2025-12-23) is a parameter.
- `date-fns` `parse(…, "yyyy-MM-dd")` is a function parameter returning a time or nothing, and
  `zod`'s `.email()` a predicate parameter.
- `toLowerCase` is modelled for ASCII letters only; every keyword the classifiers search for is
  ASCII or Hangul, which has no case. The home page's title search lowercases user titles and
  queries too, so `TodoView.Search` differs from JavaScript for titles with non-ASCII cased letters
  (Latin-1, Greek, Cyrillic and the like).
- String lengths count Unicode scalar values, not UTF-16 code units, so texts with characters outside
  the Basic Multilingual Plane have different lengths here than in JavaScript.
- The title sort's `localeCompare(…, "ko")` is modelled as code-point order; collation is not modelled.
- Rates are exact `real` values; `toFixed` formatting in the prompt is not modelled.
- `parseInt` of a digit run is its exact value; precision loss for runs over 2^53 is not modelled,
  and no confidence that large survives clamping anyway.
- The `/i` flag of the sentiment expressions is not modelled: their literals are Hangul with no case.
- The debug-only recomputation and logging in the summary route, and every `console` call.
- The account-deletion route's exceptions from provider calls other than the `TypeError` a null body
  raises; delete errors are logged by the route and do not change its response, so they are absent.
- The text box's `maxLength` is modelled as a cap on typed input, not as browser behaviour.
- The portfolio app, the forum's layout, post page and login modal, `todo-list.tsx` and
  `lib/supabase/client.ts`: rendering and wiring without local logic.
- SentimentRoute.Analyse: states only the bounds on the result; how the label, the confidences and
  the reason are read from the answer is stated by the `SentimentParse` members it is built from.
- SentimentParse.Label: states when each label must and may be chosen, not the full ordered chain
  of literal and regular-expression tests; `LabelReadBack` and `NotMarkedOther` cover the answer
  format the route asks for.
- Analytics.Categories: the histogram is a map from category names to counts, so a category named
  after a key of `Object.prototype` (`__proto__`, `constructor`, `toString`, …) counts from 1 here,
  whereas the plain-object histogram of the route reads the inherited value first (and `__proto__`
  is not stored as an own key at all).
- SummaryRoute.OwnRows: rows with equal due dates are kept in table order; the order the database
  returns them in is not modelled.
- SummaryRoute.Post, ParseTodo.Post: a JSON `null` body is the only exception modelled before the
  model call; the `TypeError` message the engine raises for it is a parameter.
- Database defaults and triggers are not modelled: `createdDate` is always present (the routes'
  `if (todo.created_date)` tests at lines 74 and 101 of the summary route are taken as always
  true), and no trigger touches `updated_at` on a write, so `TodoGuards.Apply` keeps the
  timestamps while `OnTime` and the week filter read `updated_at` as the completion time.
- The response schema of the parse endpoint (title at most 80, description at most 500, category at
  most 30 characters) is enforced by `generateObject`, which throws on a longer answer; `RawTodo`
  admits such answers, so the 77-character-plus-"..." branch of `ParseTodo.FinalTitle` is reached
  only by answers the route never receives.
- The 50 ms timer of the sentiment page is modelled as a separate step (`AnalyzePage.Revealed`);
  its delay, and a new request starting before it fires, are not modelled.

=== FILE: analytics.dfy ===
/** `analyzeTodos` of the summary endpoint (app/api/ai/summary/route.ts): the period filter and
    every statistic computed over the filtered to-dos before the model is asked for a summary. */
module Analytics {
  import opened Base
  import opened Clock
  import opened Todos

  datatype Period = Today | Week

  // ---------------------------------------------------------------- period filter

  /** The "today" filter: due today, created today, or open and due between the start and the
      end of today. */
  predicate InToday(t: Todo, now: int) {
    var today := StartOfDay(now);
    || (t.dueDate.Some? && StartOfDay(t.dueDate.value) == today)
    || StartOfDay(t.createdDate) == today
    || (!t.completed && t.dueDate.Some? && t.dueDate.value <= EndOfDay(now) && t.dueDate.value >= today)
  }

  /** The "week" filter: due this week, created this week, completed this week, or open and due
      this week; every date is compared by its day. */
  predicate InWeek(t: Todo, now: int) {
    var weekStart := StartOfWeek(now);
    var weekEnd := EndOfWeek(now);
    || (t.dueDate.Some? && Within(StartOfDay(t.dueDate.value), weekStart, weekEnd))
    || Within(StartOfDay(t.createdDate), weekStart, weekEnd)
    || (t.completed && t.updatedAt.Some? && Within(StartOfDay(t.updatedAt.value), weekStart, weekEnd))
    || (!t.completed && t.dueDate.Some?
        && StartOfDay(t.dueDate.value) <= weekEnd && StartOfDay(t.dueDate.value) >= weekStart)
  }

  predicate InPeriod(period: Period, t: Todo, now: int) {
    match period
    case Today => InToday(t, now)
    case Week => InWeek(t, now)
  }

  function PeriodFilter(period: Period, now: int): Todo -> bool {
    (t: Todo) => InPeriod(period, t, now)
  }

  /** The last clause of each filter adds nothing: a to-do is in today's list exactly when it is
      due today or was created today, and in the week's list exactly when it is due, created or
      completed this week. */
  lemma PeriodFilterSimplified(t: Todo, now: int)
    ensures InToday(t, now) <==>
      (t.dueDate.Some? && StartOfDay(t.dueDate.value) == StartOfDay(now))
      || StartOfDay(t.createdDate) == StartOfDay(now)
    ensures InWeek(t, now) <==>
      var weekStart := StartOfWeek(now);
      var weekEnd := EndOfWeek(now);
      || (t.dueDate.Some? && Within(StartOfDay(t.dueDate.value), weekStart, weekEnd))
      || Within(StartOfDay(t.createdDate), weekStart, weekEnd)
      || (t.completed && t.updatedAt.Some? && Within(StartOfDay(t.updatedAt.value), weekStart, weekEnd))
  {
    if t.dueDate.Some? {
      WithinDayIffSameDay(t.dueDate.value, StartOfDay(now));
    }
  }

  // ---------------------------------------------------------------- rates

  /** `total > 0 ? (part / total) * 100 : 0`. */
  function Rate(part: nat, whole: nat): (r: real)
    ensures whole == 0 ==> r == 0.0
    ensures whole > 0 ==> r * (whole as real) == (part as real) * 100.0
    ensures part <= whole ==> 0.0 <= r <= 100.0
  {
    if whole > 0 then
      var q := part as real / whole as real;
      assert q * whole as real == part as real;
      q * 100.0
    else 0.0
  }

  // ---------------------------------------------------------------- selectors

  function PriorityIs(p: Priority): Todo -> bool {
    (t: Todo) => t.priority == p
  }

  function PriorityDone(p: Priority): Todo -> bool {
    (t: Todo) => t.priority == p && t.completed
  }

  function PriorityOpen(p: Priority): Todo -> bool {
    (t: Todo) => t.priority == p && !t.completed
  }

  /** Open with a due date before `today`. */
  function DueBefore(today: int): Todo -> bool {
    (t: Todo) => !t.completed && t.dueDate.Some? && t.dueDate.value < today
  }

  /** Open with a due date in `[start, end]`. */
  function DueWithin(start: int, end: int): Todo -> bool {
    (t: Todo) => !t.completed && t.dueDate.Some? && Within(t.dueDate.value, start, end)
  }

  /** Completed no later than due: `updated_at <= due_date`, both set. */
  predicate OnTime(t: Todo) {
    t.dueDate.Some? && t.updatedAt.Some? && t.updatedAt.value <= t.dueDate.value
  }

  // ---------------------------------------------------------------- priority statistics

  datatype PriorityStats = PriorityStats(total: nat, completed: nat, rate: real)

  /** One entry of `priorityCompletion`. */
  function PriorityStatsOf(s: seq<Todo>, p: Priority): (st: PriorityStats)
    ensures st.total == Count(s, PriorityIs(p)) && st.completed == Count(s, PriorityDone(p))
    ensures st.completed <= st.total
    ensures st.total == 0 ==> st.rate == 0.0
    ensures st.total > 0 ==> st.rate * st.total as real == st.completed as real * 100.0
    ensures 0.0 <= st.rate <= 100.0
  {
    CountMonotone(s, PriorityDone(p), PriorityIs(p));
    var total := Count(s, PriorityIs(p));
    var completed := Count(s, PriorityDone(p));
    PriorityStats(total, completed, Rate(completed, total))
  }

  /** Every to-do has exactly one priority, so the three totals add up to the list. */
  lemma PriorityTotalsPartition(s: seq<Todo>)
    ensures Count(s, PriorityIs(High)) + Count(s, PriorityIs(Medium)) + Count(s, PriorityIs(Low)) == |s|
  {
    var highOrMedium: Todo -> bool := (t: Todo) => t.priority == High || t.priority == Medium;
    CountDisjoint(s, PriorityIs(High), PriorityIs(Medium), highOrMedium);
    FilterPartition(s, highOrMedium, PriorityIs(Low));
  }

  /** ... and the three open counts add up to the open to-dos. */
  lemma PriorityOpenPartition(s: seq<Todo>)
    ensures Count(s, PriorityOpen(High)) + Count(s, PriorityOpen(Medium)) + Count(s, PriorityOpen(Low))
      == Count(s, IsOpen)
  {
    var highOrMedium: Todo -> bool := (t: Todo) => (t.priority == High || t.priority == Medium) && !t.completed;
    CountDisjoint(s, PriorityOpen(High), PriorityOpen(Medium), highOrMedium);
    CountDisjoint(s, highOrMedium, PriorityOpen(Low), IsOpen);
  }

  // ---------------------------------------------------------------- due-date counts

  /** Overdue, due today and due tomorrow are disjoint classes of open to-dos, so together they
      never exceed the open count. */
  lemma DueCountsBounded(s: seq<Todo>, now: int)
    ensures var today := StartOfDay(now);
      var tomorrow := today + DayMs;
      Count(s, DueBefore(today)) + Count(s, DueWithin(today, EndOfDay(now)))
        + Count(s, DueWithin(tomorrow, EndOfDay(tomorrow))) <= Count(s, IsOpen)
  {
    var today := StartOfDay(now);
    var tomorrow := today + DayMs;
    var overdueOrToday: Todo -> bool := (t: Todo) => !t.completed && t.dueDate.Some? && t.dueDate.value <= EndOfDay(now);
    var upToTomorrow: Todo -> bool := (t: Todo) => !t.completed && t.dueDate.Some? && t.dueDate.value <= EndOfDay(tomorrow);
    CountDisjoint(s, DueBefore(today), DueWithin(today, EndOfDay(now)), overdueOrToday);
    assert StartOfDay(tomorrow) == tomorrow;
    CountDisjoint(s, overdueOrToday, DueWithin(tomorrow, EndOfDay(tomorrow)), upToTomorrow);
    CountMonotone(s, upToTomorrow, IsOpen);
  }

  // ---------------------------------------------------------------- time of day

  datatype Bucket = Morning | Afternoon | Evening | Night

  /** 09-12 morning, 12-18 afternoon, 18-21 evening, anything else night. */
  function BucketOf(hour: int): (b: Bucket)
    ensures b == Morning <==> 9 <= hour < 12
    ensures b == Afternoon <==> 12 <= hour < 18
    ensures b == Evening <==> 18 <= hour < 21
    ensures b == Night <==> hour < 9 || hour >= 21
  {
    if hour >= 9 && hour < 12 then Morning
    else if hour >= 12 && hour < 18 then Afternoon
    else if hour >= 18 && hour < 21 then Evening
    else Night
  }

  function InBucket(b: Bucket): Todo -> bool {
    (t: Todo) => t.dueDate.Some? && BucketOf(HourOf(t.dueDate.value)) == b
  }

  datatype TimeDistribution = TimeDistribution(morning: nat, afternoon: nat, evening: nat, night: nat) {
    function Get(b: Bucket): nat {
      match b
      case Morning => morning
      case Afternoon => afternoon
      case Evening => evening
      case Night => night
    }

    function Bump(b: Bucket): TimeDistribution {
      match b
      case Morning => this.(morning := morning + 1)
      case Afternoon => this.(afternoon := afternoon + 1)
      case Evening => this.(evening := evening + 1)
      case Night => this.(night := night + 1)
    }

    function Sum(): nat {
      morning + afternoon + evening + night
    }
  }

  /** The `forEach` over the filtered to-dos: each dated one bumps the bucket of its due hour. */
  function Distribute(s: seq<Todo>): (d: TimeDistribution)
    ensures d.morning == Count(s, InBucket(Morning))
    ensures d.afternoon == Count(s, InBucket(Afternoon))
    ensures d.evening == Count(s, InBucket(Evening))
    ensures d.night == Count(s, InBucket(Night))
  {
    if s == [] then TimeDistribution(0, 0, 0, 0)
    else
      var d := Distribute(s[1..]);
      CountStep(s, InBucket(Morning));
      CountStep(s, InBucket(Afternoon));
      CountStep(s, InBucket(Evening));
      CountStep(s, InBucket(Night));
      if s[0].dueDate.None? then d
      else
        var b := BucketOf(HourOf(s[0].dueDate.value));
        TimeDistribution(
          d.morning + (if b == Morning then 1 else 0), d.afternoon + (if b == Afternoon then 1 else 0),
          d.evening + (if b == Evening then 1 else 0), d.night + (if b == Night then 1 else 0))
  }

  /** Every dated to-do lands in exactly one bucket, so the four counts add up to the number of
      dated to-dos. */
  lemma {:induction false} BucketsPartition(s: seq<Todo>)
    ensures Count(s, InBucket(Morning)) + Count(s, InBucket(Afternoon)) + Count(s, InBucket(Evening))
      + Count(s, InBucket(Night)) == Count(s, HasDue)
  {
    if s != [] {
      BucketsPartition(s[1..]);
      CountStep(s, InBucket(Morning));
      CountStep(s, InBucket(Afternoon));
      CountStep(s, InBucket(Evening));
      CountStep(s, InBucket(Night));
      CountStep(s, HasDue);
    }
  }

  /** `mostProductiveTime`: the first bucket with the highest count, in the order morning,
      afternoon, evening, night (a stable sort by descending count, then its head). */
  function MostProductive(d: TimeDistribution): (b: Bucket)
    ensures forall c :: d.Get(c) <= d.Get(b)
    ensures forall c :: BucketIndex(c) < BucketIndex(b) ==> d.Get(c) < d.Get(b)
  {
    var best := Morning;
    var best := if d.afternoon > d.Get(best) then Afternoon else best;
    var best := if d.evening > d.Get(best) then Evening else best;
    if d.night > d.Get(best) then Night else best
  }

  function BucketIndex(b: Bucket): int {
    match b
    case Morning => 0
    case Afternoon => 1
    case Evening => 2
    case Night => 3
  }

  // ---------------------------------------------------------------- categories

  const OtherCategory: string := "기타"

  /** `todo.category || "기타"`. */
  function CategoryKey(t: Todo): string {
    if t.category.Some? && t.category.value != [] then t.category.value else OtherCategory
  }

  function CategoryIs(c: string): Todo -> bool {
    (t: Todo) => CategoryKey(t) == c
  }

  /** The sum of the values of a histogram. */
  ghost function Total(m: map<string, nat>): nat
    decreases |m.Keys|
  {
    if m.Keys == {} then 0
    else
      var k :| k in m.Keys;
      assert (m - {k}).Keys == m.Keys - {k};
      m[k] + Total(m - {k})
  }

  lemma {:induction false} TotalRemove(m: map<string, nat>, x: string)
    requires x in m
    ensures Total(m) == m[x] + Total(m - {x})
    decreases |m.Keys|
  {
    var k :| k in m.Keys && Total(m) == m[k] + Total(m - {k});
    if k != x {
      assert (m - {k}).Keys == m.Keys - {k};
      TotalRemove(m - {k}, x);
      TotalRemove(m - {x}, k);
      assert m - {k} - {x} == m - {x} - {k};
    }
  }

  /** Adding one to a key, new or present, adds one to the total. */
  lemma TotalBump(m: map<string, nat>, k: string)
    ensures Total(m[k := (if k in m then m[k] else 0) + 1]) == Total(m) + 1
  {
    var m' := m[k := (if k in m then m[k] else 0) + 1];
    TotalRemove(m', k);
    if k in m {
      TotalRemove(m, k);
      assert m' - {k} == m - {k};
    } else {
      assert m' - {k} == m;
    }
  }

  /** `categoryDistribution`: how many filtered to-dos fall under each category key. */
  function Categories(s: seq<Todo>): (m: map<string, nat>)
    ensures forall c :: c in m <==> Count(s, CategoryIs(c)) > 0
    ensures forall c :: c in m ==> m[c] == Count(s, CategoryIs(c))
    ensures Total(m) == |s|
  {
    if s == [] then map[]
    else
      var m := Categories(s[1..]);
      var k := CategoryKey(s[0]);
      TotalBump(m, k);
      m[k := (if k in m then m[k] else 0) + 1]
  }

  /** A to-do with no category or an empty one is counted under "기타". */
  lemma UncategorisedCountedAsOther(s: seq<Todo>, i: int)
    requires 0 <= i < |s| && (s[i].category.None? || s[i].category == Some([]))
    ensures OtherCategory in Categories(s) && Categories(s)[OtherCategory] >= 1
  {
    CountPositive(s, CategoryIs(OtherCategory), i);
  }

  // ---------------------------------------------------------------- days of the week

  datatype DayStats = DayStats(total: nat, completed: nat)

  function DueOnDay(d: int): Todo -> bool {
    (t: Todo) => t.dueDate.Some? && DayOfWeek(t.dueDate.value) == d
  }

  function DoneOnDay(d: int): Todo -> bool {
    (t: Todo) => t.dueDate.Some? && DayOfWeek(t.dueDate.value) == d && t.completed
  }

  predicate IsDay(d: int) {
    0 <= d < 7
  }

  /** Seven empty slots, Sunday to Saturday. */
  const EmptyWeek: map<int, DayStats> :=
    map[0 := DayStats(0, 0), 1 := DayStats(0, 0), 2 := DayStats(0, 0), 3 := DayStats(0, 0),
        4 := DayStats(0, 0), 5 := DayStats(0, 0), 6 := DayStats(0, 0)]

  /** `dayOfWeekDistribution` for a week summary: a slot for each day from Sunday (0) to
      Saturday (6) counting the dated to-dos due that day, and the completed ones among them. */
  function WeekDays(s: seq<Todo>): (m: map<int, DayStats>)
    ensures forall d :: d in m <==> IsDay(d)
    ensures forall d :: IsDay(d) ==> m[d] == DayStats(Count(s, DueOnDay(d)), Count(s, DoneOnDay(d)))
  {
    if s == [] then EmptyWeek
    else
      var m := WeekDays(s[1..]);
      var t := s[0];
      if t.dueDate.None? then m
      else
        var d := DayOfWeek(t.dueDate.value);
        m[d := DayStats(m[d].total + 1, m[d].completed + (if t.completed then 1 else 0))]
  }

  // ---------------------------------------------------------------- previous period

  /** The to-dos due within the previous period: yesterday, or the week before this one. */
  function PreviousFilter(period: Period, now: int): Todo -> bool {
    match period
    case Today =>
      var yesterday := StartOfDay(now) - DayMs;
      (t: Todo) => t.dueDate.Some? && Within(t.dueDate.value, StartOfDay(yesterday), EndOfDay(yesterday))
    case Week =>
      (t: Todo) => t.dueDate.Some? && Within(t.dueDate.value, StartOfWeek(now) - 7 * DayMs, EndOfWeek(now) - 7 * DayMs)
  }

  datatype Comparison = Comparison(completionRate: real, improvement: real)

  /** `previousPeriodComparison`: present only when the previous period had to-dos. */
  function Compare(all: Option<seq<Todo>>, period: Period, now: int, rate: real): (c: Option<Comparison>)
    ensures c.Some? <==> all.Some? && Count(all.value, PreviousFilter(period, now)) > 0
    ensures c.Some? ==>
      0.0 <= c.value.completionRate <= 100.0 && c.value.improvement == rate - c.value.completionRate
    ensures c.Some? ==>
      c.value.completionRate
        == Rate(Count(Filter(all.value, PreviousFilter(period, now)), IsCompleted),
                Count(all.value, PreviousFilter(period, now)))
  {
    if all.None? then None
    else
      var previous := Filter(all.value, PreviousFilter(period, now));
      FilterCount(all.value, PreviousFilter(period, now));
      if |previous| == 0 then None
      else
        var previousRate := Rate(Count(previous, IsCompleted), |previous|);
        Some(Comparison(previousRate, rate - previousRate))
  }

  // ---------------------------------------------------------------- urgent tasks

  const MaxUrgent: nat := 5

  /** `urgentTasks`: the titles of the first five open high-priority to-dos, in list order. */
  function UrgentTasks(s: seq<Todo>): (r: seq<string>)
    ensures |r| <= MaxUrgent
    ensures |r| == if Count(s, PriorityOpen(High)) < MaxUrgent then Count(s, PriorityOpen(High)) else MaxUrgent
    ensures forall i :: 0 <= i < |r| ==>
      i < |Filter(s, PriorityOpen(High))| &&
      var t := Filter(s, PriorityOpen(High))[i];
      r[i] == t.title && t.priority == High && !t.completed && t in s
  {
    var urgent := Filter(s, PriorityOpen(High));
    var r := Take(Map(urgent, (t: Todo) => t.title), MaxUrgent);
    FilterCount(s, PriorityOpen(High));
    assert forall i :: 0 <= i < |urgent| ==> urgent[i] in multiset(urgent);
    r
  }

  // ---------------------------------------------------------------- the analysis

  datatype Analysis = Analysis(
    total: nat,
    completed: nat,
    completionRate: real,
    highPriority: nat,
    mediumPriority: nat,
    lowPriority: nat,
    overdue: nat,
    todayDue: nat,
    tomorrowDue: nat,
    timeDistribution: TimeDistribution,
    urgentTasks: seq<string>,
    high: PriorityStats,
    medium: PriorityStats,
    low: PriorityStats,
    deadlineCompliance: real,
    postponedCount: nat,
    categoryDistribution: map<string, nat>,
    dayOfWeekDistribution: map<int, DayStats>,
    completedTasks: seq<Todo>,
    uncompletedTasks: seq<Todo>,
    previousPeriodComparison: Option<Comparison>)

  /** The to-dos of the period. */
  function Filtered(todos: seq<Todo>, period: Period, now: int): (r: seq<Todo>)
    ensures |r| == Count(todos, PeriodFilter(period, now))
    ensures forall i :: 0 <= i < |r| ==> InPeriod(period, r[i], now)
    ensures forall x :: multiset(r)[x] == if InPeriod(period, x, now) then multiset(todos)[x] else 0
  {
    FilterCount(todos, PeriodFilter(period, now));
    Filter(todos, PeriodFilter(period, now))
  }

  /** The period filter keeps list order: the to-dos of a concatenation are those of its first
      part followed by those of its second. */
  lemma FilteredAppend(a: seq<Todo>, b: seq<Todo>, period: Period, now: int)
    ensures Filtered(a + b, period, now) == Filtered(a, period, now) + Filtered(b, period, now)
  {
    FilterAppend(a, b, PeriodFilter(period, now));
  }

  /** `completedTasks` and `uncompletedTasks`. */
  datatype Split = Split(completedTasks: seq<Todo>, uncompletedTasks: seq<Todo>)

  /** The completed and the open to-dos, each in list order: together they are the list. */
  function SplitByCompletion(s: seq<Todo>): (p: Split)
    ensures |p.completedTasks| == Count(s, IsCompleted)
    ensures |p.uncompletedTasks| == Count(s, IsOpen)
    ensures |p.completedTasks| + |p.uncompletedTasks| == |s|
    ensures multiset(p.completedTasks) + multiset(p.uncompletedTasks) == multiset(s)
    ensures forall i :: 0 <= i < |p.completedTasks| ==> p.completedTasks[i].completed
    ensures forall i :: 0 <= i < |p.uncompletedTasks| ==> !p.uncompletedTasks[i].completed
  {
    var done := Filter(s, IsCompleted);
    var open := Filter(s, IsOpen);
    FilterPartition(s, IsCompleted, IsOpen);
    FilterCount(s, IsCompleted);
    FilterCount(s, IsOpen);
    assert multiset(done) + multiset(open) == multiset(s);
    Split(done, open)
  }

  /** `analyzeTodos(todos, period, now, allTodos)`. */
  function AnalyzeTodos(todos: seq<Todo>, period: Period, now: int, all: Option<seq<Todo>>): (a: Analysis)
    ensures a.total == |Filtered(todos, period, now)|
    ensures a.completed <= a.total
    ensures a.total == 0 ==> a.completionRate == 0.0
    ensures 0.0 <= a.completionRate <= 100.0
    ensures a.completed == |a.completedTasks|
    ensures |a.completedTasks| + |a.uncompletedTasks| == a.total
    ensures 0.0 <= a.deadlineCompliance <= 100.0
    ensures a.postponedCount == a.overdue
    ensures period == Today ==> a.dayOfWeekDistribution == map[]
    ensures period == Week ==> forall d :: d in a.dayOfWeekDistribution <==> IsDay(d)
    ensures |a.urgentTasks| <= MaxUrgent
  {
    var s := Filtered(todos, period, now);
    var today := StartOfDay(now);
    var tomorrow := today + DayMs;
    var split := SplitByCompletion(s);
    var total := |s|;
    var completed := |split.completedTasks|;
    var completionRate := Rate(completed, total);
    var withDeadline := Count(split.completedTasks, HasDue);
    var onTime := Count(split.completedTasks, OnTime);
    CountMonotone(split.completedTasks, OnTime, HasDue);
    var overdue := Count(s, DueBefore(today));
    Analysis(
      total, completed, completionRate,
      Count(s, PriorityOpen(High)), Count(s, PriorityOpen(Medium)), Count(s, PriorityOpen(Low)),
      overdue, Count(s, DueWithin(today, EndOfDay(now))),
      Count(s, DueWithin(tomorrow, EndOfDay(tomorrow))),
      Distribute(s), UrgentTasks(s),
      PriorityStatsOf(s, High), PriorityStatsOf(s, Medium), PriorityStatsOf(s, Low),
      Rate(onTime, withDeadline), overdue, Categories(s),
      if period == Week then WeekDays(s) else map[],
      split.completedTasks, split.uncompletedTasks,
      Compare(all, period, now, completionRate))
  }

  /** The completion figures of the analysis: the period's completed and open to-dos in list
      order, its completion rate, and the share of dated completed to-dos done on time. */
  lemma {:induction false} AnalysisCompletion(todos: seq<Todo>, period: Period, now: int, all: Option<seq<Todo>>)
    ensures var a := AnalyzeTodos(todos, period, now, all);
      var s := Filtered(todos, period, now);
      && a.completedTasks == Filter(s, IsCompleted)
      && a.uncompletedTasks == Filter(s, IsOpen)
      && a.completed == Count(s, IsCompleted)
      && a.completionRate == Rate(a.completed, a.total)
      && a.deadlineCompliance == Rate(Count(a.completedTasks, OnTime), Count(a.completedTasks, HasDue))
  {
  }

  /** The urgent titles, the per-priority statistics and the comparison with the previous
      period are those of the period's to-dos. */
  lemma {:induction false} AnalysisParts(todos: seq<Todo>, period: Period, now: int, all: Option<seq<Todo>>)
    ensures AnalyzeTodos(todos, period, now, all).urgentTasks == UrgentTasks(Filtered(todos, period, now))
    ensures AnalyzeTodos(todos, period, now, all).high == PriorityStatsOf(Filtered(todos, period, now), High)
    ensures AnalyzeTodos(todos, period, now, all).medium == PriorityStatsOf(Filtered(todos, period, now), Medium)
    ensures AnalyzeTodos(todos, period, now, all).low == PriorityStatsOf(Filtered(todos, period, now), Low)
    ensures AnalyzeTodos(todos, period, now, all).previousPeriodComparison
      == Compare(all, period, now, AnalyzeTodos(todos, period, now, all).completionRate)
  {
  }

  /** The open to-dos of each priority in the analysis are counted over the period's to-dos. */
  lemma {:induction false} AnalysisOpenCounts(todos: seq<Todo>, period: Period, now: int, all: Option<seq<Todo>>)
    ensures var a := AnalyzeTodos(todos, period, now, all);
      var s := Filtered(todos, period, now);
      && a.highPriority == Count(s, PriorityOpen(High))
      && a.mediumPriority == Count(s, PriorityOpen(Medium))
      && a.lowPriority == Count(s, PriorityOpen(Low))
  {
  }

  /** Overdue, due today and due tomorrow count the period's open to-dos due before today,
      within today and within tomorrow. */
  lemma {:induction false} AnalysisDueValues(todos: seq<Todo>, period: Period, now: int, all: Option<seq<Todo>>)
    ensures var a := AnalyzeTodos(todos, period, now, all);
      var s := Filtered(todos, period, now);
      var today := StartOfDay(now);
      var tomorrow := today + DayMs;
      && a.overdue == Count(s, DueBefore(today))
      && a.todayDue == Count(s, DueWithin(today, EndOfDay(now)))
      && a.tomorrowDue == Count(s, DueWithin(tomorrow, EndOfDay(tomorrow)))
  {
  }

  /** For a week, the weekday table is that of the period's to-dos. */
  lemma {:induction false} AnalysisWeekDays(todos: seq<Todo>, period: Period, now: int, all: Option<seq<Todo>>)
    ensures period == Week ==>
      AnalyzeTodos(todos, period, now, all).dayOfWeekDistribution == WeekDays(Filtered(todos, period, now))
  {
  }

  /** The per-priority totals add up to the period's total, and the per-priority open counts to
      the number of open to-dos. */
  lemma {:induction false} AnalysisPriorityCounts(todos: seq<Todo>, period: Period, now: int, all: Option<seq<Todo>>)
    ensures var a := AnalyzeTodos(todos, period, now, all);
      && a.high.total + a.medium.total + a.low.total == a.total
      && a.highPriority + a.mediumPriority + a.lowPriority == |a.uncompletedTasks|
  {
    var s := Filtered(todos, period, now);
    PriorityTotalsPartition(s);
    PriorityOpenPartition(s);
  }

  /** Overdue, due today and due tomorrow together never exceed the open to-dos. */
  lemma {:induction false} AnalysisDueCounts(todos: seq<Todo>, period: Period, now: int, all: Option<seq<Todo>>)
    ensures var a := AnalyzeTodos(todos, period, now, all);
      a.overdue + a.todayDue + a.tomorrowDue <= |a.uncompletedTasks|
  {
    DueCountsBounded(Filtered(todos, period, now), now);
  }

  /** The time-of-day buckets are those of the period's to-dos, and count each dated to-do of
      the period exactly once. */
  lemma {:induction false} AnalysisTimeBuckets(todos: seq<Todo>, period: Period, now: int, all: Option<seq<Todo>>)
    ensures AnalyzeTodos(todos, period, now, all).timeDistribution == Distribute(Filtered(todos, period, now))
    ensures var a := AnalyzeTodos(todos, period, now, all);
      a.timeDistribution.Sum() == Count(Filtered(todos, period, now), HasDue) <= a.total
  {
    var s := Filtered(todos, period, now);
    DistributeSum(s);
    assert AnalyzeTodos(todos, period, now, all).timeDistribution == Distribute(s);
  }

  lemma {:induction false} DistributeSum(s: seq<Todo>)
    ensures Distribute(s).Sum() == Count(s, HasDue) <= |s|
  {
    BucketsPartition(s);
  }

  /** The category histogram is that of the period's to-dos, and counts every one of them
      exactly once. */
  lemma {:induction false} AnalysisCategories(todos: seq<Todo>, period: Period, now: int, all: Option<seq<Todo>>)
    ensures AnalyzeTodos(todos, period, now, all).categoryDistribution == Categories(Filtered(todos, period, now))
    ensures Total(AnalyzeTodos(todos, period, now, all).categoryDistribution) == AnalyzeTodos(todos, period, now, all).total
  {
    var s := Filtered(todos, period, now);
    assert AnalyzeTodos(todos, period, now, all).categoryDistribution == Categories(s);
  }
}

=== FILE: analyze_page.dfy ===
/** The sentiment page (analyze/app/page.tsx): the checks it makes before sending a text, the
    counter under the text box, the submit button's state, and the message it shows for each
    way the request can end. */
module AnalyzePage {
  import opened Base
  import opened Text
  import SentimentRoute

  const MaxTextLength: nat := 2000
  /** The counter turns orange when fewer characters than this remain. */
  const NearLimitMargin: nat := 100
  /** The text box's `maxLength`: a little beyond the limit the page checks itself. */
  const InputCap: nat := MaxTextLength + 10

  const NetworkMessage: string := "네트워크 오류가 발생했습니다. 인터넷 연결을 확인해주세요."
  const GenericFailure: string := "감성분석 중 오류가 발생했습니다."

  // ---------------------------------------------------------------- before sending

  /** What pressing the button does with the current text: an inline error, or a request. */
  datatype Check = LocalError(message: string) | Send(text: string)

  /** The page's own checks, which repeat the route's input checks with the same texts. */
  function LocalCheck(text: string): (c: Check)
    ensures c.Send? ==> c.text == text
    ensures IsBlank(text) ==> c == LocalError(SentimentRoute.EmptyTextMessage)
    ensures !IsBlank(text) && |text| > MaxTextLength ==> c == LocalError(SentimentRoute.TooLongMessage(|text|))
  {
    if IsBlank(text) then LocalError(SentimentRoute.EmptyTextMessage)
    else if |text| > MaxTextLength then LocalError(SentimentRoute.TooLongMessage(|text|))
    else Send(text)
  }

  /** The page sends exactly the texts the route admits, and for the others shows the text the
      route would have answered with. */
  lemma LocalCheckMatchesRoute(text: string, hasApiKey: bool, reply: SentimentRoute.ModelReply, development: bool)
    ensures LocalCheck(text).Send? <==> SentimentRoute.Admissible(Str(text))
    ensures LocalCheck(text).LocalError? ==>
      SentimentRoute.Post(SentimentRoute.Parsed(Str(text)), hasApiKey, reply, development).Rejected?
      && SentimentRoute.Post(SentimentRoute.Parsed(Str(text)), hasApiKey, reply, development).status == 400
      && SentimentRoute.Post(SentimentRoute.Parsed(Str(text)), hasApiKey, reply, development).error == LocalCheck(text).message
  {
  }

  /** The button is disabled while loading, for a blank text and for an over-long one. */
  predicate ButtonDisabled(text: string, isLoading: bool) {
    isLoading || IsBlank(text) || |text| > MaxTextLength
  }

  /** When idle the button is enabled exactly when pressing it would send a request. */
  lemma EnabledIffSends(text: string)
    ensures !ButtonDisabled(text, false) <==> LocalCheck(text).Send?
  {
  }

  /** Characters left before the limit; negative once it is exceeded. */
  function RemainingChars(text: string): int {
    MaxTextLength - |text|
  }

  /** The counter turns orange when fewer than 100 characters remain. */
  predicate NearLimit(text: string) {
    RemainingChars(text) < NearLimitMargin
  }

  /** The orange counter starts at 1901 characters, and every over-long text is near the limit. */
  lemma NearLimitThreshold(text: string)
    ensures NearLimit(text) <==> |text| > MaxTextLength - NearLimitMargin
    ensures |text| > MaxTextLength ==> NearLimit(text)
  {
  }

  // ---------------------------------------------------------------- page state

  /** The page's state: the text, the last result, the loading flag, whether the result is
      shown, and the error line. */
  datatype PageState = PageState(text: string, result: Option<SentimentRoute.Analysis>, isLoading: bool,
                                 showResult: bool, error: Option<string>)

  const Initial: PageState := PageState([], None, false, false, None)

  /** Typing replaces the text, capped by the text box, and clears the error line. */
  function Typed(s: PageState, input: string): (t: PageState)
    ensures |t.text| <= InputCap
    ensures |input| <= InputCap ==> t.text == input
    ensures t.error.None? && t.result == s.result && t.isLoading == s.isLoading
  {
    s.(text := if |input| <= InputCap then input else input[..InputCap], error := None)
  }

  /** Pressing the button: an inline error leaves everything else alone; a request starts
      loading, hides the result and clears the error. */
  function Pressed(s: PageState): (t: PageState)
    ensures LocalCheck(s.text).LocalError? ==> t == s.(error := Some(LocalCheck(s.text).message))
    ensures LocalCheck(s.text).Send? ==> t == s.(isLoading := true, showResult := false, error := None)
  {
    match LocalCheck(s.text)
    case LocalError(m) => s.(error := Some(m))
    case Send(_) => s.(isLoading := true, showResult := false, error := None)
  }

  // ---------------------------------------------------------------- the reply

  /** The JSON of a failed response, `{}` when it could not be read. */
  datatype ErrorBody = ErrorBody(error: Option<string>, details: Option<string>)

  /** How the request ended: a success with its JSON, a failure status with its JSON, or a
      thrown value (fetch failing, or the success JSON not parsing). */
  datatype Reply = Ok(analysis: SentimentRoute.Analysis) | NotOk(status: nat, body: ErrorBody)
                 | Threw(thrown: SentimentRoute.Thrown)

  /** A value interpolated into a template literal: `undefined` when absent. */
  function Interpolated(o: Option<string>): string {
    o.GetOr("undefined")
  }

  /** The message of the `Error` thrown for a failed response: with details, "error: details";
      otherwise the error, or the status. */
  function FailureText(status: nat, b: ErrorBody): (m: string)
    ensures NonEmpty(b.details).Some? ==> m == Interpolated(b.error) + ": " + b.details.value
    ensures NonEmpty(b.details).None? && NonEmpty(b.error).Some? ==> m == b.error.value
  {
    if NonEmpty(b.details).Some? then Interpolated(b.error) + ": " + b.details.value
    else NonEmpty(b.error).GetOr("서버 오류: " + NatToString(status))
  }

  /** The catch block: an `Error` whose message mentions fetch or network becomes the network
      message, any other `Error` shows its message, anything else the generic text. */
  function CaughtMessage(t: SentimentRoute.Thrown): (m: string)
    ensures t.OtherThrown? ==> m == GenericFailure
    ensures t.ErrorValue? && (Contains(t.message, "fetch") || Contains(t.message, "network")) ==> m == NetworkMessage
    ensures t.ErrorValue? && !Contains(t.message, "fetch") && !Contains(t.message, "network") ==> m == t.message
  {
    match t
    case OtherThrown => GenericFailure
    case ErrorValue(msg) =>
      FailedToFetchRedundant(msg);
      if Contains(msg, "fetch") || Contains(msg, "network") || Contains(msg, "Failed to fetch") then NetworkMessage
      else msg
  }

  /** The "Failed to fetch" test is redundant: such a message already contains "fetch". */
  lemma FailedToFetchRedundant(msg: string)
    ensures Contains(msg, "Failed to fetch") ==> Contains(msg, "fetch")
  {
    if Contains(msg, "Failed to fetch") {
      ContainsSlice(msg, "Failed to fetch", 10, 15);
      assert "Failed to fetch"[10..15] == "fetch";
    }
  }

  /** The end of a request: loading stops; a success stores the result, any failure clears it
      and sets the error line. */
  function Completed(s: PageState, reply: Reply): (t: PageState)
    ensures !t.isLoading && t.text == s.text
    ensures t.result.Some? <==> reply.Ok?
    ensures reply.Ok? ==> t.result == Some(reply.analysis) && t.error == s.error
    ensures reply.NotOk? ==>
      t.error == Some(CaughtMessage(SentimentRoute.ErrorValue(FailureText(reply.status, reply.body))))
    ensures reply.Threw? ==> t.error == Some(CaughtMessage(reply.thrown))
    ensures !reply.Ok? ==> !t.showResult
  {
    match reply
    case Ok(a) => s.(result := Some(a), isLoading := false)
    case NotOk(status, b) =>
      s.(error := Some(CaughtMessage(SentimentRoute.ErrorValue(FailureText(status, b)))), result := None,
         showResult := false, isLoading := false)
    case Threw(e) =>
      s.(error := Some(CaughtMessage(e)), result := None, showResult := false, isLoading := false)
  }

  /** The timer a success sets: 50 ms later the stored result is revealed. Nothing else changes. */
  function Revealed(s: PageState): (t: PageState)
    ensures t.showResult
    ensures t.text == s.text && t.result == s.result && t.isLoading == s.isLoading && t.error == s.error
  {
    s.(showResult := true)
  }

  /** A successful request followed by its timer shows the new analysis, with loading over. */
  lemma SuccessIsShown(s: PageState, a: SentimentRoute.Analysis)
    ensures var t := Revealed(Completed(s, Ok(a)));
      t.showResult && t.result == Some(a) && !t.isLoading && t.text == s.text
  {
  }

  /** What the page shows for each of the route's rejections outside development: its `error`
      text verbatim. */
  lemma RouteErrorShownVerbatim(s: PageState, status: nat, error: string)
    requires error != [] && !Contains(error, "fetch") && !Contains(error, "network")
    ensures Completed(s, NotOk(status, ErrorBody(Some(error), None))).error == Some(error)
  {
  }

  /** In development the route's network failure, whose details name a failed fetch, reaches the
      page as its own network message. */
  lemma DevelopmentDetailsCanTurnIntoNetworkMessage(s: PageState, status: nat, error: string, details: string)
    requires Contains(details, "fetch") && details != []
    ensures Completed(s, NotOk(status, ErrorBody(Some(error), Some(details)))).error == Some(NetworkMessage)
  {
    var m := error + ": " + details;
    var i :| 0 <= i <= |details| - 5 && StartsAt(details, i, "fetch");
    assert m[|error| + 2 + i..|error| + 2 + i + 5] == details[i..i + 5];
    assert StartsAt(m, |error| + 2 + i, "fetch");
  }
}

=== FILE: auth_hook.dfy ===
/** The authentication hook (hooks/use-auth.ts) and the guest-page redirect the login and
    sign-up pages repeat: how the user shown by the hook is derived from the provider's user,
    how the loading flag and the user change on the initial check and on each provider event,
    and where the router is sent. */
module AuthHook {
  import opened Base
  import opened Text

  const LoginPath: string := "/login"
  const SignupPath: string := "/signup"
  const HomePath: string := "/"
  const DefaultName: string := "사용자"
  const NoClientError: string := "Supabase client not available"

  // ---------------------------------------------------------------- users

  /** The provider's user: its id, its e-mail and the `name` of its metadata, each possibly
      absent. */
  datatype ProviderUser = ProviderUser(id: string, email: Option<string>, metadataName: Option<string>)

  /** The user the hook exposes. */
  datatype AuthUser = AuthUser(id: string, email: string, name: string)

  /** `email.split("@")[0]`: the text before the first "@". */
  function LocalPart(email: string): (r: string)
    ensures '@' !in r
    ensures r <= email
    ensures '@' in email ==> email[|r|] == '@'
    ensures '@' !in email ==> r == email
  {
    email[..IndexOf(email, '@')]
  }

  /** The name shown: the metadata name, else the e-mail's local part, else a default; an empty
      string counts as absent at each step. */
  function DisplayName(u: ProviderUser): (n: string)
    ensures n != []
    ensures NonEmpty(u.metadataName).Some? ==> n == u.metadataName.value
    ensures NonEmpty(u.metadataName).None? ==> '@' !in n
    ensures NonEmpty(u.metadataName).None? && n != DefaultName ==> u.email.Some? && n <= u.email.value
  {
    if NonEmpty(u.metadataName).Some? then u.metadataName.value
    else
      var local := if u.email.Some? then LocalPart(u.email.value) else [];
      if local != [] then local else DefaultName
  }

  function ToAuthUser(u: ProviderUser): (a: AuthUser)
    ensures a.id == u.id && a.email == u.email.GetOr([]) && a.name == DisplayName(u)
  {
    AuthUser(u.id, u.email.GetOr([]), DisplayName(u))
  }

  /** The e-mail's local part is used exactly when there is no metadata name and the e-mail
      does not start with "@". */
  lemma NameFromEmail(u: ProviderUser)
    requires NonEmpty(u.metadataName).None? && u.email.Some?
    ensures u.email.value != [] && u.email.value[0] != '@' ==> DisplayName(u) == LocalPart(u.email.value)
    ensures (u.email.value == [] || u.email.value[0] == '@') ==> DisplayName(u) == DefaultName
  {
    var e := u.email.value;
    if e != [] && e[0] != '@' {
      assert LocalPart(e)[0] == e[0];
    }
  }

  // ---------------------------------------------------------------- navigation

  /** The pages a signed-out visitor may stay on. */
  predicate IsGuestPage(path: string) {
    path == LoginPath || path == SignupPath
  }

  /** A router action: an optional `push` and whether `refresh` follows. */
  datatype Nav = Nav(push: Option<string>, refresh: bool)

  const Stay: Nav := Nav(None, false)

  /** Where the visitor ends up after `nav` on `path`. */
  function Landing(path: string, nav: Nav): string {
    nav.push.GetOr(path)
  }

  /** The hook's state; it starts with no user and loading. */
  datatype HookState = HookState(user: Option<AuthUser>, isLoading: bool)

  const Initial: HookState := HookState(None, true)

  /** A state change together with the router action it triggers. */
  datatype Step = Step(state: HookState, nav: Nav)

  /** A signed-out visitor away from the guest pages is sent to the login page. */
  function SignedOutNav(path: string, refresh: bool): (nav: Nav)
    ensures IsGuestPage(path) ==> nav == Stay
    ensures !IsGuestPage(path) ==> nav == Nav(Some(LoginPath), refresh)
  {
    if IsGuestPage(path) then Stay else Nav(Some(LoginPath), refresh)
  }

  /** A signed-in visitor on a guest page is sent home and the page refreshed. */
  function SignedInNav(path: string): (nav: Nav)
    ensures IsGuestPage(path) ==> nav == Nav(Some(HomePath), true)
    ensures !IsGuestPage(path) ==> nav == Stay
  {
    if IsGuestPage(path) then Nav(Some(HomePath), true) else Stay
  }

  // ---------------------------------------------------------------- initial check

  /** How `getUser` ended: an error (a missing session included), a user or none, or a throw. */
  datatype CheckReply = GetUserError | GotUser(user: Option<ProviderUser>) | CheckThrew

  /** `checkAuth`: every path ends with loading off; only a returned user is kept; a visitor
      without one is sent to the login page unless on a guest page, and a visitor with one is
      sent home from a guest page. */
  function CheckAuth(path: string, reply: CheckReply): (r: Step)
    ensures !r.state.isLoading
    ensures r.state.user.Some? <==> reply.GotUser? && reply.user.Some?
    ensures r.state.user.Some? ==> r.state.user.value == ToAuthUser(reply.user.value)
    ensures r.nav.push == Some(LoginPath) <==> r.state.user.None? && !IsGuestPage(path)
    ensures r.nav.push == Some(HomePath) <==> r.state.user.Some? && IsGuestPage(path)
    ensures r.nav.refresh <==> r.nav.push == Some(HomePath)
  {
    match reply
    case GotUser(Some(u)) => Step(HookState(Some(ToAuthUser(u)), false), SignedInNav(path))
    case _ => Step(HookState(None, false), SignedOutNav(path, false))
  }

  /** The mount effect: without a client loading simply stops; otherwise the check runs. */
  function Mount(s: HookState, hasClient: bool, path: string, reply: CheckReply): (r: Step)
    ensures !r.state.isLoading
    ensures !hasClient ==> r == Step(s.(isLoading := false), Stay)
    ensures hasClient ==> r == CheckAuth(path, reply)
  {
    if !hasClient then Step(s.(isLoading := false), Stay) else CheckAuth(path, reply)
  }

  // ---------------------------------------------------------------- provider events

  datatype AuthEvent = SignedIn | SignedOut | TokenRefreshed | InitialSession | OtherEvent

  /** The `onAuthStateChange` listener; `sessionUser` is `session?.user`. */
  function OnAuthChange(s: HookState, path: string, event: AuthEvent, sessionUser: Option<ProviderUser>): (r: Step)
    ensures r.state.isLoading ==> s.isLoading
    ensures r.nav != Stay ==> event == SignedIn || event == SignedOut
    ensures event == SignedIn && sessionUser.Some? ==>
      r == Step(HookState(Some(ToAuthUser(sessionUser.value)), false), SignedInNav(path))
    ensures event == SignedOut ==> r.state == HookState(None, false)
    ensures event == SignedOut ==> r.nav == SignedOutNav(path, true)
    ensures event == InitialSession ==>
      r.state == HookState(if sessionUser.Some? then Some(ToAuthUser(sessionUser.value)) else None, false)
    ensures event == TokenRefreshed && sessionUser.Some? ==>
      r.state == s.(user := Some(ToAuthUser(sessionUser.value)))
    ensures (event == OtherEvent || (event in {SignedIn, TokenRefreshed} && sessionUser.None?)) ==> r == Step(s, Stay)
  {
    match event
    case SignedIn =>
      if sessionUser.Some? then Step(HookState(Some(ToAuthUser(sessionUser.value)), false), SignedInNav(path))
      else Step(s, Stay)
    case SignedOut => Step(HookState(None, false), SignedOutNav(path, true))
    case TokenRefreshed =>
      if sessionUser.Some? then Step(s.(user := Some(ToAuthUser(sessionUser.value))), Stay)
      else Step(s, Stay)
    case InitialSession =>
      Step(HookState(if sessionUser.Some? then Some(ToAuthUser(sessionUser.value)) else None, false), Stay)
    case OtherEvent => Step(s, Stay)
  }

  /** After the initial check, and after every event that navigates, the visitor lands on a guest
      page exactly when signed out. */
  lemma LandingMatchesUser(path: string, reply: CheckReply, s: HookState, event: AuthEvent,
                           sessionUser: Option<ProviderUser>)
    ensures IsGuestPage(Landing(path, CheckAuth(path, reply).nav)) <==> CheckAuth(path, reply).state.user.None?
    ensures OnAuthChange(s, path, event, sessionUser).nav != Stay ==>
      (IsGuestPage(Landing(path, OnAuthChange(s, path, event, sessionUser).nav))
       <==> OnAuthChange(s, path, event, sessionUser).state.user.None?)
  {
  }

  /** Once loading has stopped it never starts again, whatever the provider reports. */
  lemma {:induction false} LoadingStaysOff(s: HookState, path: string, events: seq<(AuthEvent, Option<ProviderUser>)>)
    requires !s.isLoading
    ensures !Replay(s, path, events).isLoading
    decreases |events|
  {
    if events != [] {
      LoadingStaysOff(OnAuthChange(s, path, events[0].0, events[0].1).state, path, events[1..]);
    }
  }

  /** The state after a sequence of provider events. */
  function Replay(s: HookState, path: string, events: seq<(AuthEvent, Option<ProviderUser>)>): HookState
    decreases |events|
  {
    if events == [] then s else Replay(OnAuthChange(s, path, events[0].0, events[0].1).state, path, events[1..])
  }

  // ---------------------------------------------------------------- sign-out

  /** What `signOut` returns and whether it called the provider. */
  datatype SignOutResult = SignOutResult(error: Option<string>, calledProvider: bool)

  function SignOut(hasClient: bool, providerError: Option<string>): (r: SignOutResult)
    ensures r.calledProvider <==> hasClient
    ensures !hasClient ==> r.error == Some(NoClientError)
    ensures hasClient ==> r.error == providerError
  {
    if !hasClient then SignOutResult(Some(NoClientError), false) else SignOutResult(providerError, true)
  }

  // ---------------------------------------------------------------- guest pages

  /** The redirect the login and sign-up pages add on top of the hook: once loading is over, a
      signed-in visitor goes home. */
  function GuestPageRedirect(s: HookState): (nav: Nav)
    ensures nav != Stay <==> !s.isLoading && s.user.Some?
    ensures nav != Stay ==> nav == Nav(Some(HomePath), true)
  {
    if !s.isLoading && s.user.Some? then Nav(Some(HomePath), true) else Stay
  }

  /** On a guest page the pages' own redirect repeats what the hook's check already did. */
  lemma GuestRedirectRepeatsCheck(path: string, reply: CheckReply)
    requires IsGuestPage(path)
    ensures GuestPageRedirect(CheckAuth(path, reply).state) == CheckAuth(path, reply).nav
  {
  }
}

=== FILE: base.dfy ===
/** Shared value types and sequence combinators used by every component model. */
module Base {

  /** A value that may be absent: JavaScript's `undefined`/`null` for an optional field. */
  datatype Option<+T> = None | Some(value: T) {

    /** The wrapped value, or `default` when absent (`x ?? default`). */
    function GetOr(default: T): T {
      match this
      case Some(v) => v
      case None => default
    }
  }

  /** `o || undefined` for an optional string: an empty string counts as absent. */
  function NonEmpty(o: Option<string>): (r: Option<string>)
    ensures r.Some? <==> o.Some? && o.value != []
    ensures r.Some? ==> r.value == o.value
  {
    if o.Some? && o.value != [] then o else None
  }

  /** An error the authentication provider returned or threw: `null` is `None` where it is
      allowed, otherwise an object whose `message` may be missing. */
  datatype AuthError = AuthError(message: Option<string>)

  /** One property of a parsed JSON request body: missing, a string, or some other JSON value
      together with its JavaScript truthiness. */
  datatype JsonField = Missing | Str(s: string) | Other(truthy: bool)

  predicate FieldTruthy(v: JsonField) {
    match v
    case Missing => false
    case Str(s) => s != []
    case Other(t) => t
  }

  /** The elements of `s` that satisfy `p`, in their original order (`Array.prototype.filter`). */
  function Filter<T(!new)>(s: seq<T>, p: T -> bool): (r: seq<T>)
    ensures |r| <= |s|
    ensures forall x :: multiset(r)[x] == (if p(x) then multiset(s)[x] else 0)
    ensures forall i :: 0 <= i < |r| ==> p(r[i])
  {
    if s == [] then []
    else
      var rest := Filter(s[1..], p);
      assert s == [s[0]] + s[1..];
      if p(s[0]) then [s[0]] + rest else rest
  }

  /** Number of elements of `s` that satisfy `p` (`s.filter(p).length`). */
  function Count<T>(s: seq<T>, p: T -> bool): (c: nat)
    ensures c <= |s|
  {
    if s == [] then 0 else (if p(s[0]) then 1 else 0) + Count(s[1..], p)
  }

  /** One step of the count. */
  lemma CountStep<T>(s: seq<T>, p: T -> bool)
    requires s != []
    ensures Count(s, p) == (if p(s[0]) then 1 else 0) + Count(s[1..], p)
  {
  }

  /** The count is the length of the filtered sequence. */
  lemma {:induction false} FilterCount<T(!new)>(s: seq<T>, p: T -> bool)
    ensures |Filter(s, p)| == Count(s, p)
  {
    if s != [] {
      FilterCount(s[1..], p);
    }
  }

  /** `s.slice(0, n)`: the first `n` elements, or all of `s` when it is shorter. */
  function Take<T>(s: seq<T>, n: nat): (r: seq<T>)
    ensures |r| == if |s| < n then |s| else n
    ensures r <= s
  {
    if |s| <= n then s else s[..n]
  }

  /** `s.map(f)`. */
  function Map<T, U>(s: seq<T>, f: T -> U): (r: seq<U>)
    ensures |r| == |s|
    ensures forall i :: 0 <= i < |s| ==> r[i] == f(s[i])
  {
    if s == [] then [] else [f(s[0])] + Map(s[1..], f)
  }

  /** An element survives the filter exactly when it is in the input and satisfies `p`. */
  lemma FilterMember<T(!new)>(s: seq<T>, p: T -> bool, x: T)
    ensures x in Filter(s, p) <==> x in s && p(x)
  {
    assert x in Filter(s, p) <==> multiset(Filter(s, p))[x] > 0;
    assert x in s <==> multiset(s)[x] > 0;
  }

  /** The image of `s` under `f` holds exactly the images of its elements. */
  lemma MapMember<T, U>(s: seq<T>, f: T -> U, y: U)
    ensures y in Map(s, f) <==> exists i :: 0 <= i < |s| && f(s[i]) == y
  {
    if y in Map(s, f) {
      var i :| 0 <= i < |s| && Map(s, f)[i] == y;
    }
  }

  /** `s.map(f)` is `t` when `f` takes each element of `s` to the element of `t` at its index. */
  lemma MapPointwise<T, U>(s: seq<T>, f: T -> U, t: seq<U>)
    requires |s| == |t|
    requires forall i :: 0 <= i < |s| ==> f(s[i]) == t[i]
    ensures Map(s, f) == t
  {
  }

  lemma FilterAppendStep<T(!new)>(a: seq<T>, b: seq<T>, p: T -> bool)
    requires a != [] && Filter(a[1..] + b, p) == Filter(a[1..], p) + Filter(b, p)
    ensures Filter(a + b, p) == Filter(a, p) + Filter(b, p)
  {
    ConsAppend(a, b);
    FilterCons(a[0], a[1..] + b, p);
    FilterCons(a[0], a[1..], p);
    Associative(if p(a[0]) then [a[0]] else [], Filter(a[1..], p), Filter(b, p));
  }

  lemma ConsAppend<T>(a: seq<T>, b: seq<T>)
    requires a != []
    ensures a == [a[0]] + a[1..] && a + b == [a[0]] + (a[1..] + b)
  {
  }

  lemma EmptyAppend<T>(a: seq<T>, b: seq<T>)
    requires a == []
    ensures a + b == b
  {
  }

  lemma Associative<T>(x: seq<T>, y: seq<T>, z: seq<T>)
    ensures x + (y + z) == (x + y) + z
  {
  }

  /** The first element survives the filter exactly when it satisfies `p`. */
  lemma FilterCons<T(!new)>(x: T, s: seq<T>, p: T -> bool)
    ensures Filter([x] + s, p) == (if p(x) then [x] else []) + Filter(s, p)
  {
    assert ([x] + s)[1..] == s;
  }

  /** Filtering keeps the order: the survivors of `a` come first, then those of `b`. */
  lemma {:induction false} FilterAppend<T(!new)>(a: seq<T>, b: seq<T>, p: T -> bool)
    ensures Filter(a + b, p) == Filter(a, p) + Filter(b, p)
    decreases |a|
  {
    if a != [] {
      FilterAppend(a[1..], b, p);
      FilterAppendStep(a, b, p);
    } else {
      EmptyAppend(a, b);
    }
  }

  /** Mapping keeps the order too. */
  lemma {:induction false} MapAppend<T, U>(a: seq<T>, b: seq<T>, f: T -> U)
    ensures Map(a + b, f) == Map(a, f) + Map(b, f)
  {
    MapPointwise(a + b, f, Map(a, f) + Map(b, f));
  }

  /** A predicate and its complement split the input: their counts add up to `|s|`. */
  lemma {:induction false} FilterPartition<T>(s: seq<T>, p: T -> bool, q: T -> bool)
    requires forall x :: q(x) == !p(x)
    ensures Count(s, p) + Count(s, q) == |s|
  {
    if s != [] {
      FilterPartition(s[1..], p, q);
    }
  }

  /** A weaker predicate keeps at least as many elements. */
  lemma {:induction false} CountMonotone<T>(s: seq<T>, p: T -> bool, q: T -> bool)
    requires forall x :: p(x) ==> q(x)
    ensures Count(s, p) <= Count(s, q)
  {
    if s != [] {
      CountMonotone(s[1..], p, q);
    }
  }

  /** Filtering twice by `p` and then `q` keeps what one filter by their conjunction keeps. */
  lemma {:induction false} FilterFilter<T(!new)>(s: seq<T>, p: T -> bool, q: T -> bool, pq: T -> bool)
    requires forall x :: pq(x) == (p(x) && q(x))
    ensures Filter(Filter(s, p), q) == Filter(s, pq)
  {
    if s != [] {
      FilterFilter(s[1..], p, q, pq);
    }
  }

  /** Filtering by a predicate every element already satisfies changes nothing. */
  lemma {:induction false} FilterAll<T(!new)>(s: seq<T>, p: T -> bool)
    requires forall i :: 0 <= i < |s| ==> p(s[i])
    ensures Filter(s, p) == s
  {
    if s != [] {
      FilterAll(s[1..], p);
    }
  }

  /** Two predicates no element satisfies together count, in sum, what their disjunction counts. */
  lemma {:induction false} CountDisjoint<T>(s: seq<T>, p: T -> bool, q: T -> bool, pq: T -> bool)
    requires forall x :: pq(x) == (p(x) || q(x))
    requires forall x :: !(p(x) && q(x))
    ensures Count(s, p) + Count(s, q) == Count(s, pq)
  {
    if s != [] {
      CountDisjoint(s[1..], p, q, pq);
    }
  }

  /** An element that satisfies `p` is counted. */
  lemma {:induction false} CountPositive<T>(s: seq<T>, p: T -> bool, i: int)
    requires 0 <= i < |s| && p(s[i])
    ensures Count(s, p) >= 1
  {
    if i > 0 {
      CountPositive(s[1..], p, i - 1);
    }
  }
}

=== FILE: clock.dfy ===
/** Calendar arithmetic on integer timestamps (milliseconds, local time at a fixed offset):
    the date-fns helpers the to-do code calls, with the `ko` locale's Sunday-first week. */
module Clock {

  const MinuteMs: int := 60_000
  const HourMs: int := 3_600_000
  const DayMs: int := 86_400_000

  /** `startOfDay(t)`: the midnight that begins the day holding `t`. */
  function StartOfDay(t: int): (r: int)
    ensures r <= t < r + DayMs
    ensures r % DayMs == 0
  {
    t - t % DayMs
  }

  /** `endOfDay(t)`: the last millisecond of the day holding `t`. */
  function EndOfDay(t: int): (r: int)
    ensures StartOfDay(t) <= t <= r
    ensures StartOfDay(r) == StartOfDay(t)
    ensures r % DayMs == DayMs - 1
  {
    StartOfDay(t) + DayMs - 1
  }

  /** `getHours(t)`. */
  function HourOf(t: int): (h: int)
    ensures 0 <= h < 24
    ensures h * HourMs <= t - StartOfDay(t) < (h + 1) * HourMs
  {
    (t % DayMs) / HourMs
  }

  /** `getMinutes(t)`. */
  function MinuteOf(t: int): (m: int)
    ensures 0 <= m < 60
    ensures m * MinuteMs <= t - StartOfDay(t) - HourOf(t) * HourMs < (m + 1) * MinuteMs
  {
    var d := t % DayMs;
    var h := d / HourMs;
    assert t == (t / DayMs * 24 + h) * HourMs + (d - h * HourMs);
    assert t % HourMs == d - h * HourMs;
    (t % HourMs) / MinuteMs
  }

  /** `getDay(t)`: 0 is Sunday; day 0 of the epoch (1970-01-01) was a Thursday. */
  function DayOfWeek(t: int): (d: int)
    ensures 0 <= d < 7
  {
    (t / DayMs + 4) % 7
  }

  /** `startOfWeek(t, { locale: ko })`: the Sunday midnight that begins the week of `t`. */
  function StartOfWeek(t: int): (r: int)
    ensures r <= StartOfDay(t) < r + 7 * DayMs
    ensures r % DayMs == 0
    ensures DayOfWeek(r) == 0
  {
    var q := t / DayMs;
    var d := DayOfWeek(t);
    DayNumber(q - d, 0);
    WeekdayOfSunday(q + 4, d);
    StartOfDay(t) - d * DayMs
  }

  /** `endOfWeek(t, { locale: ko })`: the last millisecond of that week. */
  function EndOfWeek(t: int): (r: int)
    ensures StartOfWeek(t) <= t <= r
    ensures r < StartOfWeek(t) + 7 * DayMs
    ensures r % DayMs == DayMs - 1
    ensures DayOfWeek(r) == 6
  {
    var w := StartOfWeek(t);
    DayNumber(w / DayMs + 6, DayMs - 1);
    assert (w / DayMs + 6 + 4) % 7 == 6;
    w + 7 * DayMs - 1
  }

  /** `isWithinInterval(t, { start, end })`: both ends inclusive. */
  predicate Within(t: int, start: int, end: int) {
    start <= t <= end
  }

  /** A timestamp lies within its own day exactly when its start of day is that day. */
  lemma WithinDayIffSameDay(t: int, day: int)
    requires day % DayMs == 0
    ensures Within(t, day, day + DayMs - 1) <==> StartOfDay(t) == day
  {
  }

  /** The day number and offset of `n` whole days plus `m` milliseconds. */
  lemma DayNumber(n: int, m: int)
    requires 0 <= m < DayMs
    ensures (n * DayMs + m) / DayMs == n
    ensures (n * DayMs + m) % DayMs == m
  {
  }

  /** Stepping back `k % 7` days from day `k - 4` lands on a Sunday. */
  lemma WeekdayOfSunday(k: int, d: int)
    requires d == k % 7
    ensures (k - d) % 7 == 0
  {
    assert k - d == (k / 7) * 7;
  }

  /** Two timestamps of the same day fall on the same weekday. */
  lemma SameDaySameWeekday(t: int, u: int)
    requires StartOfDay(t) == StartOfDay(u)
    ensures DayOfWeek(t) == DayOfWeek(u)
  {
    DayNumber(t / DayMs, t % DayMs);
    DayNumber(u / DayMs, u % DayMs);
  }

  /** The epoch began on a Thursday. */
  lemma EpochIsThursday()
    ensures DayOfWeek(0) == 4
  {
  }

  /** The next day is the next weekday, Saturday wrapping round to Sunday. */
  lemma {:induction false} NextDayNextWeekday(t: int)
    ensures DayOfWeek(t + DayMs) == (DayOfWeek(t) + 1) % 7
  {
    DayNumber(t / DayMs + 1, t % DayMs);
  }

  /** Every timestamp of a week has the same start of week, so the week of `t` is the seven days from that Sunday. */
  lemma {:induction false} SameWeekSameStart(t: int, u: int)
    requires StartOfWeek(t) <= u <= EndOfWeek(t)
    ensures StartOfWeek(u) == StartOfWeek(t)
  {
    var w := StartOfWeek(t);
    var q := w / DayMs;
    DayNumber(q, 0);
    var n := u / DayMs - q;
    DayNumber(u / DayMs, u % DayMs);
    assert 0 <= n < 7;
    assert (q + 4) % 7 == 0;
    assert DayOfWeek(u) == (q + 4 + n) % 7 == n;
  }
}

=== FILE: cookies.dfy ===
/** The cookie adapter of the route-handler database client (lib/supabase/server.js): a lax
    reading of the `Cookie` request header of section 4.2.1 of RFC 6265, and a `setAll` that
    writes nothing. */
module Cookies {
  import opened Base
  import opened Text

  datatype Cookie = Cookie(name: string, value: string)

  /** Dropping one leading space before a string changes nothing once it is trimmed. */
  lemma TrimLeadingSpace(x: string)
    ensures Trim([' '] + x) == Trim(x)
  {
    var y := [' '] + x;
    assert y[1..] == x;
    assert IsSpace(y[0]);
    assert TrimStart(y) == TrimStart(x);
  }

  /** A string without white space at either end is its own trim. */
  lemma TrimClean(x: string)
    requires x == [] || (!IsSpace(x[0]) && !IsSpace(x[|x| - 1]))
    ensures Trim(x) == x
  {
    assert TrimStart(x) == x;
    assert TrimEnd(x) == x;
  }

  /** Splitting on `c` and joining with `c` gives the string back. */
  lemma {:induction false} JoinSplit(s: string, c: char)
    ensures Join(Split(s, c), [c]) == s
    decreases |s|
  {
    var k := IndexOf(s, c);
    if k < |s| {
      JoinSplit(s[k + 1..], c);
      var rest := Split(s[k + 1..], c);
      assert Split(s, c) == [s[..k]] + rest;
      assert ([s[..k]] + rest)[1..] == rest;
      assert s == s[..k] + [c] + s[k + 1..];
    }
  }

  /** The first piece of a split is the text before the first `c`; the remaining pieces, joined
      back with `c`, are the text after it. */
  lemma SplitFirst(s: string, c: char)
    ensures Split(s, c)[0] == s[..IndexOf(s, c)]
    ensures Join(Split(s, c)[1..], [c]) == if IndexOf(s, c) < |s| then s[IndexOf(s, c) + 1..] else []
  {
    var k := IndexOf(s, c);
    if k < |s| {
      JoinSplit(s[k + 1..], c);
      assert Split(s, c)[1..] == Split(s[k + 1..], c);
    } else {
      assert s[..k] == s;
    }
  }

  /** One `;`-separated segment: the trimmed text before the first `=` of the trimmed segment
      is the name, the trimmed text after it (later `=` kept) the value, and a segment without
      `=` has an empty value. */
  function ParseSegment(segment: string): Cookie {
    var t := Trim(segment);
    var k := IndexOf(t, '=');
    Cookie(Trim(t[..k]), if k < |t| then Trim(t[k + 1..]) else [])
  }

  /** That is what the handler's destructuring computes: `cookie.trim().split('=')`, the first
      piece trimmed as the name and the other pieces joined back with `=` and trimmed as the
      value. */
  lemma SegmentIsSplitJoin(segment: string)
    ensures var parts := Split(Trim(segment), '=');
      ParseSegment(segment) == Cookie(Trim(parts[0]), Trim(Join(parts[1..], "=")))
  {
    var t := Trim(segment);
    SplitFirst(t, '=');
    assert TrimStart([]) == [];
  }

  /** Entries with an empty name or value are dropped. */
  predicate Kept(c: Cookie) {
    c.name != [] && c.value != []
  }

  /** `parseCookies(request.headers.get('cookie') || '')`: no header reads as no cookies. */
  function ParseCookies(header: Option<string>): (r: seq<Cookie>)
    ensures header.None? || header == Some([]) ==> r == []
    ensures header.Some? && header.value != [] ==> |r| <= |Split(header.value, ';')|
    ensures forall i :: 0 <= i < |r| ==> Kept(r[i])
  {
    if header.None? || header.value == [] then []
    else Filter(Map(Split(header.value, ';'), ParseSegment), Kept)
  }

  /** The header is read left to right: the cookie of the first segment, when it is kept,
      comes before everything the rest of the header yields. */
  lemma {:induction false} ParseFirstSegment(segment: string, rest: string)
    requires ';' !in segment
    ensures ParseCookies(Some(segment + ";" + rest))
      == (if Kept(ParseSegment(segment)) then [ParseSegment(segment)] else []) + ParseCookies(Some(rest))
  {
    assert (segment + ";" + rest)[|segment|] == ';';
    SplitAfterFirst(segment, rest);
    ReadSegments(segment, Split(rest, ';'));
    EmptyHeaderFiltered(rest);
  }

  lemma ReadSegments(segment: string, parts: seq<string>)
    ensures Filter(Map([segment] + parts, ParseSegment), Kept)
      == (if Kept(ParseSegment(segment)) then [ParseSegment(segment)] else [])
         + Filter(Map(parts, ParseSegment), Kept)
  {
    var c := ParseSegment(segment);
    MapAppend([segment], parts, ParseSegment);
    FilterAppend([c], Map(parts, ParseSegment), Kept);
    assert [c][1..] == [];
  }

  lemma {:induction false} SplitAfterFirst(segment: string, rest: string)
    requires ';' !in segment
    ensures Split(segment + ";" + rest, ';') == [segment] + Split(rest, ';')
  {
    var h := segment + ";" + rest;
    assert h == segment + ([';'] + rest);
    IndexOfPrefix(segment, ';', [';'] + rest);
    assert h[..|segment|] == segment && h[|segment| + 1..] == rest;
  }

  /** An empty header reads as no cookies either way. */
  lemma EmptyHeaderFiltered(rest: string)
    ensures ParseCookies(Some(rest)) == Filter(Map(Split(rest, ';'), ParseSegment), Kept)
  {
    if rest == [] {
      assert Split(rest, ';') == [[]];
      assert TrimStart([]) == [];
      assert !Kept(ParseSegment([]));
    }
  }

  /** Some segment parses to `c`. */
  predicate FromSomeSegment(segments: seq<string>, c: Cookie) {
    exists i :: 0 <= i < |segments| && ParseSegment(segments[i]) == c
  }

  /** The per-segment parse holds exactly the cookies some segment yields. */
  lemma MappedFromSegment(segments: seq<string>, c: Cookie)
    ensures c in Map(segments, ParseSegment) <==> FromSomeSegment(segments, c)
  {
    if c in Map(segments, ParseSegment) {
      var i :| 0 <= i < |segments| && Map(segments, ParseSegment)[i] == c;
      assert ParseSegment(segments[i]) == c;
    }
    if FromSomeSegment(segments, c) {
      var i :| 0 <= i < |segments| && ParseSegment(segments[i]) == c;
      assert Map(segments, ParseSegment)[i] == c;
    }
  }

  /** Every cookie read comes from one segment of the header, and every segment that yields a
      name and a value is read. */
  lemma ParsedFromSegments(header: string, c: Cookie)
    requires header != []
    ensures c in ParseCookies(Some(header)) <==> Kept(c) && FromSomeSegment(Split(header, ';'), c)
  {
    FilterMember(Map(Split(header, ';'), ParseSegment), Kept, c);
    MappedFromSegment(Split(header, ';'), c);
  }

  // ---------------------------------------------------------------- round trip

  /** A cookie as a browser sends it: a token name and a value, neither empty, neither with `;`
      or white space at its ends, and no `=` in the name. */
  predicate WellFormed(c: Cookie) {
    && c.name != [] && c.value != []
    && ';' !in c.name && ';' !in c.value && '=' !in c.name
    && !IsSpace(c.name[0]) && !IsSpace(c.name[|c.name| - 1])
    && !IsSpace(c.value[0]) && !IsSpace(c.value[|c.value| - 1])
  }

  function Render(c: Cookie): string {
    c.name + "=" + c.value
  }

  /** The `Cookie` header for a list of pairs: `name=value` joined with "; ". */
  function Header(cs: seq<Cookie>): string {
    Join(Map(cs, Render), "; ")
  }

  /** The pieces of `Header(cs)` between the semicolons. */
  function Segments(cs: seq<Cookie>): seq<string>
    requires cs != []
  {
    [Render(cs[0])] + Map(cs[1..], (c: Cookie) => " " + Render(c))
  }

  lemma {:induction false} HeaderIsJoinOfSegments(cs: seq<Cookie>)
    requires cs != []
    ensures Header(cs) == Join(Segments(cs), ";")
    decreases |cs|
  {
    if |cs| > 1 {
      HeaderIsJoinOfSegments(cs[1..]);
      var rest := Map(cs[2..], (c: Cookie) => " " + Render(c));
      assert Map(cs, Render)[1..] == Map(cs[1..], Render);
      assert Segments(cs)[1..] == [" " + Render(cs[1])] + rest;
      assert Segments(cs[1..])[1..] == rest;
      assert Join(Segments(cs), ";") == Render(cs[0]) + ";" + Join(Segments(cs)[1..], ";");
      assert Join([" " + Render(cs[1])] + rest, ";") == " " + Join(Segments(cs[1..]), ";") by {
        if rest != [] {
          assert ([" " + Render(cs[1])] + rest)[1..] == rest;
          assert Segments(cs[1..])[1..] == rest;
        }
      }
    }
  }

  lemma JoinLength(parts: seq<string>, sep: string)
    requires parts != []
    ensures |Join(parts, sep)| >= |parts[0]|
  {
  }

  /** A well-formed cookie renders without white space at either end. */
  lemma RenderedTrimmed(c: Cookie, lead: bool)
    requires WellFormed(c)
    ensures Trim(if lead then " " + Render(c) else Render(c)) == Render(c)
  {
    var x := Render(c);
    assert x[0] == c.name[0];
    assert x[|x| - 1] == c.value[|c.value| - 1];
    TrimClean(x);
    if lead {
      TrimLeadingSpace(x);
    }
  }

  /** The name and value of a well-formed cookie are their own trims. */
  lemma PartsTrimmed(c: Cookie)
    requires WellFormed(c)
    ensures Trim(c.name) == c.name && Trim(c.value) == c.value
  {
    TrimClean(c.name);
    TrimClean(c.value);
  }

  /** The first `=` of a rendered cookie is the one after its name. */
  lemma RenderedSplit(c: Cookie)
    requires '=' !in c.name
    ensures var x := Render(c);
      IndexOf(x, '=') == |c.name| && x[..|c.name|] == c.name && x[|c.name| + 1..] == c.value
  {
    var x := Render(c);
    assert x == c.name + ("=" + c.value);
    IndexOfPrefix(c.name, '=', "=" + c.value);
  }

  /** Each segment of a well-formed header reads back as its cookie. */
  lemma ParseRendered(c: Cookie, lead: bool)
    requires WellFormed(c)
    ensures ParseSegment(if lead then " " + Render(c) else Render(c)) == c
  {
    var x := Render(c);
    var segment := if lead then " " + x else x;
    PartsTrimmed(c);
    RenderedTrimmed(c, lead);
    RenderedSplit(c);
    assert Trim(segment) == x;
  }

  /** The header splits on `;` into its segments. */
  lemma HeaderSplits(cs: seq<Cookie>)
    requires cs != []
    requires forall i :: 0 <= i < |cs| ==> WellFormed(cs[i])
    ensures Split(Header(cs), ';') == Segments(cs)
  {
    var segs := Segments(cs);
    HeaderIsJoinOfSegments(cs);
    forall i | 0 <= i < |segs| ensures ';' !in segs[i] {
      if i > 0 {
        assert segs[i] == " " + Render(cs[i]);
      }
    }
    SplitJoin(segs, ';');
  }

  /** Each segment parses back to its cookie. */
  lemma SegmentsParse(cs: seq<Cookie>)
    requires cs != []
    requires forall i :: 0 <= i < |cs| ==> WellFormed(cs[i])
    ensures Map(Segments(cs), ParseSegment) == cs
  {
    var segs := Segments(cs);
    forall i | 0 <= i < |cs| ensures |segs| == |cs| && ParseSegment(segs[i]) == cs[i] {
      SegmentParses(cs, i);
    }
    MapPointwise(segs, ParseSegment, cs);
  }

  lemma SegmentParses(cs: seq<Cookie>, i: int)
    requires 0 <= i < |cs| && WellFormed(cs[i])
    ensures |Segments(cs)| == |cs|
    ensures ParseSegment(Segments(cs)[i]) == cs[i]
  {
    SegmentAt(cs, i);
    ParseRendered(cs[i], i > 0);
  }

  /** The `i`-th segment is the `i`-th cookie rendered, after a space unless it is the first. */
  lemma SegmentAt(cs: seq<Cookie>, i: int)
    requires 0 <= i < |cs|
    ensures |Segments(cs)| == |cs|
    ensures Segments(cs)[i] == if i > 0 then " " + Render(cs[i]) else Render(cs[i])
  {
    if i > 0 {
      assert Segments(cs)[i] == Map(cs[1..], (c: Cookie) => " " + Render(c))[i - 1];
    }
  }

  /** Reading the header a browser builds from well-formed cookies gives them back, in order. */
  lemma ParseHeaderRoundTrip(cs: seq<Cookie>)
    requires cs != []
    requires forall i :: 0 <= i < |cs| ==> WellFormed(cs[i])
    ensures ParseCookies(Some(Header(cs))) == cs
  {
    HeaderSplits(cs);
    SegmentsParse(cs);
    JoinLength(Segments(cs), ";");
    assert Header(cs) != [];
    FilterAll(cs, Kept);
  }

  // ---------------------------------------------------------------- the adapter

  /** What the client's cookie adapter holds: the header read once, at creation. */
  datatype RouteCookies = RouteCookies(list: seq<Cookie>) {
    function GetAll(): seq<Cookie> {
      list
    }

    /** Route handlers cannot set cookies; the request is dropped. */
    function SetAll(toSet: seq<Cookie>): RouteCookies {
      this
    }
  }

  function CreateRouteCookies(header: Option<string>): RouteCookies {
    RouteCookies(ParseCookies(header))
  }

  /** Whatever the client asks to set, it reads back exactly the cookies of the request. */
  lemma SetAllIsNoOp(header: Option<string>, writes: seq<seq<Cookie>>)
    ensures Apply(CreateRouteCookies(header), writes).GetAll() == ParseCookies(header)
  {
    if writes != [] {
      SetAllIsNoOp(header, writes[1..]);
      ApplyFront(CreateRouteCookies(header), writes);
    }
  }

  /** Applies a sequence of `setAll` calls, the last one first. */
  function Apply(jar: RouteCookies, writes: seq<seq<Cookie>>): RouteCookies {
    if writes == [] then jar else Apply(jar, writes[1..]).SetAll(writes[0])
  }

  lemma ApplyFront(jar: RouteCookies, writes: seq<seq<Cookie>>)
    requires writes != []
    ensures Apply(jar, writes) == Apply(jar, writes[1..])
  {
  }
}

=== FILE: delete_account.dfy ===
/** The account-deletion route (app/api/auth/delete-account/route.ts): the guards a request
    passes before the signed-in user's rows are deleted, the provider calls it makes in order,
    and the response it returns. */
module DeleteAccount {
  import opened Base

  const AuthRequiredMessage: string := "인증이 필요합니다."
  const BadBodyMessage: string := "잘못된 요청 형식입니다."
  const MissingFieldsMessage: string := "이메일과 비밀번호를 입력해주세요."
  const EmailMismatchMessage: string := "이메일이 일치하지 않습니다."
  const WrongPasswordMessage: string := "비밀번호가 올바르지 않습니다."
  const DoneMessage: string := "회원 탈퇴가 완료되었습니다."
  const FailurePrefix: string := "회원 탈퇴 처리 중 오류가 발생했습니다: "

  /** Who `getUser` reports: an error or no user, or the signed-in user with an optional
      e-mail. */
  datatype Session = Unauthenticated | SignedIn(id: string, email: Option<string>)

  /** The body as `request.json()` leaves it: not JSON at all, the JSON `null` (whose
      destructuring throws a `TypeError`), or any other value, read through its `email` and
      `password` properties (both missing for a non-object). */
  datatype Body = Unparsable | NullBody | Fields(email: JsonField, password: JsonField)

  /** The provider calls the route makes. */
  datatype Action = VerifyPassword(email: string) | DeleteTodos(userId: string)
                  | DeleteUserRow(userId: string) | SignOut

  datatype Response = Failure(status: nat, error: string) | Success(message: string)

  /** The calls made and the response returned. */
  datatype Outcome = Outcome(actions: seq<Action>, response: Response)

  /** The body passed every guard of the route for this session. */
  predicate Confirms(session: Session, body: Body) {
    session.SignedIn? && body.Fields? && FieldTruthy(body.email) && FieldTruthy(body.password)
    && session.email.Some? && body.email == Str(session.email.value)
  }

  /** `POST`. `passwordOk` is whether the re-authentication returned no error;
      `typeErrorMessage` is the engine's message for destructuring `null`. Failures to delete
      rows are only logged, so they do not change the outcome. */
  function Post(session: Session, body: Body, passwordOk: bool, typeErrorMessage: string): (o: Outcome)
    ensures o.response.Success? <==> Confirms(session, body) && passwordOk
    ensures o.response.Success? ==> o.response.message == DoneMessage
    ensures o.response.Success? ==>
      session.SignedIn? && DeleteTodos(session.id) in o.actions && DeleteUserRow(session.id) in o.actions
    ensures o.response.Failure? ==> forall a :: a in o.actions ==> a.VerifyPassword?
    ensures forall a :: a in o.actions && (a.DeleteTodos? || a.DeleteUserRow?) ==>
      session.SignedIn? && a.userId == session.id
    ensures o.actions != [] <==> Confirms(session, body)
    ensures session.Unauthenticated? ==> o == Outcome([], Failure(401, AuthRequiredMessage))
    ensures o.response.Failure? ==> o.response.status in {400, 401, 500}
  {
    if session.Unauthenticated? then Outcome([], Failure(401, AuthRequiredMessage))
    else match body
      case Unparsable => Outcome([], Failure(400, BadBodyMessage))
      case NullBody => Outcome([], Failure(500, FailurePrefix + typeErrorMessage))
      case Fields(email, password) =>
        if !FieldTruthy(email) || !FieldTruthy(password) then Outcome([], Failure(400, MissingFieldsMessage))
        else if session.email.None? || email != Str(session.email.value) then
          Outcome([], Failure(400, EmailMismatchMessage))
        else if !passwordOk then Outcome([VerifyPassword(email.s)], Failure(401, WrongPasswordMessage))
        else
          Outcome([VerifyPassword(email.s), DeleteTodos(session.id), DeleteUserRow(session.id), SignOut],
                  Success(DoneMessage))
  }

  /** Each guard's own answer, in the order the route checks them. */
  lemma GuardOrder(session: Session, body: Body, passwordOk: bool, typeErrorMessage: string)
    requires session.SignedIn?
    ensures body == Unparsable ==> Post(session, body, passwordOk, typeErrorMessage).response == Failure(400, BadBodyMessage)
    ensures body == NullBody ==>
      Post(session, body, passwordOk, typeErrorMessage).response == Failure(500, FailurePrefix + typeErrorMessage)
    ensures body.Fields? && (!FieldTruthy(body.email) || !FieldTruthy(body.password)) ==>
      Post(session, body, passwordOk, typeErrorMessage).response == Failure(400, MissingFieldsMessage)
    ensures body.Fields? && FieldTruthy(body.email) && FieldTruthy(body.password) && !Confirms(session, body) ==>
      Post(session, body, passwordOk, typeErrorMessage).response == Failure(400, EmailMismatchMessage)
    ensures Confirms(session, body) && !passwordOk ==>
      Post(session, body, passwordOk, typeErrorMessage).response == Failure(401, WrongPasswordMessage)
  {
  }

  /** The password is checked before anything is deleted, and the user is signed out last. */
  lemma VerifiedBeforeDeleted(session: Session, body: Body, passwordOk: bool, typeErrorMessage: string)
    ensures var acts := Post(session, body, passwordOk, typeErrorMessage).actions;
      acts != [] ==>
        (acts[0].VerifyPassword? && acts[0].email == session.email.value
         && (|acts| > 1 ==> acts[|acts| - 1] == SignOut))
  {
  }

  /** Without a user that has an e-mail no body can delete anything: the e-mail guard compares
      against a missing address. */
  lemma NoEmailNoDeletion(id: string, body: Body, passwordOk: bool, typeErrorMessage: string)
    ensures Post(SignedIn(id, None), body, passwordOk, typeErrorMessage).actions == []
  {
  }
}

=== FILE: keywords.dfy ===
/** Ordered keyword tables: the shape every error-message mapper of the applications shares.
    A rule fires when, for one of its alternatives, the text contains every keyword of that
    alternative; the first rule that fires decides the outcome. */
module Keywords {
  import opened Base
  import opened Text

  /** `a || b && c` read as a disjunction of conjunctions: `[[a], [b, c]]`. */
  datatype Rule<T> = Rule(alternatives: seq<seq<string>>, outcome: T)

  /** The text contains every keyword of `words`. */
  predicate AllIn(m: string, words: seq<string>) {
    forall j :: 0 <= j < |words| ==> Contains(m, words[j])
  }

  predicate Fires<T>(r: Rule<T>, m: string) {
    exists i :: 0 <= i < |r.alternatives| && AllIn(m, r.alternatives[i])
  }

  /** Rule `i` fires and no earlier rule does. */
  predicate FirstFiresAt<T>(rules: seq<Rule<T>>, m: string, i: int) {
    0 <= i < |rules| && Fires(rules[i], m) && forall j :: 0 <= j < i ==> !Fires(rules[j], m)
  }

  /** The outcome of the first rule that fires, if any does. */
  function FirstFiring<T>(rules: seq<Rule<T>>, m: string): (o: Option<T>)
    ensures o.None? <==> forall i :: 0 <= i < |rules| ==> !Fires(rules[i], m)
    ensures o.Some? ==> exists i :: FirstFiresAt(rules, m, i) && rules[i].outcome == o.value
  {
    if rules == [] then None
    else if Fires(rules[0], m) then
      assert FirstFiresAt(rules, m, 0);
      Some(rules[0].outcome)
    else
      var o := FirstFiring(rules[1..], m);
      FirstFiringShift(rules, m, o);
      o
  }

  lemma FirstFiringShift<T>(rules: seq<Rule<T>>, m: string, o: Option<T>)
    requires rules != [] && !Fires(rules[0], m)
    requires o.None? <==> forall i :: 0 <= i < |rules[1..]| ==> !Fires(rules[1..][i], m)
    requires o.Some? ==> exists i :: FirstFiresAt(rules[1..], m, i) && rules[1..][i].outcome == o.value
    ensures o.None? <==> forall i :: 0 <= i < |rules| ==> !Fires(rules[i], m)
    ensures o.Some? ==> exists i :: FirstFiresAt(rules, m, i) && rules[i].outcome == o.value
  {
    if o.None? {
      forall i | 0 <= i < |rules| ensures !Fires(rules[i], m) {
        if i > 0 {
          assert rules[i] == rules[1..][i - 1];
        }
      }
    } else {
      var i :| FirstFiresAt(rules[1..], m, i) && rules[1..][i].outcome == o.value;
      assert rules[i + 1] == rules[1..][i];
      forall j | 0 <= j < i + 1 ensures !Fires(rules[j], m) {
        if j > 0 {
          assert rules[j] == rules[1..][j - 1];
        }
      }
      assert FirstFiresAt(rules, m, i + 1);
    }
  }

  /** A rule of one alternative with two keywords fires when the text contains both. */
  lemma FiresBoth<T>(a: string, b: string, outcome: T, m: string)
    ensures Fires(Rule([[a, b]], outcome), m) <==> Contains(m, a) && Contains(m, b)
  {
    var r := Rule([[a, b]], outcome);
    if Contains(m, a) && Contains(m, b) {
      assert AllIn(m, r.alternatives[0]);
    }
    if Fires(r, m) {
      assert AllIn(m, r.alternatives[0]);
      assert Contains(m, r.alternatives[0][0]) && Contains(m, r.alternatives[0][1]);
    }
  }

  /** A rule of two single keywords fires when the text contains either. */
  lemma FiresEither<T>(a: string, b: string, outcome: T, m: string)
    ensures Fires(Rule([[a], [b]], outcome), m) <==> Contains(m, a) || Contains(m, b)
  {
    var r := Rule([[a], [b]], outcome);
    if Contains(m, a) {
      assert AllIn(m, r.alternatives[0]);
    } else if Contains(m, b) {
      assert AllIn(m, r.alternatives[1]);
    }
    if Fires(r, m) {
      var i :| 0 <= i < 2 && AllIn(m, r.alternatives[i]);
      assert Contains(m, r.alternatives[i][0]);
    }
  }

  /** A rule of three single keywords fires when the text contains any of them. */
  lemma FiresAnyOfThree<T>(a: string, b: string, c: string, outcome: T, m: string)
    ensures Fires(Rule([[a], [b], [c]], outcome), m) <==> Contains(m, a) || Contains(m, b) || Contains(m, c)
  {
    var r := Rule([[a], [b], [c]], outcome);
    if Contains(m, a) {
      assert AllIn(m, r.alternatives[0]);
    } else if Contains(m, b) {
      assert AllIn(m, r.alternatives[1]);
    } else if Contains(m, c) {
      assert AllIn(m, r.alternatives[2]);
    }
    if Fires(r, m) {
      var i :| 0 <= i < 3 && AllIn(m, r.alternatives[i]);
      assert Contains(m, r.alternatives[i][0]);
    }
  }
}

=== FILE: login_page.dfy ===
/** The login page (app/login/page.tsx): its schema, the mapping of provider errors to messages,
    the handling of the error parameters a password-reset link brings back, and the guard in
    front of the reset-mail request. */
module LoginPage {
  import opened Base
  import opened Text
  import opened Keywords

  const DefaultFailure: string := "로그인에 실패했습니다."
  const CredentialsMessage: string := "이메일 또는 비밀번호가 올바르지 않습니다."
  const NotConfirmedMessage: string := "이메일 확인이 필요합니다. 메일함을 확인해주세요."
  const DisabledMessage: string := "계정이 비활성화되었습니다. 관리자에게 문의해주세요."
  const NetworkMessage: string := "네트워크 오류가 발생했습니다. 인터넷 연결을 확인해주세요."
  const RetryMessage: string := "로그인에 실패했습니다. 다시 시도해주세요."

  const InvalidEmailMessage: string := "올바른 이메일 주소를 입력해주세요."
  const PasswordRequiredMessage: string := "비밀번호를 입력해주세요."

  const LinkProblemMessage: string := "비밀번호 재설정 링크에 문제가 있습니다."
  const LinkExpiredMessage: string := "비밀번호 재설정 링크가 만료되었습니다. 새로운 링크를 요청해주세요."
  const LinkInvalidMessage: string :=
    "비밀번호 재설정 링크가 유효하지 않거나 만료되었습니다. 새로운 링크를 요청해주세요."
  const ResetMailSentMessage: string := "비밀번호 재설정 메일을 보냈습니다. 메일함을 확인해주세요."

  // ---------------------------------------------------------------- schema

  datatype LoginValues = LoginValues(email: string, password: string)
  datatype Field = EmailField | PasswordField
  datatype Issue = Issue(field: Field, message: string)

  /** `loginFormSchema`; `isEmail` is the format check of zod's `.email()`. */
  function Validate(v: LoginValues, isEmail: string -> bool): (issues: seq<Issue>)
    ensures issues == [] <==> isEmail(v.email) && v.password != []
    ensures Issue(EmailField, InvalidEmailMessage) in issues <==> !isEmail(v.email)
    ensures Issue(PasswordField, PasswordRequiredMessage) in issues <==> v.password == []
  {
    (if isEmail(v.email) then [] else [Issue(EmailField, InvalidEmailMessage)])
    + (if |v.password| < 1 then [Issue(PasswordField, PasswordRequiredMessage)] else [])
  }

  // ---------------------------------------------------------------- provider errors

  /** The credential branch. `&&` binds tighter than `||`, so "email" and "password" have to
      appear together, while each other keyword is enough alone. */
  predicate CredentialsProblem(m: string) {
    || Contains(m, "invalid login")
    || Contains(m, "invalid credentials")
    || (Contains(m, "email") && Contains(m, "password"))
    || Contains(m, "wrong")
    || Contains(m, "incorrect")
  }

  predicate NotConfirmed(m: string) {
    Contains(m, "email not confirmed") || Contains(m, "email_not_confirmed")
  }

  predicate AccountDisabled(m: string) {
    Contains(m, "disabled") || Contains(m, "banned")
  }

  predicate NetworkProblem(m: string) {
    Contains(m, "network") || Contains(m, "fetch")
  }

  /** `getErrorMessage`: the lowercased message is matched against the credential, confirmation,
      disabled-account and network keywords, in that order; otherwise the message itself is
      shown, or a generic text when it is empty or missing. */
  function ErrorMessage(e: Option<AuthError>): (msg: string)
    ensures msg != []
    ensures e.None? ==> msg == DefaultFailure
    ensures e.Some? && CredentialsProblem(Lower(e.value.message.GetOr([]))) ==> msg == CredentialsMessage
  {
    if e.None? then DefaultFailure
    else
      var m := Lower(e.value.message.GetOr([]));
      if CredentialsProblem(m) then CredentialsMessage
      else if NotConfirmed(m) then NotConfirmedMessage
      else if AccountDisabled(m) then DisabledMessage
      else if NetworkProblem(m) then NetworkMessage
      else NonEmpty(e.value.message).GetOr(RetryMessage)
  }

  /** The keyword table the mapper follows, first rule first. */
  const Rules: seq<Rule<string>> := [
    Rule([["invalid login"], ["invalid credentials"], ["email", "password"], ["wrong"], ["incorrect"]],
         CredentialsMessage),
    Rule([["email not confirmed"], ["email_not_confirmed"]], NotConfirmedMessage),
    Rule([["disabled"], ["banned"]], DisabledMessage),
    Rule([["network"], ["fetch"]], NetworkMessage)
  ]

  /** The mapper is the keyword table applied to the lowercased message, with the message itself
      (or the generic text) when no rule fires. */
  lemma ErrorMessageFollowsTable(e: AuthError)
    ensures ErrorMessage(Some(e)) ==
      FirstFiring(Rules, Lower(e.message.GetOr([]))).GetOr(NonEmpty(e.message).GetOr(RetryMessage))
  {
    var m := Lower(e.message.GetOr([]));
    RulesFire(m);
  }

  lemma RulesFire(m: string)
    ensures Fires(Rules[0], m) <==> CredentialsProblem(m)
    ensures Fires(Rules[1], m) <==> NotConfirmed(m)
    ensures Fires(Rules[2], m) <==> AccountDisabled(m)
    ensures Fires(Rules[3], m) <==> NetworkProblem(m)
  {
    CredentialsRuleFires(m);
    FiresEither("email not confirmed", "email_not_confirmed", NotConfirmedMessage, m);
    FiresEither("disabled", "banned", DisabledMessage, m);
    FiresEither("network", "fetch", NetworkMessage, m);
  }

  lemma CredentialsRuleFires(m: string)
    ensures Fires(Rules[0], m) <==> CredentialsProblem(m)
  {
    var a := Rules[0].alternatives;
    if CredentialsProblem(m) {
      if Contains(m, "invalid login") {
        assert AllIn(m, a[0]);
      } else if Contains(m, "invalid credentials") {
        assert AllIn(m, a[1]);
      } else if Contains(m, "email") && Contains(m, "password") {
        assert AllIn(m, a[2]);
      } else if Contains(m, "wrong") {
        assert AllIn(m, a[3]);
      } else {
        assert AllIn(m, a[4]);
      }
    }
    if Fires(Rules[0], m) {
      var i :| 0 <= i < |a| && AllIn(m, a[i]);
      assert Contains(m, a[i][0]);
      if i == 2 {
        assert Contains(m, a[i][1]);
      }
    }
  }

  /** The credential rule is tried first, so a confirmation error that also mentions the
      password is reported as a credential problem, never as a missing confirmation. */
  lemma CredentialRuleShadowsConfirmation(message: string)
    requires NotConfirmed(Lower(message)) && Contains(Lower(message), "password")
    ensures ErrorMessage(Some(AuthError(Some(message)))) == CredentialsMessage
  {
    var m := Lower(message);
    if Contains(m, "email not confirmed") {
      ContainsSlice(m, "email not confirmed", 0, 5);
      assert "email not confirmed"[..5] == "email";
    } else {
      ContainsSlice(m, "email_not_confirmed", 0, 5);
      assert "email_not_confirmed"[..5] == "email";
    }
  }

  // ---------------------------------------------------------------- sign-in

  /** What `signInWithPassword` did: returned an error, returned (with or without a user), or
      threw (possibly `null`). */
  datatype SignInReply = ReturnedError(error: AuthError) | Returned(hasUser: bool) | Threw(thrown: Option<AuthError>)

  /** What the submit handler ends with. */
  datatype SubmitOutcome = NoClient | ShowError(message: string) | GoHome | StayPut

  /** `onSubmit`, once the schema accepted the values. */
  function Submit(hasClient: bool, reply: SignInReply): (o: SubmitOutcome)
    ensures !hasClient ==> o == NoClient
    ensures o.GoHome? <==> hasClient && reply == Returned(true)
    ensures hasClient && reply.ReturnedError? ==> o == ShowError(ErrorMessage(Some(reply.error)))
    ensures hasClient && reply.Threw? ==> o == ShowError(ErrorMessage(reply.thrown))
    ensures o.ShowError? ==> o.message != []
  {
    if !hasClient then NoClient
    else match reply
      case ReturnedError(e) => ShowError(ErrorMessage(Some(e)))
      case Returned(hasUser) => if hasUser then GoHome else StayPut
      case Threw(e) => ShowError(ErrorMessage(e))
  }

  // ---------------------------------------------------------------- link parameters

  /** The query parameters the page reads; `None` is an absent parameter. */
  datatype SearchParams = SearchParams(
    error: Option<string>, errorCode: Option<string>, errorDescription: Option<string>,
    reset: Option<string>)

  /** A JavaScript truthiness test of a parameter: present and not empty. */
  predicate Truthy(o: Option<string>) {
    o.Some? && o.value != []
  }

  /** An expired-link code. */
  predicate ExpiredCode(code: Option<string>) {
    code == Some("otp_expired") || code == Some("token_expired")
  }

  /** The friendly text for a failed reset link: an expired code first, then a denied access,
      then the generic text. */
  function LinkMessage(p: SearchParams): (msg: string)
    ensures ExpiredCode(p.errorCode) ==> msg == LinkExpiredMessage
    ensures !ExpiredCode(p.errorCode) && p.error == Some("access_denied") ==> msg == LinkInvalidMessage
    ensures !ExpiredCode(p.errorCode) && p.error != Some("access_denied") ==> msg == LinkProblemMessage
  {
    if p.errorCode == Some("otp_expired") then LinkExpiredMessage
    else if p.errorCode == Some("token_expired") then LinkExpiredMessage
    else if p.error == Some("access_denied") then LinkInvalidMessage
    else LinkProblemMessage
  }

  /** What the parameters change on the page: the error banner, the reset-mail notice, the
      reset panel, and whether the parameters are then removed from the address. */
  datatype Notice = Notice(errorMessage: Option<string>, resetSuccess: Option<string>,
                           showPasswordReset: bool)

  /** The effect run on the parameters: `None` leaves the page as it is. Error parameters win
      over `reset=true`. */
  function UrlNotice(p: SearchParams): (n: Option<Notice>)
    ensures n.None? <==> !Truthy(p.error) && !Truthy(p.errorCode) && p.reset != Some("true")
    ensures Truthy(p.error) || Truthy(p.errorCode) ==> n == Some(Notice(Some(LinkMessage(p)), None, true))
    ensures n.Some? && n.value.resetSuccess.Some? ==>
      !Truthy(p.error) && !Truthy(p.errorCode) && n.value.errorMessage.None?
    ensures !Truthy(p.error) && !Truthy(p.errorCode) && p.reset == Some("true") ==>
      n == Some(Notice(None, Some(ResetMailSentMessage), true))
    ensures n.Some? ==> n.value.showPasswordReset
  {
    if Truthy(p.error) || Truthy(p.errorCode) then Some(Notice(Some(LinkMessage(p)), None, true))
    else if p.reset == Some("true") then Some(Notice(None, Some(ResetMailSentMessage), true))
    else None
  }

  // ---------------------------------------------------------------- reset mail

  datatype ResetRequest = RejectEmail | RejectNoClient | SendResetMail(email: string)

  /** The reset button: the address must be non-empty and contain "@" before the client is even
      consulted, and only then is the mail requested. */
  function RequestReset(resetEmail: string, hasClient: bool): (r: ResetRequest)
    ensures r.SendResetMail? <==> resetEmail != [] && '@' in resetEmail && hasClient
    ensures r.SendResetMail? ==> r.email == resetEmail
    ensures (resetEmail == [] || '@' !in resetEmail) ==> r == RejectEmail
  {
    if resetEmail == [] || '@' !in resetEmail then RejectEmail
    else if !hasClient then RejectNoClient
    else SendResetMail(resetEmail)
  }

  const ResetMailFailedMessage: string := "비밀번호 재설정 메일 전송에 실패했습니다."

  /** How the reset-mail request ended. */
  datatype MailReply = MailError(error: AuthError) | MailSent | MailThrew

  /** The toast after the request, and the notice the panel then shows. */
  datatype MailOutcome = MailOutcome(toastIsError: bool, toast: string, resetSuccess: Option<string>)

  function MailResult(r: MailReply): (o: MailOutcome)
    ensures o.resetSuccess.Some? <==> r == MailSent
    ensures o.toastIsError <==> r != MailSent
    ensures o.toast != []
    ensures r.MailError? && NonEmpty(r.error.message).Some? ==> o.toast == r.error.message.value
    ensures r == MailThrew ==> o.toast == ResetMailFailedMessage
  {
    match r
    case MailError(e) => MailOutcome(true, NonEmpty(e.message).GetOr(ResetMailFailedMessage), None)
    case MailSent => MailOutcome(false, ResetMailSentMessage, Some(ResetMailSentMessage))
    case MailThrew => MailOutcome(true, ResetMailFailedMessage, None)
  }
}

=== FILE: parse_todo.dfy ===
/** The local part of the natural-language parse endpoint (app/api/ai/parse-todo/route.ts):
    input normalisation and validation before the model call, and the clean-up of the model's
    structured answer after it. The model's answer is an input of this model. */
module ParseTodo {
  import opened Base
  import opened Text
  import opened Clock
  import opened Todos
  import RateLimit

  const MinLength: int := 2
  const MaxLength: int := 500
  const MaxTitle: int := 80
  const DefaultTitle: string := "할 일"
  const DefaultTime: string := "09:00"

  const EmptyInputMessage: string := "입력값이 비어있습니다. 할 일을 입력해주세요."
  const ShortInputMessage: string := "입력값이 너무 짧습니다. 최소 2자 이상 입력해주세요."
  const LongInputMessage: string := "입력값이 너무 깁니다. 최대 500자까지 입력 가능합니다."
  const BadJsonMessage: string := "잘못된 요청 형식입니다. JSON 형식으로 요청해주세요."
  const MissingInputMessage: string :=
    "자연어 입력이 필요합니다. 'naturalLanguage' 필드에 문자열을 입력해주세요."
  const NoApiKeyMessage: string := "GOOGLE_GENERATIVE_AI_API_KEY 환경변수가 설정되지 않았습니다."
  const ModelFailedMessage: string := "AI 처리 중 오류가 발생했습니다. 입력을 확인하고 다시 시도해주세요."
  const ParseFailedPrefix: string := "할 일 파싱에 실패했습니다: "

  // ---------------------------------------------------------------- preprocessInput

  /** The non-white-space characters of `s`, in order. */
  function NonSpace(s: string): string {
    if s == [] then [] else (if IsSpace(s[0]) then [] else [s[0]]) + NonSpace(s[1..])
  }

  lemma {:induction false} NonSpaceAppend(a: string, b: string)
    ensures NonSpace(a + b) == NonSpace(a) + NonSpace(b)
  {
    if a == [] {
      assert a + b == b;
    } else {
      assert (a + b)[0] == a[0] && (a + b)[1..] == a[1..] + b;
      NonSpaceAppend(a[1..], b);
    }
  }

  lemma {:induction false} NonSpaceOfBlank(s: string)
    requires forall j :: 0 <= j < |s| ==> IsSpace(s[j])
    ensures NonSpace(s) == []
  {
    if s != [] {
      NonSpaceOfBlank(s[1..]);
    }
  }

  lemma TrimStartKeepsNonSpace(s: string)
    ensures NonSpace(TrimStart(s)) == NonSpace(s)
  {
    var u := TrimStart(s);
    BlankHeadDropped(s, |s| - |u|);
  }

  lemma {:induction false} BlankHeadDropped(s: string, k: int)
    requires 0 <= k <= |s| && forall j :: 0 <= j < k ==> IsSpace(s[j])
    ensures NonSpace(s[k..]) == NonSpace(s)
    decreases k
  {
    if k > 0 {
      BlankHeadDropped(s[1..], k - 1);
      assert s[1..][k - 1..] == s[k..];
    }
  }

  lemma TrimEndKeepsNonSpace(u: string)
    ensures NonSpace(TrimEnd(u)) == NonSpace(u)
  {
    var t := TrimEnd(u);
    assert u == t + u[|t|..];
    NonSpaceAppend(t, u[|t|..]);
    NonSpaceOfBlank(u[|t|..]);
  }

  /** Trimming does not change the non-space characters. */
  lemma TrimKeepsNonSpace(s: string)
    ensures NonSpace(Trim(s)) == NonSpace(s)
  {
    TrimStartKeepsNonSpace(s);
    TrimEndKeepsNonSpace(TrimStart(s));
  }

  /** `s.replace(/\s+/g, " ")`: every maximal run of white space becomes one space. */
  function Collapse(s: string): (r: string)
    ensures |r| <= |s|
    ensures r == [] <==> s == []
  {
    if s == [] then []
    else if IsSpace(s[0]) then [' '] + Collapse(TrimStart(s[1..]))
    else [s[0]] + Collapse(s[1..])
  }

  /** Every white-space character is a plain space. */
  predicate PlainSpaces(s: string) {
    forall i :: 0 <= i < |s| && IsSpace(s[i]) ==> s[i] == ' '
  }

  /** No two white-space characters are adjacent. */
  predicate NoDoubleSpace(s: string) {
    forall i :: 0 <= i < |s| - 1 ==> !(IsSpace(s[i]) && IsSpace(s[i + 1]))
  }

  /** The collapse starts with white space exactly when its input does. */
  lemma CollapseFirst(s: string)
    requires s != []
    ensures IsSpace(Collapse(s)[0]) <==> IsSpace(s[0])
  {
  }

  /** ... and ends with white space exactly when its input does. */
  lemma {:induction false} CollapseLast(s: string)
    requires s != []
    ensures IsSpace(Collapse(s)[|Collapse(s)| - 1]) <==> IsSpace(s[|s| - 1])
    decreases |s|
  {
    if IsSpace(s[0]) {
      var t := TrimStart(s[1..]);
      if t == [] {
        CollapseLastBlankTail(s);
      } else {
        CollapseLast(t);
        CollapseSpaceHead(s);
        CollapseLastSpaceHead(s, t);
      }
    } else if |s| > 1 {
      CollapseLast(s[1..]);
      CollapseLastWordHead(s);
    }
  }

  /** A white-space head followed by nothing but white space collapses to one space. */
  lemma CollapseLastBlankTail(s: string)
    requires s != [] && IsSpace(s[0]) && TrimStart(s[1..]) == []
    ensures IsSpace(Collapse(s)[|Collapse(s)| - 1]) <==> IsSpace(s[|s| - 1])
  {
    assert Collapse(s) == [' '];
    if |s| > 1 {
      assert IsSpace(s[1..][|s| - 2]);
    }
  }

  /** A white-space head: the last character comes from the collapse of the trimmed rest `t`,
      a non-empty suffix of `s`. */
  lemma CollapseLastSpaceHead(s: string, t: string)
    requires t != [] && |t| <= |s| && t == s[|s| - |t|..] && Collapse(s) == [' '] + Collapse(t)
    requires IsSpace(Collapse(t)[|Collapse(t)| - 1]) <==> IsSpace(t[|t| - 1])
    ensures IsSpace(Collapse(s)[|Collapse(s)| - 1]) <==> IsSpace(s[|s| - 1])
  {
    var c := Collapse(t);
    LastOfSuffix(s, t);
    LastOfAppend([' '], c);
    SpaceIffTransfer(Collapse(s)[|Collapse(s)| - 1], s[|s| - 1], c[|c| - 1], t[|t| - 1]);
  }

  /** Equal characters agree on being white space. */
  lemma SpaceIffTransfer(a: char, b: char, c: char, d: char)
    requires a == c && b == d && (IsSpace(c) <==> IsSpace(d))
    ensures IsSpace(a) <==> IsSpace(b)
  {
  }

  lemma CollapseSpaceHead(s: string)
    requires s != [] && IsSpace(s[0])
    ensures Collapse(s) == [' '] + Collapse(TrimStart(s[1..]))
  {
  }

  lemma LastOfSuffix(u: string, t: string)
    requires t != [] && |t| <= |u| && t == u[|u| - |t|..]
    ensures t[|t| - 1] == u[|u| - 1]
  {
  }

  /** A non-space head: the last character comes from the collapse of the rest. */
  lemma CollapseLastWordHead(s: string)
    requires |s| > 1 && !IsSpace(s[0])
    requires IsSpace(Collapse(s[1..])[|Collapse(s[1..])| - 1]) <==> IsSpace(s[1..][|s| - 2])
    ensures IsSpace(Collapse(s)[|Collapse(s)| - 1]) <==> IsSpace(s[|s| - 1])
  {
    assert Collapse(s) == [s[0]] + Collapse(s[1..]);
    LastOfAppend([s[0]], Collapse(s[1..]));
  }

  lemma LastOfAppend(a: string, b: string)
    requires b != []
    ensures (a + b)[|a + b| - 1] == b[|b| - 1]
  {
  }

  /** The collapse starts and ends with white space exactly when its input does. */
  lemma CollapseEnds(s: string)
    ensures s != [] ==> (IsSpace(Collapse(s)[0]) <==> IsSpace(s[0]))
    ensures s != [] ==> (IsSpace(Collapse(s)[|Collapse(s)| - 1]) <==> IsSpace(s[|s| - 1]))
  {
    if s != [] {
      CollapseFirst(s);
      CollapseLast(s);
    }
  }

  /** The collapse has only plain, isolated spaces. */
  lemma {:induction false} CollapseShape(s: string)
    ensures PlainSpaces(Collapse(s)) && NoDoubleSpace(Collapse(s))
    decreases |s|
  {
    if s != [] {
      var r := Collapse(s);
      var tail := if IsSpace(s[0]) then TrimStart(s[1..]) else s[1..];
      var rest := Collapse(tail);
      CollapseShape(tail);
      assert r == [r[0]] + rest;
      if rest != [] {
        CollapseFirst(tail);
        assert r[1] == rest[0];
      }
      assert forall i :: 1 <= i < |r| ==> r[i] == rest[i - 1];
    }
  }

  /** The collapse keeps every non-white-space character, in order. */
  lemma {:induction false} CollapseKeepsNonSpace(s: string)
    ensures NonSpace(Collapse(s)) == NonSpace(s)
    decreases |s|
  {
    if s != [] {
      if IsSpace(s[0]) {
        var t := TrimStart(s[1..]);
        var k := |s[1..]| - |t|;
        CollapseKeepsNonSpace(t);
        assert s[1..] == s[1..][..k] + t;
        NonSpaceAppend(s[1..][..k], t);
        NonSpaceOfBlank(s[1..][..k]);
        NonSpaceAppend([' '], Collapse(t));
      } else {
        CollapseKeepsNonSpace(s[1..]);
        NonSpaceAppend([s[0]], Collapse(s[1..]));
      }
    }
  }

  /** A string with only plain, isolated spaces is its own collapse. */
  lemma {:induction false} CollapseFixed(s: string)
    requires PlainSpaces(s) && NoDoubleSpace(s)
    ensures Collapse(s) == s
    decreases |s|
  {
    if s != [] {
      assert PlainSpaces(s[1..]) && NoDoubleSpace(s[1..]) by {
        assert forall i :: 0 <= i < |s[1..]| ==> s[1..][i] == s[i + 1];
      }
      if IsSpace(s[0]) && |s| > 1 {
        assert !IsSpace(s[1]);
        assert TrimStart(s[1..]) == s[1..];
      }
      CollapseFixed(s[1..]);
    }
  }

  /** No leading or trailing white space, only plain spaces, none adjacent. */
  predicate Normalized(s: string) {
    && (s == [] || (!IsSpace(s[0]) && !IsSpace(s[|s| - 1])))
    && PlainSpaces(s)
    && NoDoubleSpace(s)
  }

  /** `preprocessInput`: trim, then collapse white-space runs. */
  function Preprocess(s: string): (r: string)
    ensures Normalized(r)
    ensures |r| <= |s|
    ensures NonSpace(r) == NonSpace(s)
  {
    CollapseOfTrim(s);
    Collapse(Trim(s))
  }

  /** The collapse of a trimmed string is normalised and keeps its non-space characters. */
  lemma CollapseOfTrim(s: string)
    ensures Normalized(Collapse(Trim(s)))
    ensures NonSpace(Collapse(Trim(s))) == NonSpace(s)
  {
    CollapseOfTrimShape(Trim(s));
    CollapseKeepsNonSpace(Trim(s));
    TrimKeepsNonSpace(s);
  }

  lemma CollapseOfTrimShape(t: string)
    requires t == [] || (!IsSpace(t[0]) && !IsSpace(t[|t| - 1]))
    ensures Normalized(Collapse(t))
  {
    CollapseShape(t);
    CollapseEnds(t);
  }

  /** `preprocessInput` is idempotent. */
  lemma PreprocessIdempotent(s: string)
    ensures Preprocess(Preprocess(s)) == Preprocess(s)
  {
    var r := Preprocess(s);
    assert TrimStart(r) == r;
    assert TrimEnd(r) == r;
    CollapseFixed(r);
  }

  /** A normalised text is its own preprocessing. */
  lemma PreprocessFixed(s: string)
    requires Normalized(s)
    ensures Preprocess(s) == s
  {
    PreprocessOfTrimmed(s);
    CollapseFixed(s);
  }

  /** A text that neither starts nor ends with white space is its own trim. */
  lemma TrimmedIsOwnTrim(s: string)
    requires s == [] || (!IsSpace(s[0]) && !IsSpace(s[|s| - 1]))
    ensures Trim(s) == s
  {
    assert TrimStart(s) == s;
  }

  /** The white-space run between two trimmed pieces of text becomes exactly one space, and
      each piece is preprocessed on its own. */
  lemma PreprocessGap(a: string, g: string, b: string)
    requires a != [] && !IsSpace(a[0]) && !IsSpace(a[|a| - 1])
    requires b != [] && !IsSpace(b[0]) && !IsSpace(b[|b| - 1])
    requires g != [] && forall i :: 0 <= i < |g| ==> IsSpace(g[i])
    ensures Preprocess(a + g + b) == Preprocess(a) + " " + Preprocess(b)
  {
    var gb := g + b;
    var s := a + gb;
    assert s == a + g + b;
    EndsOfAppend(a, gb);
    LastOfAppend(g, b);
    PreprocessOfTrimmed(s);
    PreprocessOfTrimmed(a);
    PreprocessOfTrimmed(b);
    CollapseSplit(a, gb);
    CollapseSplit(g, b);
    CollapseBlank(g);
    GapCompose(Collapse(s), Collapse(a), Collapse(gb), Collapse(g), Collapse(b));
  }

  lemma EndsOfAppend(a: string, b: string)
    requires a != [] && b != []
    ensures (a + b)[0] == a[0] && (a + b)[|a + b| - 1] == b[|b| - 1]
  {
  }

  lemma GapCompose(cs: string, ca: string, cgb: string, cg: string, cb: string)
    requires cs == ca + cgb && cgb == cg + cb && cg == " "
    ensures cs == ca + " " + cb
  {
  }

  lemma PreprocessOfTrimmed(s: string)
    requires s == [] || (!IsSpace(s[0]) && !IsSpace(s[|s| - 1]))
    ensures Preprocess(s) == Collapse(s)
  {
    TrimmedIsOwnTrim(s);
  }

  /** A non-empty white-space run collapses to one space. */
  lemma CollapseBlank(g: string)
    requires g != [] && forall i :: 0 <= i < |g| ==> IsSpace(g[i])
    ensures Collapse(g) == " "
  {
    TrimStartOfBlank(g[1..]);
  }

  lemma {:induction false} TrimStartOfBlank(g: string)
    requires forall i :: 0 <= i < |g| ==> IsSpace(g[i])
    ensures TrimStart(g) == []
    decreases |g|
  {
    if g != [] {
      TrimStartOfBlank(g[1..]);
    }
  }

  /** Cutting a text anywhere but inside a white-space run commutes with collapsing. */
  lemma {:induction false} CollapseSplit(a: string, b: string)
    requires a == [] || b == [] || !IsSpace(a[|a| - 1]) || !IsSpace(b[0])
    ensures Collapse(a + b) == Collapse(a) + Collapse(b)
    decreases |a|, 1
  {
    if a == [] {
      assert a + b == b;
    } else if b == [] {
      assert a + b == a;
    } else if !IsSpace(a[0]) {
      CollapseSplitWordCase(a, b);
    } else {
      CollapseSplitSpaceCase(a, b);
    }
  }

  lemma {:induction false} CollapseSplitWordCase(a: string, b: string)
    requires a != [] && b != [] && !IsSpace(a[0]) && (!IsSpace(a[|a| - 1]) || !IsSpace(b[0]))
    ensures Collapse(a + b) == Collapse(a) + Collapse(b)
    decreases |a|, 0
  {
    if |a| > 1 {
      LastOfSuffix(a, a[1..]);
    }
    CollapseSplit(a[1..], b);
    CollapseSplitWordHead(a, b);
  }

  lemma {:induction false} CollapseSplitSpaceCase(a: string, b: string)
    requires a != [] && b != [] && IsSpace(a[0]) && (!IsSpace(a[|a| - 1]) || !IsSpace(b[0]))
    ensures Collapse(a + b) == Collapse(a) + Collapse(b)
    decreases |a|, 0
  {
    var t := TrimStart(a[1..]);
    if t == [] {
      BlankTailLast(a);
    } else {
      LastOfSuffix(a, t);
    }
    TrimStartAppend(a[1..], b);
    CollapseSpaceHeadAt(a, a[1..], t);
    CollapseAppendSpaceHead(a, b);
    if t != [] {
      CollapseSplit(t, b);
    } else {
      assert t + b == b;
    }
    ConsAppend(Collapse(a), Collapse(a + b), Collapse(t), Collapse(t + b), Collapse(b));
  }

  lemma CollapseSplitWordHead(a: string, b: string)
    requires a != [] && !IsSpace(a[0])
    requires Collapse(a[1..] + b) == Collapse(a[1..]) + Collapse(b)
    ensures Collapse(a + b) == Collapse(a) + Collapse(b)
  {
    TailOfAppend(a, b);
    CollapseWordHead(a + b, a[1..] + b);
    CollapseWordHead(a, a[1..]);
  }

  lemma TailOfAppend(a: string, b: string)
    requires a != []
    ensures (a + b)[0] == a[0] && (a + b)[1..] == a[1..] + b
  {
  }

  lemma CollapseWordHead(w: string, rest: string)
    requires w != [] && !IsSpace(w[0]) && rest == w[1..]
    ensures Collapse(w) == [w[0]] + Collapse(rest)
  {
  }

  lemma CollapseSpaceHeadAt(w: string, rest: string, t: string)
    requires w != [] && IsSpace(w[0]) && rest == w[1..] && t == TrimStart(rest)
    ensures Collapse(w) == [' '] + Collapse(t)
  {
  }

  /** A text that is white space after its head ends in white space. */
  lemma BlankTailLast(a: string)
    requires a != [] && IsSpace(a[0]) && TrimStart(a[1..]) == []
    ensures IsSpace(a[|a| - 1])
  {
    if |a| > 1 {
      assert IsSpace(a[1..][|a| - 2]);
    }
  }

  lemma CollapseAppendSpaceHead(a: string, b: string)
    requires a != [] && IsSpace(a[0])
    requires TrimStart(a[1..] + b) == TrimStart(a[1..]) + b
    ensures Collapse(a + b) == [' '] + Collapse(TrimStart(a[1..]) + b)
  {
    TailOfAppend(a, b);
    CollapseSpaceHeadAt(a + b, a[1..] + b, TrimStart(a[1..]) + b);
  }

  lemma ConsAppend(ca: string, cab: string, ct: string, ctb: string, cb: string)
    requires ca == [' '] + ct && cab == [' '] + ctb && ctb == ct + cb
    ensures cab == ca + cb
  {
  }

  lemma TrimStartAppendSpaceHead(u: string, b: string)
    requires u != [] && IsSpace(u[0])
    requires TrimStart(u[1..] + b) == TrimStart(u[1..]) + b
    ensures TrimStart(u + b) == TrimStart(u) + b
  {
    TrimStartDropHead(u, b);
    TrimStartSpaceHead(u, u[1..]);
  }

  lemma TrimStartDropHead(u: string, b: string)
    requires u != [] && IsSpace(u[0])
    ensures TrimStart(u + b) == TrimStart(u[1..] + b)
  {
    assert (u + b)[1..] == u[1..] + b;
  }

  lemma TrimStartAppendWordHead(u: string, b: string)
    requires u != [] && !IsSpace(u[0])
    ensures TrimStart(u + b) == TrimStart(u) + b
  {
    assert (u + b)[0] == u[0];
  }

  lemma TrimStartSpaceHead(u: string, rest: string)
    requires u != [] && IsSpace(u[0]) && rest == u[1..]
    ensures TrimStart(u) == TrimStart(rest)
  {
  }

  /** Trimming the start of `u + b`: the trimmed `u` followed by `b` while `u` holds a
      non-space character, otherwise `b` once it starts with one. */
  lemma {:induction false} TrimStartAppend(u: string, b: string)
    requires TrimStart(u) == [] ==> b == [] || !IsSpace(b[0])
    ensures TrimStart(u + b) == TrimStart(u) + b
    decreases |u|
  {
    if u == [] {
      assert u + b == b;
    } else if IsSpace(u[0]) {
      TrimStartAppend(u[1..], b);
      TrimStartAppendSpaceHead(u, b);
    } else {
      TrimStartAppendWordHead(u, b);
    }
  }

  /** An input that is not blank stays non-empty after preprocessing. */
  lemma PreprocessBlank(s: string)
    ensures Preprocess(s) == [] <==> IsBlank(s)
  {
    var r := Preprocess(s);
    if r == [] {
      assert Collapse(Trim(s)) == [];
    }
  }

  // ---------------------------------------------------------------- validateInput

  /** `[\u{1F300}-\u{1F9FF}]`. */
  predicate IsEmoji(c: char) {
    '\U{1F300}' <= c <= '\U{1F9FF}'
  }

  function EmojiCount(s: string): nat {
    if s == [] then 0 else (if IsEmoji(s[0]) then 1 else 0) + EmojiCount(s[1..])
  }

  /** The outcome of `validateInput`; a valid input may carry the emoji warning. */
  datatype Validation = Invalid(error: string) | Valid(emojiWarning: bool)

  /** `validateInput`: empty, too short and too long are rejected in that order, each with its
      own message; emojis only warn. */
  function ValidateInput(input: string): (v: Validation)
    ensures v.Valid? <==> !IsBlank(input) && MinLength <= |input| <= MaxLength
    ensures IsBlank(input) ==> v == Invalid(EmptyInputMessage)
    ensures !IsBlank(input) && |input| < MinLength ==> v == Invalid(ShortInputMessage)
    ensures !IsBlank(input) && |input| > MaxLength ==> v == Invalid(LongInputMessage)
    ensures v.Valid? ==> v.emojiWarning == (EmojiCount(input) > 5)
  {
    if input == [] || IsBlank(input) then Invalid(EmptyInputMessage)
    else if |input| < MinLength then Invalid(ShortInputMessage)
    else if |input| > MaxLength then Invalid(LongInputMessage)
    else Valid(EmojiCount(input) > 5)
  }

  // ---------------------------------------------------------------- post-processing

  /** The final title: blank becomes "할 일", the rest is trimmed, and a title over 80
      characters keeps its first 77 and gains "...". */
  function FinalTitle(raw: string): (t: string)
    ensures 1 <= |t| <= MaxTitle
    ensures IsBlank(raw) ==> t == DefaultTitle
    ensures !IsBlank(raw) && |Trim(raw)| <= MaxTitle ==> t == Trim(raw)
    ensures |Trim(raw)| > MaxTitle ==> t == Trim(raw)[..77] + "..."
  {
    var base := if raw == [] || IsBlank(raw) then DefaultTitle else raw;
    DefaultTitleTrimmed();
    var title := Trim(base);
    var cut := if |title| > MaxTitle then title[..77] + "..." else title;
    if |cut| < 1 then DefaultTitle else cut
  }

  lemma DefaultTitleTrimmed()
    ensures Trim(DefaultTitle) == DefaultTitle
  {
    assert !IsSpace(DefaultTitle[0]) && !IsSpace(DefaultTitle[2]);
    assert TrimStart(DefaultTitle) == DefaultTitle;
    assert TrimEnd(DefaultTitle) == DefaultTitle;
  }

  /** `/^([0-1][0-9]|2[0-3]):[0-5][0-9]$/`. */
  predicate IsClockTime(s: string) {
    && |s| == 5
    && ((('0' <= s[0] <= '1') && IsDigit(s[1])) || (s[0] == '2' && '0' <= s[1] <= '3'))
    && s[2] == ':'
    && '0' <= s[3] <= '5'
    && IsDigit(s[4])
  }

  function DigitValue(c: char): int {
    c as int - '0' as int
  }

  function DigitChar(d: int): char
    requires 0 <= d < 10
  {
    (d + '0' as int) as char
  }

  /** `HH:mm` for an hour and minute. */
  function FormatTime(h: int, m: int): string
    requires 0 <= h < 24 && 0 <= m < 60
  {
    [DigitChar(h / 10), DigitChar(h % 10), ':', DigitChar(m / 10), DigitChar(m % 10)]
  }

  /** The hour and minute `dueTime.split(":").map(Number)` reads from a valid time. */
  function HourPart(s: string): int
    requires IsClockTime(s)
  {
    DigitValue(s[0]) * 10 + DigitValue(s[1])
  }

  function MinutePart(s: string): int
    requires IsClockTime(s)
  {
    DigitValue(s[3]) * 10 + DigitValue(s[4])
  }

  /** The pattern accepts exactly the `HH:mm` renderings of the times of a day. */
  lemma ClockTimeIffFormatted(s: string)
    ensures IsClockTime(s) ==>
      0 <= HourPart(s) < 24 && 0 <= MinutePart(s) < 60 && s == FormatTime(HourPart(s), MinutePart(s))
    ensures forall h, m :: 0 <= h < 24 && 0 <= m < 60 ==>
      IsClockTime(FormatTime(h, m)) && HourPart(FormatTime(h, m)) == h
      && MinutePart(FormatTime(h, m)) == m
  {
  }

  /** The due time: a missing or malformed time becomes "09:00". */
  function FinalTime(raw: string): (t: string)
    ensures IsClockTime(t)
    ensures IsClockTime(raw) ==> t == raw
    ensures !IsClockTime(raw) ==> t == DefaultTime
  {
    var time := if raw == [] then DefaultTime else raw;
    if IsClockTime(time) then time else DefaultTime
  }

  /** `description?.trim() || null`, and the same for the category. */
  function TrimmedOrNull(o: Option<string>): (r: Option<string>)
    ensures r.Some? <==> o.Some? && !IsBlank(o.value)
    ensures r.Some? ==> r.value == Trim(o.value) && r.value != []
  {
    if o.Some? && Trim(o.value) != [] then Some(Trim(o.value)) else None
  }

  /** The due timestamp: the parsed day at the given time, or absent when the date is absent,
      unparseable, or a day before today. `parseDay` is date-fns `parse(s, "yyyy-MM-dd")`;
      `today` is the fixed current date and `clock` is the real time `isPast` reads. */
  function DueDate(raw: Option<string>, time: string, today: int, clock: int,
                   parseDay: string -> Option<int>): (d: Option<int>)
    requires IsClockTime(time)
    ensures raw.None? || raw == Some([]) ==> d.None?
    ensures raw.Some? && parseDay(raw.value).None? ==> d.None?
    ensures d.Some? ==>
      && raw.Some? && parseDay(raw.value).Some?
      && StartOfDay(d.value) == StartOfDay(parseDay(raw.value).value)
      && HourOf(d.value) == HourPart(time)
      && MinuteOf(d.value) == MinutePart(time)
      && d.value % MinuteMs == 0
      && !(StartOfDay(d.value) < StartOfDay(today) && StartOfDay(d.value) < clock)
    ensures raw.Some? && raw.value != [] && parseDay(raw.value).Some? ==>
      var day := StartOfDay(parseDay(raw.value).value);
      (d.None? <==> day < StartOfDay(today) && day < clock)
  {
    if raw.None? || raw.value == [] then None
    else match parseDay(raw.value)
      case None => None
      case Some(parsed) =>
        var day := StartOfDay(parsed);
        if day < clock && day < StartOfDay(today) then None
        else
          var at := day + HourPart(time) * HourMs + MinutePart(time) * MinuteMs;
          TimeOfDay(day, HourPart(time), MinutePart(time));
          Some(at)
  }

  /** `setHours(h, m, 0, 0)` on a midnight: that day, at that hour and minute, on the minute. */
  lemma TimeOfDay(day: int, h: int, m: int)
    requires day % DayMs == 0 && 0 <= h < 24 && 0 <= m < 60
    ensures StartOfDay(day + h * HourMs + m * MinuteMs) == day
    ensures HourOf(day + h * HourMs + m * MinuteMs) == h
    ensures MinuteOf(day + h * HourMs + m * MinuteMs) == m
    ensures (day + h * HourMs + m * MinuteMs) % MinuteMs == 0
  {
    var t := day + h * HourMs + m * MinuteMs;
    MidnightOf(day, t);
    OnTheMinute(day / DayMs * 1440 + h * 60 + m);
    assert t == (day / DayMs * 1440 + h * 60 + m) * MinuteMs;
  }

  /** The only midnight at most a day before `t` is the start of `t`'s day. */
  lemma MidnightOf(day: int, t: int)
    requires day % DayMs == 0 && day <= t < day + DayMs
    ensures StartOfDay(t) == day
  {
    var r := StartOfDay(t);
    assert day == day / DayMs * DayMs && r == r / DayMs * DayMs;
  }

  lemma OnTheMinute(k: int)
    ensures (k * MinuteMs) % MinuteMs == 0
  {
  }

  /** When the real clock is not behind the fixed date, only days before today are dropped. */
  lemma PastDateRejection(raw: string, time: string, today: int, clock: int,
                          parseDay: string -> Option<int>)
    requires IsClockTime(time) && raw != [] && parseDay(raw).Some? && clock >= StartOfDay(today)
    ensures DueDate(Some(raw), time, today, clock, parseDay).None?
      <==> StartOfDay(parseDay(raw).value) < StartOfDay(today)
  {
  }

  // ---------------------------------------------------------------- the endpoint

  datatype NaturalLanguage = Absent | NotAString | Text(s: string)
  /** The body as `request.json()` leaves it: not JSON, the JSON `null` (whose destructuring
      throws a `TypeError` with the engine's message `thrown`), or a value whose
      `naturalLanguage` property is read. */
  datatype RequestBody = Malformed | NullBody(thrown: string) | Body(naturalLanguage: NaturalLanguage)

  /** The model's structured answer as the schema types it. */
  datatype RawTodo = RawTodo(
    title: string, description: Option<string>, dueDate: Option<string>,
    dueTime: string, priority: Priority, category: Option<string>)

  /** The outcome of `generateObject`: an error message (empty for a non-`Error`) or an object. */
  datatype ModelReply = ModelThrew(message: string) | ModelObject(raw: RawTodo)

  datatype ParsedTodo = ParsedTodo(
    title: string, description: Option<string>, dueDate: Option<int>,
    priority: Priority, category: Option<string>)

  datatype Response = Parsed(todo: ParsedTodo) | Failed(status: int, error: string)

  /** The model call happens only when the request survives every guard. */
  predicate CallsModel(body: RequestBody, apiKeySet: bool) {
    && body.Body?
    && body.naturalLanguage.Text?
    && body.naturalLanguage.s != []
    && ValidateInput(Preprocess(body.naturalLanguage.s)).Valid?
    && apiKeySet
  }

  /** The post-processing of a model answer into the response body. */
  function Clean(raw: RawTodo, today: int, clock: int, parseDay: string -> Option<int>): (p: ParsedTodo)
    ensures 1 <= |p.title| <= MaxTitle
    ensures p.description == TrimmedOrNull(raw.description)
    ensures p.category == TrimmedOrNull(raw.category)
    ensures p.priority == raw.priority
    ensures p.dueDate.Some? ==> raw.dueDate.Some? && parseDay(raw.dueDate.value).Some?
  {
    var time := FinalTime(raw.dueTime);
    ParsedTodo(FinalTitle(raw.title), TrimmedOrNull(raw.description),
               DueDate(raw.dueDate, time, today, clock, parseDay), raw.priority,
               TrimmedOrNull(raw.category))
  }

  /** The answer to a failed model call: the quota message with 429 when the error text
      names a rate limit, otherwise the generic 400. */
  function ModelFailure(message: string): (r: Response)
    ensures r.Failed? && r.status == RateLimit.FailureStatus(message, 400)
    ensures r.error == if RateLimit.IsRateLimited(message) then RateLimit.RateLimitedMessage else ModelFailedMessage
    ensures message == [] ==> r == Failed(400, ModelFailedMessage)
  {
    RateLimit.NoMarkerLetterNotRateLimited([]);
    if RateLimit.IsRateLimited(message) then Failed(429, RateLimit.RateLimitedMessage)
    else Failed(400, ModelFailedMessage)
  }

  /** `POST /api/ai/parse-todo`. */
  function Post(body: RequestBody, apiKeySet: bool, reply: ModelReply, today: int, clock: int,
                parseDay: string -> Option<int>): (r: Response)
    ensures body.Malformed? ==> r == Failed(400, BadJsonMessage)
    ensures body.NullBody? ==> r == Failed(500, ParseFailedPrefix + body.thrown)
    ensures body.Body? && (body.naturalLanguage.Absent? || body.naturalLanguage.NotAString?
                           || body.naturalLanguage == Text([]))
      ==> r == Failed(400, MissingInputMessage)
    ensures body.Body? && body.naturalLanguage.Text? && body.naturalLanguage.s != []
      && ValidateInput(Preprocess(body.naturalLanguage.s)).Invalid?
      ==> r == Failed(400, ValidateInput(Preprocess(body.naturalLanguage.s)).error)
    ensures body.Body? && body.naturalLanguage.Text? && body.naturalLanguage.s != []
      && ValidateInput(Preprocess(body.naturalLanguage.s)).Valid? && !apiKeySet
      ==> r == Failed(500, NoApiKeyMessage)
    ensures r.Parsed? <==> CallsModel(body, apiKeySet) && reply.ModelObject?
    ensures CallsModel(body, apiKeySet) && reply.ModelObject? ==>
      r == Parsed(Clean(reply.raw, today, clock, parseDay))
    ensures CallsModel(body, apiKeySet) && reply.ModelThrew? ==> r == ModelFailure(reply.message)
  {
    match body
    case Malformed => Failed(400, BadJsonMessage)
    case NullBody(thrown) => Failed(500, ParseFailedPrefix + thrown)
    case Body(naturalLanguage) =>
      if !naturalLanguage.Text? || naturalLanguage.s == [] then Failed(400, MissingInputMessage)
      else
        var input := Preprocess(naturalLanguage.s);
        match ValidateInput(input)
        case Invalid(e) => Failed(400, e)
        case Valid(_) =>
          if !apiKeySet then Failed(500, NoApiKeyMessage)
          else match reply
            case ModelThrew(m) => ModelFailure(m)
            case ModelObject(raw) => Parsed(Clean(raw, today, clock, parseDay))
  }

  /** The model's answer is the only thing the success response depends on: two requests that
      both reach the model and get the same object answer alike, whatever their text. */
  lemma ParsedIgnoresInputText(body1: RequestBody, body2: RequestBody, raw: RawTodo, today: int,
                               clock: int, parseDay: string -> Option<int>)
    requires CallsModel(body1, true) && CallsModel(body2, true)
    ensures Post(body1, true, ModelObject(raw), today, clock, parseDay)
         == Post(body2, true, ModelObject(raw), today, clock, parseDay)
    ensures Post(body1, true, ModelObject(raw), today, clock, parseDay).todo.title == FinalTitle(raw.title)
  {
  }
}

=== FILE: post_list.dfy ===
/** The forum's post list (gesipan/components/PostList.tsx): one page of ten posts at a time,
    with previous/next buttons shown when there is more than one page. */
module PostList {
  import opened Base

  const PageSize: nat := 10
  const SortOrder: string := "RESENT"

  /** A post, by the id its card is keyed on. */
  datatype Post = Post(id: int)

  /** The list's state: the posts shown, the loading flag, the zero-based page and the page
      count the server last reported. */
  datatype ListState = ListState(posts: seq<Post>, loading: bool, page: int, totalPages: int)

  /** Mounting shows page 0 and starts loading it. */
  const Initial: ListState := ListState([], true, 0, 0)

  /** The request made for the current page. */
  datatype Request = Request(page: int, size: nat, sort: string)

  function RequestFor(s: ListState): (r: Request)
    ensures r.page == s.page && r.size == PageSize && r.sort == SortOrder
  {
    Request(s.page, PageSize, SortOrder)
  }

  // ---------------------------------------------------------------- fetching

  /** The `data` of a reply; either field may be missing. */
  datatype PageData = PageData(content: Option<seq<Post>>, totalPages: Option<int>)

  /** How a fetch ended: a reply with its success flag and data, or an exception. */
  datatype FetchReply = Replied(success: bool, data: Option<PageData>) | FetchThrew

  /** A missing or zero page count reads as 0. */
  function PageCount(d: PageData): int {
    d.totalPages.GetOr(0)
  }

  /** The end of a fetch: a successful reply with data replaces the posts and the page count,
      a missing list reading as empty; anything else keeps them. Loading stops either way and
      the page does not move. */
  function Fetched(s: ListState, reply: FetchReply): (t: ListState)
    ensures !t.loading && t.page == s.page
    ensures reply.Replied? && reply.success && reply.data.Some? ==>
      t.posts == reply.data.value.content.GetOr([]) && t.totalPages == PageCount(reply.data.value)
    ensures !(reply.Replied? && reply.success && reply.data.Some?) ==>
      t.posts == s.posts && t.totalPages == s.totalPages
  {
    match reply
    case Replied(true, Some(d)) => s.(posts := d.content.GetOr([]), totalPages := PageCount(d), loading := false)
    case _ => s.(loading := false)
  }

  // ---------------------------------------------------------------- the view

  /** The list area: skeletons while the first page loads, an empty message, or the cards. */
  datatype ListView = Skeleton | NoPosts | Cards(ids: seq<int>)

  function View(s: ListState): (v: ListView)
    ensures v.Skeleton? <==> s.loading && s.posts == []
    ensures v.NoPosts? <==> !s.loading && s.posts == []
    ensures v.Cards? <==> s.posts != []
    ensures v.Cards? ==> |v.ids| == |s.posts| && forall i :: 0 <= i < |s.posts| ==> v.ids[i] == s.posts[i].id
  {
    if s.loading && |s.posts| == 0 then Skeleton
    else if |s.posts| == 0 then NoPosts
    else Cards(seq(|s.posts|, i requires 0 <= i < |s.posts| => s.posts[i].id))
  }

  /** The pager: whether each button is disabled, and the one-based "page / total" label. */
  datatype Pager = Pager(previousDisabled: bool, shownPage: int, shownTotal: int, nextDisabled: bool)

  function PagerOf(s: ListState): (p: Option<Pager>)
    ensures p.Some? <==> s.totalPages > 1
    ensures p.Some? ==> (p.value.previousDisabled <==> s.page == 0)
    ensures p.Some? ==> (p.value.nextDisabled <==> s.page >= s.totalPages - 1)
    ensures p.Some? ==> p.value.shownPage == s.page + 1 && p.value.shownTotal == s.totalPages
  {
    if s.totalPages > 1 then
      Some(Pager(s.page == 0, s.page + 1, s.totalPages, s.page >= s.totalPages - 1))
    else None
  }

  // ---------------------------------------------------------------- paging

  datatype Click = Previous | Next

  /** Whether a click lands on an enabled button. */
  predicate Enabled(s: ListState, c: Click) {
    PagerOf(s).Some? &&
    match c
    case Previous => !PagerOf(s).value.previousDisabled
    case Next => !PagerOf(s).value.nextDisabled
  }

  function Max(a: int, b: int): int { if a >= b then a else b }
  function Min(a: int, b: int): int { if a <= b then a else b }

  /** The page a click asks for: one back but not below 0, or one on but not past the last. */
  function Target(s: ListState, c: Click): int {
    match c
    case Previous => Max(0, s.page - 1)
    case Next => Min(s.totalPages - 1, s.page + 1)
  }

  /** A click on an enabled button moves the page and, since the page changed, starts a fetch;
      a click on a disabled or hidden button does nothing. */
  function Clicked(s: ListState, c: Click): (t: ListState)
    ensures !Enabled(s, c) ==> t == s
    ensures Enabled(s, c) ==> t.posts == s.posts && t.totalPages == s.totalPages && t.loading
    ensures Enabled(s, c) && c.Next? ==> t.page == s.page + 1
    ensures Enabled(s, c) && c.Previous? && s.page >= 1 ==> t.page == s.page - 1
  {
    if !Enabled(s, c) then s
    else
      var p := Target(s, c);
      if p == s.page then s else s.(page := p, loading := true)
  }

  /** The page is one the server has. */
  predicate InRange(s: ListState) {
    0 <= s.page < s.totalPages
  }

  /** A click never leaves the range of pages the list knows about. */
  lemma ClickKeepsRange(s: ListState, c: Click)
    requires InRange(s)
    ensures InRange(Clicked(s, c))
  {
  }

  function Replay(s: ListState, clicks: seq<Click>): ListState
    decreases |clicks|
  {
    if clicks == [] then s else Replay(Clicked(s, clicks[0]), clicks[1..])
  }

  /** However the buttons are pressed between fetches, the page stays within range and moves by
      at most one per click. */
  lemma {:induction false} ReplayKeepsRange(s: ListState, clicks: seq<Click>)
    requires InRange(s)
    ensures InRange(Replay(s, clicks))
    ensures Replay(s, clicks).totalPages == s.totalPages
    ensures -|clicks| <= Replay(s, clicks).page - s.page <= |clicks|
    decreases |clicks|
  {
    if clicks != [] {
      ClickKeepsRange(s, clicks[0]);
      ReplayKeepsRange(Clicked(s, clicks[0]), clicks[1..]);
    }
  }

  /** Every page can be reached from the first by pressing next. */
  lemma {:induction false} NextReachesEveryPage(s: ListState, k: nat)
    requires s.page == 0 && s.totalPages > 1 && k < s.totalPages
    ensures Replay(s, seq(k, _ => Next)).page == k
  {
    NextWalk(s, k);
  }

  lemma {:induction false} NextWalk(s: ListState, k: nat)
    requires 0 <= s.page && s.page + k < s.totalPages && s.totalPages > 1
    ensures Replay(s, seq(k, _ => Next)).page == s.page + k
    decreases k
  {
    if k > 0 {
      var clicks := seq(k, _ => Next);
      assert clicks[0] == Next && clicks[1..] == seq(k - 1, _ => Next);
      NextWalk(Clicked(s, Next), k - 1);
    }
  }

  /** A shorter list after a fetch can leave the page past the end: then next is disabled and
      the label shows a page beyond the total, and previous steps back one page at a time. */
  lemma StaleDeepPage()
    ensures var s := Fetched(ListState([Post(1)], false, 4, 5), Replied(true, Some(PageData(None, Some(2)))));
      s.page == 4 && !InRange(s) && PagerOf(s).Some? && PagerOf(s).value.nextDisabled
      && PagerOf(s).value.shownPage == 5 && PagerOf(s).value.shownTotal == 2
      && Clicked(s, Previous).page == 3
  {
  }
}

=== FILE: rate_limit.dfy ===
/** The quota check both AI routes apply to a failed model call
    (app/api/ai/summary/route.ts and app/api/ai/parse-todo/route.ts). */
module RateLimit {
  import opened Text

  /** The error text names HTTP 429, a quota, a rate limit or Google's RESOURCE_EXHAUSTED. */
  predicate IsRateLimited(message: string) {
    || Contains(message, "429")
    || Contains(message, "quota")
    || Contains(message, "rate limit")
    || Contains(message, "RESOURCE_EXHAUSTED")
  }

  const RateLimitedMessage: string := "API 호출 한도가 초과되었습니다. 잠시 후 다시 시도해주세요."

  /** The status a failed model call turns into: 429 when rate limited, `otherwise` else. */
  function FailureStatus(message: string, otherwise: int): (status: int)
    ensures IsRateLimited(message) ==> status == 429
    ensures !IsRateLimited(message) ==> status == otherwise
  {
    if IsRateLimited(message) then 429 else otherwise
  }

  /** A text holding none of the markers' first letters names no marker, so the error it
      stands for is never taken for rate limiting. */
  lemma NoMarkerLetterNotRateLimited(text: string)
    requires '4' !in text && 'q' !in text && 'r' !in text && 'R' !in text
    ensures !IsRateLimited(text)
  {
    FirstLetterContained(text, "429");
    FirstLetterContained(text, "quota");
    FirstLetterContained(text, "rate limit");
    FirstLetterContained(text, "RESOURCE_EXHAUSTED");
  }

  /** A text containing a non-empty `sub` contains its first letter. */
  lemma FirstLetterContained(text: string, sub: string)
    ensures sub != [] && Contains(text, sub) ==> sub[0] in text
  {
    if sub != [] && Contains(text, sub) {
      var i :| 0 <= i <= |text| - |sub| && StartsAt(text, i, sub);
      assert text[i] == sub[0];
    }
  }
}

=== FILE: reset_password.dfy ===
/** The password-reset page (app/reset-password/page.tsx): its schema, the message it derives
    from the error parameters of the reset link, and the state its submit handler leaves. */
module ResetPasswordPage {
  import opened Base
  import Text
  import SignupPage
  import LoginPage

  const TooShortMessage: string := "비밀번호는 최소 8자 이상이어야 합니다."
  const ConfirmRequiredMessage: string := "비밀번호 확인을 입력해주세요."
  const MismatchMessage: string := "비밀번호가 일치하지 않습니다."
  const FailureMessage: string := "비밀번호 재설정에 실패했습니다."

  /** The shortest password (and confirmation) the schema accepts. */
  const MinLength: nat := 8

  // ---------------------------------------------------------------- schema

  datatype ResetValues = ResetValues(password: string, confirmPassword: string)
  datatype Field = PasswordField | ConfirmField
  datatype Issue = Issue(field: Field, message: string)

  /** `resetPasswordFormSchema`: both fields need eight characters, and the equality refinement
      reports on the confirmation field. */
  function Validate(v: ResetValues): (issues: seq<Issue>)
    ensures issues == [] <==> |v.password| >= MinLength && v.confirmPassword == v.password
    ensures Issue(PasswordField, TooShortMessage) in issues <==> |v.password| < MinLength
    ensures Issue(ConfirmField, ConfirmRequiredMessage) in issues <==> |v.confirmPassword| < MinLength
    ensures Issue(ConfirmField, MismatchMessage) in issues <==> v.confirmPassword != v.password
  {
    (if |v.password| < MinLength then [Issue(PasswordField, TooShortMessage)] else [])
    + (if |v.confirmPassword| < MinLength then [Issue(ConfirmField, ConfirmRequiredMessage)] else [])
    + (if v.password == v.confirmPassword then [] else [Issue(ConfirmField, MismatchMessage)])
  }

  /** Every password pair the sign-up form accepts is accepted here too; the converse fails,
      since this form does not ask for a letter and a digit. */
  lemma SignupPasswordsAccepted(s: SignupPage.SignupValues, isEmail: string -> bool)
    requires SignupPage.Validate(s, isEmail) == []
    ensures Validate(ResetValues(s.password, s.confirmPassword)) == []
  {
  }

  /** The converse fails: a letters-only password passes here but misses the sign-up rule. */
  lemma ResetAcceptsWhatSignupRejects()
    ensures Validate(ResetValues("password", "password")) == []
    ensures !SignupPage.HasLetterAndDigit("password")
  {
    var p := "password";
    Text.LineHasMeaning(p, Text.IsDigit);
    assert forall j :: 0 <= j < |p| ==> !Text.IsDigit(p[j]);
  }

  // ---------------------------------------------------------------- link parameters

  /** The banner text for the link's error parameters, `None` when there are none: an expired
      code first, then a denied access, then the provider's own description, then a generic
      text. */
  function LinkMessage(p: LoginPage.SearchParams): (msg: Option<string>)
    ensures msg.None? <==> !LoginPage.Truthy(p.error) && !LoginPage.Truthy(p.errorCode)
    ensures msg.Some? ==> msg.value != []
    ensures LoginPage.ExpiredCode(p.errorCode) ==> msg == Some(LoginPage.LinkExpiredMessage)
    ensures !LoginPage.ExpiredCode(p.errorCode) && p.error == Some("access_denied") ==>
      msg == Some(LoginPage.LinkInvalidMessage)
    ensures msg.Some? && !LoginPage.ExpiredCode(p.errorCode) && p.error != Some("access_denied") ==>
      msg == Some(if LoginPage.Truthy(p.errorDescription) then p.errorDescription.value else LoginPage.LinkProblemMessage)
  {
    if !LoginPage.Truthy(p.error) && !LoginPage.Truthy(p.errorCode) then None
    else if p.errorCode == Some("otp_expired") || p.errorCode == Some("token_expired") then
      Some(LoginPage.LinkExpiredMessage)
    else if p.error == Some("access_denied") then Some(LoginPage.LinkInvalidMessage)
    else if LoginPage.Truthy(p.errorDescription) then Some(p.errorDescription.value)
    else Some(LoginPage.LinkProblemMessage)
  }

  /** Both pages turn the same link parameters into the same text, except that this page
      prefers the provider's description to the generic text. */
  lemma LinkMessageAgreesWithLogin(p: LoginPage.SearchParams)
    requires LoginPage.Truthy(p.error) || LoginPage.Truthy(p.errorCode)
    ensures LoginPage.UrlNotice(p).Some?
    ensures LinkMessage(p) == LoginPage.UrlNotice(p).value.errorMessage
         || (LinkMessage(p) == Some(p.errorDescription.value)
             && LoginPage.UrlNotice(p).value.errorMessage == Some(LoginPage.LinkProblemMessage))
    ensures !LoginPage.Truthy(p.errorDescription) ==>
      LinkMessage(p) == LoginPage.UrlNotice(p).value.errorMessage
  {
  }

  // ---------------------------------------------------------------- submit

  /** What `updateUser` ended with: success, or a thrown value that is an `Error` (the provider's
      error is rethrown as one) or some other value. */
  datatype UpdateReply = Updated | ThrewError(message: string) | ThrewOther

  /** The page state the handler touches: the error banner and the success view. */
  datatype PageState = PageState(errorMessage: Option<string>, isSuccess: bool)

  /** `onSubmit`, once the schema accepted the values. Without a client only a toast appears;
      otherwise the banner is cleared first and then set from the failure, or the success view
      replaces the form. */
  function Submit(s: PageState, hasClient: bool, reply: UpdateReply): (t: PageState)
    ensures !hasClient ==> t == s
    ensures hasClient ==> (t.isSuccess <==> s.isSuccess || reply == Updated)
    ensures hasClient && reply == Updated ==> t.errorMessage.None?
    ensures hasClient && reply.ThrewError? ==> t.errorMessage == Some(reply.message)
    ensures hasClient && reply == ThrewOther ==> t.errorMessage == Some(FailureMessage)
  {
    if !hasClient then s
    else match reply
      case Updated => PageState(None, true)
      case ThrewError(m) => PageState(Some(m), s.isSuccess)
      case ThrewOther => PageState(Some(FailureMessage), s.isSuccess)
  }

  /** Typing in either field clears the banner. */
  function Typed(s: PageState): (t: PageState)
    ensures t.errorMessage.None? && t.isSuccess == s.isSuccess
  {
    s.(errorMessage := None)
  }

  /** The link check sets the banner when the parameters carry an error and leaves the page
      alone otherwise. */
  function LinkChecked(s: PageState, p: LoginPage.SearchParams): (t: PageState)
    ensures t.isSuccess == s.isSuccess
    ensures t.errorMessage == (if LinkMessage(p).Some? then LinkMessage(p) else s.errorMessage)
  {
    match LinkMessage(p)
    case Some(m) => s.(errorMessage := Some(m))
    case None => s
  }

  /** The destructive banner shows exactly when the message is present and not empty. */
  predicate BannerShown(s: PageState) {
    s.errorMessage.Some? && s.errorMessage.value != []
  }
}

=== FILE: sentiment_parse.dfy ===
/** Reading the language model's free-text answer in the sentiment route
    (analyze/app/api/sentiment/route.ts): the label, the three confidences and the reason, each
    with the regular expressions' leftmost-match and backtracking behaviour written out. */
module SentimentParse {
  import opened Base
  import opened Text

  datatype Sentiment = Positive | Neutral | Negative

  /** The Korean word the answer uses for a sentiment. */
  function Word(s: Sentiment): string {
    match s
    case Positive => "긍정"
    case Neutral => "중립"
    case Negative => "부정"
  }

  // ---------------------------------------------------------------- label

  const LabelKey: string := "감성:"

  /** `/감성:\s*W/` matches at `i`: the key, the longest run of white space, then the word. */
  predicate LabelAt(t: string, i: nat, w: string) {
    StartsAt(t, i, LabelKey) && StartsAt(t, SkipWhile(t, i + |LabelKey|, IsSpace), w)
  }

  /** `t.includes("감성: " + W) || t.match(/감성:\s*W/i)`. */
  predicate Marked(t: string, w: string) {
    Contains(t, LabelKey + " " + w) || exists i :: 0 <= i <= |t| && LabelAt(t, i, w)
  }

  /** The label: an explicit marker for positive, negative or neutral, in that order; otherwise
      the first of the words (Korean or English) the lowercased answer mentions, positive
      first; otherwise neutral. */
  function Label(t: string): (s: Sentiment)
    ensures Marked(t, Word(Positive)) ==> s == Positive
    ensures s == Positive ==> Contains(t, Word(Positive)) || Contains(Lower(t), "positive")
    ensures s == Negative ==> Contains(t, Word(Negative)) || Contains(Lower(t), "negative")
  {
    if Marked(t, Word(Positive)) then MarkedContains(t, Word(Positive)); Positive
    else if Marked(t, Word(Negative)) then MarkedContains(t, Word(Negative)); Negative
    else if Marked(t, Word(Neutral)) then Neutral
    else
      var l := Lower(t);
      if Contains(l, Word(Positive)) || Contains(l, "positive") then
        WordHasNoLetters(Positive);
        if Contains(l, Word(Positive)) then LowerKeepsHangul(t, Word(Positive)); Positive else Positive
      else if Contains(l, Word(Negative)) || Contains(l, "negative") then
        WordHasNoLetters(Negative);
        if Contains(l, Word(Negative)) then LowerKeepsHangul(t, Word(Negative)); Negative else Negative
      else Neutral
  }

  /** A marked word occurs in the text. */
  lemma MarkedContains(t: string, w: string)
    requires Marked(t, w)
    ensures Contains(t, w)
  {
    if Contains(t, LabelKey + " " + w) {
      ContainsSlice(t, LabelKey + " " + w, |LabelKey| + 1, |LabelKey| + 1 + |w|);
      assert (LabelKey + " " + w)[|LabelKey| + 1..|LabelKey| + 1 + |w|] == w;
    } else {
      var i :| 0 <= i <= |t| && LabelAt(t, i, w);
      var q := SkipWhile(t, i + |LabelKey|, IsSpace);
      assert 0 <= q <= |t| - |w| && StartsAt(t, q, w);
    }
  }

  lemma WordHasNoLetters(s: Sentiment)
    ensures forall k :: 0 <= k < |Word(s)| ==> !IsAsciiLetter(Word(s)[k])
  {
    var w := Word(s);
    assert !IsAsciiLetter(w[0]) && !IsAsciiLetter(w[1]);
  }

  /** Lowercasing touches only ASCII letters, so a word without any still occurs after it. */
  lemma LowerKeepsHangul(t: string, w: string)
    requires forall k :: 0 <= k < |w| ==> !IsAsciiLetter(w[k])
    requires Contains(Lower(t), w)
    ensures Contains(t, w)
  {
    var l := Lower(t);
    var i :| 0 <= i <= |l| - |w| && StartsAt(l, i, w);
    forall k | 0 <= k < |w|
      ensures t[i + k] == w[k]
    {
      assert l[i + k] == w[k] == LowerChar(t[i + k]);
    }
    assert StartsAt(t, i, w);
  }

  /** The `includes` alternative of the marker test is one of the expression's matches. */
  lemma IncludesIsMatch(t: string, w: string)
    requires w != [] && !IsSpace(w[0]) && Contains(t, LabelKey + " " + w)
    ensures exists j :: 0 <= j <= |t| && LabelAt(t, j, w)
  {
    var k := LabelKey + " " + w;
    var j :| 0 <= j <= |t| - |k| && StartsAt(t, j, k);
    var a := j + |LabelKey|;
    assert t[j..j + |k|] == k;
    assert StartsAt(t, j, LabelKey) by {
      assert t[j..a] == k[..|LabelKey|];
    }
    assert t[a] == k[|LabelKey|] == ' ';
    assert t[a + 1] == k[|LabelKey| + 1] == w[0];
    RunEndsAtSkip(t, a, a + 1, IsSpace);
    assert StartsAt(t, a + 1, w) by {
      assert t[a + 1..a + 1 + |w|] == k[|LabelKey| + 1..];
    }
    assert LabelAt(t, j, w);
  }

  /** The expression matches at `i` exactly when some run of white space after the key is
      followed by the word: the greedy run is the only candidate, since the word does not
      start with white space. */
  lemma LabelAtIsRegex(t: string, w: string, i: nat)
    requires w != [] && !IsSpace(w[0])
    ensures LabelAt(t, i, w) <==>
      StartsAt(t, i, LabelKey)
      && exists q :: i + |LabelKey| <= q <= |t| && Run(t, i + |LabelKey|, q, IsSpace) && StartsAt(t, q, w)
  {
    if StartsAt(t, i, LabelKey) {
      var a := i + |LabelKey|;
      if exists q :: a <= q <= |t| && Run(t, a, q, IsSpace) && StartsAt(t, q, w) {
        var q :| a <= q <= |t| && Run(t, a, q, IsSpace) && StartsAt(t, q, w);
        assert t[q] == w[0];
        RunEndsAtSkip(t, a, q, IsSpace);
      }
    }
  }

  /** An answer that starts with the label line the prompt asks for, and has no other "감"
      after it, is read as that label. */
  lemma LabelReadBack(s: Sentiment, rest: string)
    requires '감' !in rest
    ensures Label(LabelKey + " " + Word(s) + rest) == s
  {
    var t := LabelKey + " " + Word(s) + rest;
    forall o: Sentiment | o != s
      ensures !Marked(t, Word(o))
    {
      NotMarkedOther(s, o, rest);
    }
    if s == Neutral {
      assert LabelAt(t, 0, Word(s)) by {
        assert t[..3] == LabelKey;
        LabelLineSpaces(s, rest);
        assert t[4..6] == Word(s);
      }
    } else {
      assert Contains(t, LabelKey + " " + Word(s)) by {
        assert t[..|LabelKey + " " + Word(s)|] == LabelKey + " " + Word(s);
        assert StartsAt(t, 0, LabelKey + " " + Word(s));
      }
    }
  }

  /** After the key and its space the label line continues with the word. */
  lemma LabelLineSpaces(s: Sentiment, rest: string)
    ensures SkipWhile(LabelKey + " " + Word(s) + rest, 3, IsSpace) == 4
  {
    var t := LabelKey + " " + Word(s) + rest;
    assert t[3] == ' ' && t[4] == Word(s)[0];
    assert Run(t, 3, 4, IsSpace);
    RunEndsAtSkip(t, 3, 4, IsSpace);
  }

  /** The label line marks no other word: only its first character is "감", and after the key
      comes the line's own word, whose first character differs from every other word's. */
  lemma NotMarkedOther(s: Sentiment, o: Sentiment, rest: string)
    requires '감' !in rest && o != s
    ensures !Marked(LabelKey + " " + Word(s) + rest, Word(o))
  {
    var t := LabelKey + " " + Word(s) + rest;
    var w := Word(o);
    KeyCharOnlyFirst(s, rest);
    assert Word(s)[0] != w[0];
    LabelLineSpaces(s, rest);
    var k := LabelKey + " " + w;
    forall i | 0 < i <= |t|
      ensures !StartsAt(t, i, LabelKey)
    {
      if i + 3 <= |t| {
        assert t[i..i + 3][0] == t[i];
      }
    }
    forall j | 0 < j <= |t|
      ensures !StartsAt(t, j, k)
    {
      if j + |k| <= |t| {
        assert t[j..j + |k|][0] == t[j];
      }
    }
    assert !StartsAt(t, 4, w);
    assert !StartsAt(t, 0, k) by {
      assert t[4] != k[4];
    }
  }

  /** In the label line followed by text without "감", only the first character is "감". */
  lemma KeyCharOnlyFirst(s: Sentiment, rest: string)
    requires '감' !in rest
    ensures forall j :: 0 < j < |LabelKey + " " + Word(s) + rest| ==> (LabelKey + " " + Word(s) + rest)[j] != '감'
  {
    var t := LabelKey + " " + Word(s) + rest;
    forall j | 0 < j < |t|
      ensures t[j] != '감'
    {
      if j >= 6 {
        assert t[j] == rest[j - 6];
      }
    }
  }

  // ---------------------------------------------------------------- confidences

  /** The key of a sentiment's confidence line, such as "긍정 신뢰도:". */
  function Key(s: Sentiment): string {
    Word(s) + " 신뢰도:"
  }

  /** `/K:\s*(\d+)/` tried at `i`: after the key and the longest run of white space a digit has
      to follow, and the capture is the longest run of digits; giving back white space never
      helps, since a space is not a digit. */
  function NumberAt(t: string, i: nat, key: string): (r: Option<nat>)
  {
    if !StartsAt(t, i, key) then None
    else
      var q := SkipWhile(t, i + |key|, IsSpace);
      var d := SkipWhile(t, q, IsDigit);
      if d == q then None else Some(DecimalValue(t[q..d]))
  }

  predicate NoNumberIn(t: string, key: string, a: nat, b: nat) {
    forall j: nat :: a <= j < b ==> NumberAt(t, j, key).None?
  }

  /** The leftmost match at or after `from`. */
  function FirstNumber(t: string, key: string, from: nat): (r: Option<nat>)
    ensures r.None? <==> NoNumberIn(t, key, from, |t| + 1)
    ensures r.Some? ==> exists i: nat :: from <= i <= |t| && NumberAt(t, i, key) == r
    ensures forall i: nat :: from <= i <= |t| && NumberAt(t, i, key).Some? && NoNumberIn(t, key, from, i) ==>
      r == NumberAt(t, i, key)
    decreases |t| + 1 - from
  {
    if from > |t| then None
    else if NumberAt(t, from, key).Some? then NumberAt(t, from, key)
    else FirstNumber(t, key, from + 1)
  }

  /** The match is the regular expression's: a number is read at `i` exactly when the key is
      followed by white space and a digit. */
  lemma NumberAtIsRegex(t: string, i: nat, key: string)
    ensures NumberAt(t, i, key).Some? <==>
      StartsAt(t, i, key)
      && exists q :: i + |key| <= q < |t| && Run(t, i + |key|, q, IsSpace) && IsDigit(t[q])
  {
    if StartsAt(t, i, key) {
      var a := i + |key|;
      var q0 := SkipWhile(t, a, IsSpace);
      if NumberAt(t, i, key).Some? {
        assert SkipWhile(t, q0, IsDigit) > q0;
        assert a <= q0 < |t| && Run(t, a, q0, IsSpace) && IsDigit(t[q0]);
      }
      if exists q :: a <= q < |t| && Run(t, a, q, IsSpace) && IsDigit(t[q]) {
        var q :| a <= q < |t| && Run(t, a, q, IsSpace) && IsDigit(t[q]);
        RunEndsAtSkip(t, a, q, IsSpace);
        assert SkipWhile(t, q, IsDigit) > q;
      }
    }
  }

  /** A number written after the key is read back, when the key's first character does not
      occur before it and no digit follows the number. */
  lemma {:induction false} NumberReadBack(pre: string, key: string, n: nat, rest: string)
    requires key != [] && key[0] !in pre
    requires rest == [] || !IsDigit(rest[0])
    ensures FirstNumber(pre + key + " " + NatToString(n) + rest, key, 0) == Some(n)
  {
    var digits := NatToString(n);
    var t := pre + key + " " + digits + rest;
    var i := |pre|;
    forall j: nat | j < i
      ensures NumberAt(t, j, key).None?
    {
      assert t[j] == pre[j];
    }
    var a := i + |key|;
    assert t[i..a] == key;
    assert t[a + 1..a + 1 + |digits|] == digits;
    assert a + 1 + |digits| < |t| ==> t[a + 1 + |digits|] == rest[0];
    NumberAtWritten(t, i, key, n);
  }

  /** The key, one space and a numeral not followed by a digit are read as that number. */
  lemma NumberAtWritten(t: string, i: nat, key: string, n: nat)
    requires StartsAt(t, i, key) && i + |key| < |t| && t[i + |key|] == ' '
    requires StartsAt(t, i + |key| + 1, NatToString(n))
    requires i + |key| + 1 + |NatToString(n)| == |t| || !IsDigit(t[i + |key| + 1 + |NatToString(n)|])
    ensures NumberAt(t, i, key) == Some(n)
  {
    var digits := NatToString(n);
    var a := i + |key|;
    var d := a + 1 + |digits|;
    assert t[a + 1..d] == digits;
    assert t[a + 1] == digits[0];
    RunEndsAtSkip(t, a, a + 1, IsSpace);
    assert Run(t, a + 1, d, IsDigit) by {
      forall k | a + 1 <= k < d
        ensures IsDigit(t[k])
      {
        assert t[k] == digits[k - a - 1];
      }
    }
    RunEndsAtSkip(t, a + 1, d, IsDigit);
    DecimalOfNatToString(n);
  }

  /** `Math.min(100, Math.max(0, x))`. */
  function Clamp(x: int): (r: int)
    ensures 0 <= r <= 100
    ensures 0 <= x <= 100 ==> r == x
    ensures x > 100 ==> r == 100
    ensures x < 0 ==> r == 0
  {
    if x > 100 then 100 else if x < 0 then 0 else x
  }

  /** The confidence used for `field` when the answer has none, given the label. */
  function DefaultConfidence(verdict: Sentiment, field: Sentiment): (c: nat)
    ensures c == 70 <==> field == verdict
    ensures c <= 70
  {
    match field
    case Positive => if verdict == Positive then 70 else if verdict == Neutral then 10 else 10
    case Neutral => if verdict == Neutral then 70 else if verdict == Positive then 15 else 15
    case Negative => if verdict == Negative then 70 else if verdict == Neutral then 10 else 15
  }

  /** The nine defaults, as (positive, neutral, negative) per label: 70/15/15 for a positive
      label, 10/70/10 for a neutral one and 10/15/70 for a negative one. */
  lemma DefaultTable()
    ensures DefaultConfidence(Positive, Positive) == 70
         && DefaultConfidence(Positive, Neutral) == 15
         && DefaultConfidence(Positive, Negative) == 15
    ensures DefaultConfidence(Neutral, Positive) == 10
         && DefaultConfidence(Neutral, Neutral) == 70
         && DefaultConfidence(Neutral, Negative) == 10
    ensures DefaultConfidence(Negative, Positive) == 10
         && DefaultConfidence(Negative, Neutral) == 15
         && DefaultConfidence(Negative, Negative) == 70
  {
  }

  /** The three defaults for a label add up to 100 only for a positive label: 90 for a neutral
      one and 95 for a negative one. */
  lemma DefaultTotals(verdict: Sentiment)
    ensures DefaultConfidence(verdict, Positive) + DefaultConfidence(verdict, Neutral)
          + DefaultConfidence(verdict, Negative) == (match verdict case Positive => 100 case Neutral => 90 case Negative => 95)
  {
  }

  datatype Confidence = Confidence(positive: int, neutral: int, negative: int)

  /** The confidence for `field`: the number after its key, or the default, clamped. */
  function ConfidenceOf(t: string, verdict: Sentiment, field: Sentiment): (c: int)
    ensures 0 <= c <= 100
    ensures FirstNumber(t, Key(field), 0).None? ==> c == DefaultConfidence(verdict, field)
    ensures FirstNumber(t, Key(field), 0).Some? ==> c == Clamp(FirstNumber(t, Key(field), 0).value)
  {
    Clamp(FirstNumber(t, Key(field), 0).GetOr(DefaultConfidence(verdict, field)))
  }

  function Confidences(t: string, verdict: Sentiment): (c: Confidence)
    ensures 0 <= c.positive <= 100 && 0 <= c.neutral <= 100 && 0 <= c.negative <= 100
  {
    Confidence(ConfidenceOf(t, verdict, Positive), ConfidenceOf(t, verdict, Neutral), ConfidenceOf(t, verdict, Negative))
  }

  // ---------------------------------------------------------------- reason

  /** A reason expression `P S (.+?)(?:T|$)`: a literal prefix, a greedy run of separator
      characters (at least `minSep` of them), a lazy capture of one or more characters other
      than line terminators, then the terminator or the end of the text. */
  datatype ReasonPattern = ReasonPattern(prefix: string, sep: char -> bool, minSep: nat, terminator: string)

  /** `/이유:\s*(.+?)(?:\n|$)/i` */
  const Pattern1: ReasonPattern := ReasonPattern("이유:", IsSpace, 0, "\n")

  /** `/이유[:\s]+(.+?)(?:\n\n|$)/i` */
  const Pattern2: ReasonPattern := ReasonPattern("이유", c => c == ':' || IsSpace(c), 1, "\n\n")

  /** The terminator starts with a line terminator, which is what makes the capture's end
      unique. */
  predicate ValidPattern(p: ReasonPattern) {
    p.terminator != [] && IsLineTerminator(p.terminator[0])
  }

  predicate NotBreak(c: char) {
    !IsLineTerminator(c)
  }

  /** `(.+?)(?:T|$)` can take `t[q..e]`. */
  predicate EndsAt(t: string, q: nat, e: nat, term: string) {
    q < e <= |t| && Run(t, q, e, NotBreak) && (e == |t| || StartsAt(t, e, term))
  }

  /** The whole expression can match at `i` with the separators ending at `q` and the capture
      `t[q..e]`. */
  predicate CaptureAt(t: string, i: nat, q: nat, e: nat, p: ReasonPattern) {
    StartsAt(t, i, p.prefix) && i + |p.prefix| + p.minSep <= q <= |t|
    && Run(t, i + |p.prefix|, q, p.sep) && EndsAt(t, q, e, p.terminator)
  }

  /** For a given start of the capture there is at most one end, so the lazy quantifier has no
      choice to make. */
  lemma EndUnique(t: string, q: nat, e1: nat, e2: nat, term: string)
    requires term != [] && IsLineTerminator(term[0])
    requires EndsAt(t, q, e1, term) && EndsAt(t, q, e2, term)
    ensures e1 == e2
  {
  }

  /** The lazy capture from `q`. */
  function LazyEnd(t: string, q: nat, term: string): (r: Option<nat>)
    requires q <= |t| && term != [] && IsLineTerminator(term[0])
    ensures r.Some? ==> EndsAt(t, q, r.value, term)
    ensures r.None? ==> forall e: nat :: !EndsAt(t, q, e, term)
  {
    if q == |t| || IsLineTerminator(t[q]) then None
    else
      var e := SkipWhile(t, q + 1, NotBreak);
      if e == |t| || StartsAt(t, e, term) then Some(e)
      else
        NoEndBeyondBreak(t, q, e, term);
        None
  }

  /** When the first line terminator after `q` does not start the terminator, no end works. */
  lemma NoEndBeyondBreak(t: string, q: nat, e: nat, term: string)
    requires q < e < |t| && Run(t, q, e, NotBreak) && !NotBreak(t[e])
    requires term != [] && IsLineTerminator(term[0]) && !StartsAt(t, e, term)
    ensures forall e': nat :: !EndsAt(t, q, e', term)
  {
  }

  /** The greedy separator run given back one character at a time: tries `q`, `q - 1`, …,
      `lo`, and keeps the first that lets the capture end. */
  function Backtrack(t: string, lo: nat, q: nat, p: ReasonPattern): (r: Option<(nat, nat)>)
    requires lo <= q <= |t| && ValidPattern(p)
    ensures r.Some? ==> lo <= r.value.0 <= q && EndsAt(t, r.value.0, r.value.1, p.terminator)
    ensures r.Some? ==> forall q': nat, e: nat :: r.value.0 < q' <= q ==> !EndsAt(t, q', e, p.terminator)
    ensures r.None? ==> forall q': nat, e: nat :: lo <= q' <= q ==> !EndsAt(t, q', e, p.terminator)
    decreases q
  {
    match LazyEnd(t, q, p.terminator)
    case Some(e) => Some((q, e))
    case None => if q == lo then None else Backtrack(t, lo, q - 1, p)
  }

  /** The expression tried at `i`: the longest separator run, then backtracking. The result is
      the capture with the latest start, which is the one the regular-expression engine
      reports. */
  function CaptureFrom(t: string, i: nat, p: ReasonPattern): (r: Option<(nat, nat)>)
    requires i <= |t| && ValidPattern(p)
    ensures r.Some? ==> CaptureAt(t, i, r.value.0, r.value.1, p)
    ensures r.Some? ==> forall q: nat, e: nat :: CaptureAt(t, i, q, e, p) ==> q <= r.value.0
    ensures r.None? ==> forall q: nat, e: nat :: !CaptureAt(t, i, q, e, p)
  {
    if !StartsAt(t, i, p.prefix) then None
    else
      var a := i + |p.prefix|;
      var q0 := SkipWhile(t, a, p.sep);
      SeparatorsEndBy(t, a, q0, p);
      if q0 < a + p.minSep then None
      else
        var r := Backtrack(t, a + p.minSep, q0, p);
        if r.Some? then
          assert Run(t, a, r.value.0, p.sep);
          r
        else r
  }

  /** Every separator run from `a` ends by the greedy one. */
  lemma SeparatorsEndBy(t: string, a: nat, q0: nat, p: ReasonPattern)
    requires a <= |t| && q0 == SkipWhile(t, a, p.sep)
    ensures forall q: nat :: a <= q <= |t| && Run(t, a, q, p.sep) ==> q <= q0
  {
  }

  /** The leftmost index at or after `from` where the expression matches. */
  function FirstCapture(t: string, from: nat, p: ReasonPattern): (r: Option<(nat, nat)>)
    requires ValidPattern(p)
    ensures r.None? ==> forall j: nat :: from <= j <= |t| ==> CaptureFrom(t, j, p).None?
    ensures r.Some? ==> exists i: nat :: from <= i <= |t| && CaptureAt(t, i, r.value.0, r.value.1, p)
    ensures forall i: nat :: from <= i <= |t| && CaptureFrom(t, i, p).Some?
                             && (forall j: nat :: from <= j < i ==> CaptureFrom(t, j, p).None?) ==>
      r == CaptureFrom(t, i, p)
    decreases |t| + 1 - from
  {
    if from > |t| then None
    else
      var c := CaptureFrom(t, from, p);
      if c.Some? then c else FirstCapture(t, from + 1, p)
  }

  const DefaultReason: string := "텍스트의 감성을 분석했습니다."
  const MaxReasonLength: nat := 200

  /** The captured text: the first expression's, or the second's when the first finds none. */
  function RawReason(t: string): (r: Option<string>)
    ensures r.Some? ==> r.value != [] && forall k :: 0 <= k < |r.value| ==> NotBreak(r.value[k])
    ensures r.None? <==> FirstCapture(t, 0, Pattern1).None? && FirstCapture(t, 0, Pattern2).None?
    ensures FirstCapture(t, 0, Pattern1).Some? ==>
      var c := FirstCapture(t, 0, Pattern1).value; c.0 <= c.1 <= |t| && r == Some(t[c.0..c.1])
    ensures FirstCapture(t, 0, Pattern1).None? && FirstCapture(t, 0, Pattern2).Some? ==>
      var c := FirstCapture(t, 0, Pattern2).value; c.0 <= c.1 <= |t| && r == Some(t[c.0..c.1])
  {
    match FirstCapture(t, 0, Pattern1)
    case Some(c) => Some(t[c.0..c.1])
    case None =>
      match FirstCapture(t, 0, Pattern2)
      case Some(c) => Some(t[c.0..c.1])
      case None => None
  }

  /** A reason over 200 characters is cut to its first 197 and "..." is appended. */
  function Shorten(r: string): (s: string)
    ensures |s| <= MaxReasonLength
    ensures |r| <= MaxReasonLength ==> s == r
    ensures |r| > MaxReasonLength ==> |s| == MaxReasonLength && s[..197] == r[..197] && s[197..] == "..."
  {
    if |r| > MaxReasonLength then r[..197] + "..." else r
  }

  /** The reason reported: the trimmed capture or the default, shortened. */
  function Reason(t: string): (r: string)
    ensures |r| <= MaxReasonLength
    ensures RawReason(t).None? ==> r == DefaultReason
    ensures RawReason(t).Some? ==> r == Shorten(Trim(RawReason(t).value))
  {
    Shorten(match RawReason(t) case Some(c) => Trim(c) case None => DefaultReason)
  }

  /** A reason line written as the prompt asks is read back: after "이유: " a non-empty text
      without line breaks that does not start with white space, followed by a line break or
      the end, when no "이" occurs before it. */
  lemma {:induction false} ReasonReadBack(pre: string, r: string, tail: string)
    requires '이' !in pre
    requires r != [] && !IsSpace(r[0]) && forall k :: 0 <= k < |r| ==> NotBreak(r[k])
    requires tail == [] || tail[0] == '\n'
    ensures RawReason(pre + "이유: " + r + tail) == Some(r)
  {
    var t := pre + "이유: " + r + tail;
    var i := |pre|;
    forall j: nat | j < i
      ensures CaptureFrom(t, j, Pattern1).None?
    {
      assert t[j] == pre[j];
      assert Pattern1.prefix[0] == '이';
    }
    var a := i + 3;
    assert t[i..a] == "이유:";
    assert t[a] == ' ';
    var e := a + 1 + |r|;
    assert t[a + 1..e] == r;
    assert e < |t| ==> t[e] == '\n';
    CaptureWritten(t, i, e);
  }

  /** "이유:", one space and a text without line breaks that does not start with white space,
      followed by a line break or the end, is captured whole. */
  lemma CaptureWritten(t: string, i: nat, e: nat)
    requires StartsAt(t, i, "이유:") && i + 4 < e <= |t| && t[i + 3] == ' ' && !IsSpace(t[i + 4])
    requires Run(t, i + 4, e, NotBreak) && (e == |t| || t[e] == '\n')
    ensures CaptureFrom(t, i, Pattern1) == Some((i + 4, e))
  {
    var a := i + 3;
    assert Run(t, a, a + 1, IsSpace);
    RunEndsAtSkip(t, a, a + 1, IsSpace);
    RunEndsAtSkip(t, a + 2, e, NotBreak);
    assert e < |t| ==> StartsAt(t, e, "\n");
    assert LazyEnd(t, a + 1, "\n") == Some(e);
  }
}

=== FILE: sentiment_route.dfy ===
/** The sentiment route (analyze/app/api/sentiment/route.ts): the guards in front of the model
    call, the response built from the model's answer, and the classification of whatever was
    thrown. */
module SentimentRoute {
  import opened Base
  import opened Text
  import opened Keywords
  import opened SentimentParse

  const MaxTextLength: nat := 2000

  const EmptyTextMessage: string := "텍스트를 입력해주세요."
  const NoApiKeyMessage: string := "API 키가 설정되지 않았습니다. 환경 변수를 확인해주세요."
  const ApiKeyFailedMessage: string := "API 키 인증에 실패했습니다. API 키를 확인해주세요."
  const ModelMissingMessage: string := "모델을 찾을 수 없거나 지원되지 않습니다."
  const NetworkMessage: string := "네트워크 오류가 발생했습니다. 인터넷 연결을 확인해주세요."
  const AnalysisFailedMessage: string := "감성분석 중 오류가 발생했습니다."
  const UnknownError: string := "알 수 없는 오류"

  /** The rejection of an over-long text, naming the limit and the length. */
  function TooLongMessage(n: nat): string {
    "입력이 너무 깁니다. 최대 " + NatToString(MaxTextLength) + "자까지 입력 가능합니다. 현재: " + NatToString(n) + "자"
  }

  /** A thrown value: an `Error` with its message, or anything else. */
  datatype Thrown = ErrorValue(message: string) | OtherThrown

  /** The request body: reading or destructuring it threw (not JSON, or JSON `null`), or its
      `text` property. */
  datatype Body = BodyThrew(thrown: Thrown) | Parsed(text: JsonField)

  /** The model call: its answer, or what it threw. */
  datatype ModelReply = Answer(text: string) | ModelThrew(thrown: Thrown)

  datatype Analysis = Analysis(sentiment: Sentiment, confidence: Confidence, reason: string)

  /** A success carries the analysis; a failure its status, its `error`, the limit and length
      of an over-long text, and the `details` shown in development. */
  datatype Response =
    | Analysed(analysis: Analysis)
    | Rejected(status: nat, error: string, lengths: Option<(nat, nat)>, details: Option<string>)

  /** The text passes the route's input checks: a string that is neither blank nor longer than
      the limit. */
  predicate Admissible(text: JsonField) {
    text.Str? && !IsBlank(text.s) && |text.s| <= MaxTextLength
  }

  /** The message the catch block classifies. */
  function ThrownMessage(t: Thrown): string {
    match t
    case ErrorValue(m) => m
    case OtherThrown => UnknownError
  }

  /** The catch block's tests, in order: authentication, unknown model, network; otherwise a
      generic failure. */
  function Classify(message: string): (r: (nat, string))
    ensures r.0 in {400, 401, 500, 503}
    ensures r.0 == 401 <==> Contains(message, "API key") || Contains(message, "authentication")
  {
    if Contains(message, "API key") || Contains(message, "authentication") then (401, ApiKeyFailedMessage)
    else if Contains(message, "is not found") || Contains(message, "not supported") then (400, ModelMissingMessage)
    else if Contains(message, "fetch") || Contains(message, "network") || Contains(message, "ECONNREFUSED") then
      (503, NetworkMessage)
    else (500, AnalysisFailedMessage)
  }

  const ErrorRules: seq<Rule<(nat, string)>> := [
    Rule([["API key"], ["authentication"]], (401, ApiKeyFailedMessage)),
    Rule([["is not found"], ["not supported"]], (400, ModelMissingMessage)),
    Rule([["fetch"], ["network"], ["ECONNREFUSED"]], (503, NetworkMessage))
  ]

  /** The classification is the keyword table, with the generic failure when no rule fires. */
  lemma ClassifyFollowsTable(message: string)
    ensures Classify(message) == FirstFiring(ErrorRules, message).GetOr((500, AnalysisFailedMessage))
  {
    ErrorRulesFire(message);
  }

  lemma ErrorRulesFire(m: string)
    ensures Fires(ErrorRules[0], m) <==> Contains(m, "API key") || Contains(m, "authentication")
    ensures Fires(ErrorRules[1], m) <==> Contains(m, "is not found") || Contains(m, "not supported")
    ensures Fires(ErrorRules[2], m) <==> Contains(m, "fetch") || Contains(m, "network") || Contains(m, "ECONNREFUSED")
  {
    FiresEither("API key", "authentication", (401, ApiKeyFailedMessage), m);
    FiresEither("is not found", "not supported", (400, ModelMissingMessage), m);
    FiresAnyOfThree("fetch", "network", "ECONNREFUSED", (503, NetworkMessage), m);
  }

  /** The catch block: the classified response, with the message as `details` in development. */
  function Caught(t: Thrown, development: bool): (r: Response)
    ensures r.Rejected? && r.lengths.None?
    ensures r.status == Classify(ThrownMessage(t)).0 && r.error == Classify(ThrownMessage(t)).1
    ensures r.details.Some? <==> development
    ensures development ==> r.details == Some(ThrownMessage(t))
  {
    var c := Classify(ThrownMessage(t));
    Rejected(c.0, c.1, None, if development then Some(ThrownMessage(t)) else None)
  }

  /** The answer read after trimming: its label, the confidences given that label, and the
      reason. */
  function Analyse(answer: string): (a: Analysis)
    ensures 0 <= a.confidence.positive <= 100 && 0 <= a.confidence.neutral <= 100
    ensures 0 <= a.confidence.negative <= 100
    ensures |a.reason| <= MaxReasonLength
  {
    var t := Trim(answer);
    var s := Label(t);
    Analysis(s, Confidences(t, s), Reason(t))
  }

  /** Whether the route reaches the model: the body was read, the text is admissible and the
      key is configured. */
  predicate CallsModel(body: Body, hasApiKey: bool) {
    body.Parsed? && Admissible(body.text) && hasApiKey
  }

  /** `POST`. `hasApiKey` is whether the key is configured; `reply` is what the model call
      produced, used only when the call is made; `development` is whether details are shown. */
  function Post(body: Body, hasApiKey: bool, reply: ModelReply, development: bool): (r: Response)
    ensures r.Analysed? <==> CallsModel(body, hasApiKey) && reply.Answer?
    ensures r.Analysed? ==> reply.Answer? && r.analysis == Analyse(reply.text)
    ensures r.Rejected? ==> r.status in {400, 401, 500, 503}
    ensures r.Rejected? && r.lengths.Some? <==>
      body.Parsed? && body.text.Str? && !IsBlank(body.text.s) && |body.text.s| > MaxTextLength
    ensures body.Parsed? && body.text.Str? && !IsBlank(body.text.s) && |body.text.s| > MaxTextLength ==>
      r == Rejected(400, TooLongMessage(|body.text.s|), Some((MaxTextLength, |body.text.s|)), None)
    ensures body.Parsed? && !(body.text.Str? && !IsBlank(body.text.s)) ==> r == Rejected(400, EmptyTextMessage, None, None)
    ensures body.Parsed? && Admissible(body.text) && !hasApiKey ==> r == Rejected(500, NoApiKeyMessage, None, None)
    ensures r.Rejected? && r.details.Some? ==> development
  {
    match body
    case BodyThrew(e) => Caught(e, development)
    case Parsed(text) =>
      if !FieldTruthy(text) || !text.Str? || IsBlank(text.s) then Rejected(400, EmptyTextMessage, None, None)
      else if |text.s| > MaxTextLength then
        Rejected(400, TooLongMessage(|text.s|), Some((MaxTextLength, |text.s|)), None)
      else if !hasApiKey then Rejected(500, NoApiKeyMessage, None, None)
      else
        match reply
        case Answer(a) => Analysed(Analyse(a))
        case ModelThrew(e) => Caught(e, development)
  }

  /** An answer in the requested label format yields that label. */
  lemma AnswerLabelReadBack(s: Sentiment, rest: string)
    requires '감' !in rest && (rest == [] || !IsSpace(rest[|rest| - 1]))
    ensures Analyse(LabelKey + " " + Word(s) + rest).sentiment == s
  {
    var t := LabelKey + " " + Word(s) + rest;
    assert t[0] == '감';
    assert !IsSpace(t[|t| - 1]);
    TrimKeepsTrimmed(t);
    LabelReadBack(s, rest);
  }

  /** A text that neither starts nor ends with white space is its own trim. */
  lemma TrimKeepsTrimmed(t: string)
    requires t != [] && !IsSpace(t[0]) && !IsSpace(t[|t| - 1])
    ensures Trim(t) == t
  {
    assert TrimStart(t) == t;
  }
}

=== FILE: signup_page.dfy ===
/** The sign-up page (app/signup/page.tsx): its schema with the letter-and-digit password rule,
    the mapping of provider errors to messages, and what a finished sign-up leads to. */
module SignupPage {
  import opened Base
  import opened Text
  import opened Keywords

  const InvalidEmailMessage: string := "올바른 이메일 주소를 입력해주세요."
  const TooShortMessage: string := "비밀번호는 최소 8자 이상이어야 합니다."
  const LetterAndDigitMessage: string := "비밀번호는 영문과 숫자를 포함해야 합니다."
  const ConfirmRequiredMessage: string := "비밀번호 확인을 입력해주세요."
  const MismatchMessage: string := "비밀번호가 일치하지 않습니다."

  const DefaultFailure: string := "회원가입에 실패했습니다."
  const AlreadyRegisteredMessage: string := "이미 가입된 이메일입니다."
  const WeakPasswordMessage: string := "비밀번호가 너무 약합니다. 더 강한 비밀번호를 사용해주세요."
  const NetworkMessage: string := "네트워크 오류가 발생했습니다. 인터넷 연결을 확인해주세요."
  const RetryMessage: string := "회원가입에 실패했습니다. 다시 시도해주세요."

  /** The shortest password the schema accepts. */
  const MinPasswordLength: nat := 8

  // ---------------------------------------------------------------- schema

  datatype SignupValues = SignupValues(email: string, password: string, confirmPassword: string)
  datatype Field = EmailField | PasswordField | ConfirmField
  datatype Issue = Issue(field: Field, message: string)

  /** `/^(?=.*[a-zA-Z])(?=.*\d)/`: both lookaheads run at the start of the text, so a Latin
      letter and an ASCII digit must each occur before the first line break. */
  predicate HasLetterAndDigit(p: string) {
    LineHas(p, IsAsciiLetter) && LineHas(p, IsDigit)
  }

  /** `signupFormSchema`: every field check reports its own issue, and the equality refinement
      runs as well, reporting on the confirmation field. */
  function Validate(v: SignupValues, isEmail: string -> bool): (issues: seq<Issue>)
    ensures issues == [] <==>
      isEmail(v.email) && |v.password| >= MinPasswordLength && HasLetterAndDigit(v.password)
      && v.confirmPassword == v.password
    ensures Issue(EmailField, InvalidEmailMessage) in issues <==> !isEmail(v.email)
    ensures Issue(PasswordField, TooShortMessage) in issues <==> |v.password| < MinPasswordLength
    ensures Issue(PasswordField, LetterAndDigitMessage) in issues <==> !HasLetterAndDigit(v.password)
    ensures Issue(ConfirmField, ConfirmRequiredMessage) in issues <==> v.confirmPassword == []
    ensures Issue(ConfirmField, MismatchMessage) in issues <==> v.confirmPassword != v.password
  {
    (if isEmail(v.email) then [] else [Issue(EmailField, InvalidEmailMessage)])
    + (if |v.password| < MinPasswordLength then [Issue(PasswordField, TooShortMessage)] else [])
    + (if HasLetterAndDigit(v.password) then [] else [Issue(PasswordField, LetterAndDigitMessage)])
    + (if |v.confirmPassword| < 1 then [Issue(ConfirmField, ConfirmRequiredMessage)] else [])
    + (if v.password == v.confirmPassword then [] else [Issue(ConfirmField, MismatchMessage)])
  }

  /** What the pattern means character by character: a letter and a digit each appear with no
      line break before them. */
  lemma PasswordRuleMeaning(p: string)
    ensures HasLetterAndDigit(p) <==>
      (exists i :: 0 <= i < |p| && IsAsciiLetter(p[i]) && NoBreakBefore(p, i))
      && (exists j :: 0 <= j < |p| && IsDigit(p[j]) && NoBreakBefore(p, j))
  {
    LineHasMeaning(p, IsAsciiLetter);
    LineHasMeaning(p, IsDigit);
  }

  // ---------------------------------------------------------------- provider errors

  predicate AlreadyRegistered(m: string) {
    Contains(m, "already registered") || Contains(m, "user already registered") || Contains(m, "이미")
  }

  predicate WeakPassword(m: string) {
    Contains(m, "password") && Contains(m, "weak")
  }

  predicate EmailProblem(m: string) {
    Contains(m, "email") || Contains(m, "invalid")
  }

  predicate NetworkProblem(m: string) {
    Contains(m, "network") || Contains(m, "fetch")
  }

  /** `getErrorMessage`: already-registered, weak-password, e-mail and network keywords are
      matched on the lowercased message in that order; otherwise the message itself is shown, or
      a generic text when it is empty or missing. */
  function ErrorMessage(e: Option<AuthError>): (msg: string)
    ensures msg != []
    ensures e.None? ==> msg == DefaultFailure
    ensures e.Some? && AlreadyRegistered(Lower(e.value.message.GetOr([]))) ==> msg == AlreadyRegisteredMessage
  {
    if e.None? then DefaultFailure
    else
      var m := Lower(e.value.message.GetOr([]));
      if AlreadyRegistered(m) then AlreadyRegisteredMessage
      else if WeakPassword(m) then WeakPasswordMessage
      else if EmailProblem(m) then InvalidEmailMessage
      else if NetworkProblem(m) then NetworkMessage
      else NonEmpty(e.value.message).GetOr(RetryMessage)
  }

  /** The keyword table the mapper follows, first rule first. */
  const Rules: seq<Rule<string>> := [
    Rule([["already registered"], ["user already registered"], ["이미"]], AlreadyRegisteredMessage),
    Rule([["password", "weak"]], WeakPasswordMessage),
    Rule([["email"], ["invalid"]], InvalidEmailMessage),
    Rule([["network"], ["fetch"]], NetworkMessage)
  ]

  /** The mapper is the keyword table applied to the lowercased message, with the message itself
      (or the generic text) when no rule fires. */
  lemma ErrorMessageFollowsTable(e: AuthError)
    ensures ErrorMessage(Some(e)) ==
      FirstFiring(Rules, Lower(e.message.GetOr([]))).GetOr(NonEmpty(e.message).GetOr(RetryMessage))
  {
    var m := Lower(e.message.GetOr([]));
    RulesFire(m);
  }

  lemma RulesFire(m: string)
    ensures Fires(Rules[0], m) <==> AlreadyRegistered(m)
    ensures Fires(Rules[1], m) <==> WeakPassword(m)
    ensures Fires(Rules[2], m) <==> EmailProblem(m)
    ensures Fires(Rules[3], m) <==> NetworkProblem(m)
  {
    FiresAnyOfThree("already registered", "user already registered", "이미", AlreadyRegisteredMessage, m);
    FiresBoth("password", "weak", WeakPasswordMessage, m);
    FiresEither("email", "invalid", InvalidEmailMessage, m);
    FiresEither("network", "fetch", NetworkMessage, m);
  }

  /** The "user already registered" keyword is redundant: any message containing it also
      contains "already registered". */
  lemma UserKeywordRedundant(m: string)
    ensures AlreadyRegistered(m) <==> Contains(m, "already registered") || Contains(m, "이미")
  {
    if Contains(m, "user already registered") {
      ContainsSlice(m, "user already registered", 5, 23);
      assert "user already registered"[5..23] == "already registered";
    }
  }

  // ---------------------------------------------------------------- sign-up

  /** The account the provider created; `identities` is the length of its identity list, absent
      when the list is missing. */
  datatype NewUser = NewUser(identities: Option<nat>)

  /** What `signUp` did: returned an error, returned (with or without a user), or threw. */
  datatype SignUpReply = ReturnedError(error: AuthError) | Returned(user: Option<NewUser>) | Threw(thrown: Option<AuthError>)

  /** What the submit handler ends with: the confirmation notice naming the address, a move to
      the login page, an error shown both as a toast and as the form's root error, or nothing. */
  datatype SubmitOutcome = NoClient | ShowError(message: string) | AwaitConfirmation(email: string)
                         | GoToLogin(email: string) | StayPut

  /** `onSubmit`, once the schema accepted the values. An empty identity list means the address
      still has to be confirmed; any other account can log in at once. */
  function Submit(v: SignupValues, hasClient: bool, reply: SignUpReply): (o: SubmitOutcome)
    ensures !hasClient ==> o == NoClient
    ensures o.AwaitConfirmation? <==> hasClient && reply == Returned(Some(NewUser(Some(0))))
    ensures o.GoToLogin? <==>
      hasClient && reply.Returned? && reply.user.Some? && reply.user.value.identities != Some(0)
    ensures o.AwaitConfirmation? || o.GoToLogin? ==> o.email == v.email
    ensures hasClient && reply.ReturnedError? ==> o == ShowError(ErrorMessage(Some(reply.error)))
    ensures hasClient && reply.Threw? ==> o == ShowError(ErrorMessage(reply.thrown))
  {
    if !hasClient then NoClient
    else match reply
      case ReturnedError(e) => ShowError(ErrorMessage(Some(e)))
      case Returned(user) =>
        if user.None? then StayPut
        else if user.value.identities == Some(0) then AwaitConfirmation(v.email)
        else GoToLogin(v.email)
      case Threw(e) => ShowError(ErrorMessage(e))
  }
}

=== FILE: summary_route.dfy ===
/** `POST /api/ai/summary` (app/api/ai/summary/route.ts): the guards in front of `analyzeTodos`,
    the short answer for an empty period, and the mapping of a failed model call. The model's
    answer is an input of this model. */
module SummaryRoute {
  import opened Base
  import opened Text
  import opened Todos
  import Analytics
  import RateLimit
  import TodoView

  const AuthRequiredMessage: string := "인증이 필요합니다."
  const BadJsonMessage: string := "잘못된 요청 형식입니다."
  const BadPeriodMessage: string := "기간을 지정해주세요. (today 또는 week)"
  const NoApiKeyMessage: string := "GOOGLE_GENERATIVE_AI_API_KEY 환경변수가 설정되지 않았습니다."
  const FetchFailedMessage: string := "할 일 목록을 불러오는데 실패했습니다."
  const NoTodosToday: string := "오늘 예정된 할 일이 없습니다."
  const NoTodosThisWeek: string := "이번 주 예정된 할 일이 없습니다."
  const UnknownErrorMessage: string := "알 수 없는 오류가 발생했습니다."
  const SummaryFailedPrefix: string := "요약 생성에 실패했습니다: "

  /** The body as `request.json()` leaves it: not JSON, the JSON `null` (whose destructuring
      throws a `TypeError` with the engine's message `thrown`), or a value whose `period`
      property is read (`None` when it is missing or not a string). */
  datatype RequestBody = Malformed | NullBody(thrown: string) | Body(period: Option<string>)

  /** The to-dos table the select runs against, or the error the select reports. */
  datatype Query = QueryFailed | Table(todos: seq<Todo>)

  /** The model's structured answer, or the error it threw (`None` for a non-`Error` throw). */
  datatype ModelReply =
    | ModelThrew(message: Option<string>)
    | ModelSummary(summary: string, urgentTasks: seq<string>, insights: seq<string>,
                   recommendations: seq<string>)

  datatype Response =
    | Summary(summary: string, urgentTasks: seq<string>, insights: seq<string>,
              recommendations: seq<string>)
    | Failed(status: int, error: string)

  /** "today" and "week" are the only periods; anything else, or nothing, is refused. */
  function ParsePeriod(p: Option<string>): (r: Option<Analytics.Period>)
    ensures r == Some(Analytics.Today) <==> p == Some("today")
    ensures r == Some(Analytics.Week) <==> p == Some("week")
    ensures r.None? <==> p != Some("today") && p != Some("week")
  {
    if p == Some("today") then Some(Analytics.Today)
    else if p == Some("week") then Some(Analytics.Week)
    else None
  }

  /** The caller's rows of the table: the select keeps the rows whose `user_id` is the
      caller's and orders them by due date, earliest first and undated last. Rows with the same
      due date keep their table order. */
  function OwnRows(table: seq<Todo>, userId: string): (r: seq<Todo>)
    ensures forall t :: multiset(r)[t] == if t.userId == userId then multiset(table)[t] else 0
    ensures TodoView.Sorted(TodoView.ByDueDate, r)
  {
    TodoView.SortBy(TodoView.ByDueDate, Filter(table, (t: Todo) => t.userId == userId))
  }

  /** Every row read is the caller's, and every row of the caller's is read. */
  lemma OwnRowsExact(table: seq<Todo>, userId: string, t: Todo)
    ensures t in OwnRows(table, userId) <==> t in table && t.userId == userId
  {
    var r := OwnRows(table, userId);
    assert t in r <==> multiset(r)[t] > 0;
    assert t in table <==> multiset(table)[t] > 0;
  }

  /** Rows of other users change nothing the caller reads. */
  lemma OtherUsersIgnored(table: seq<Todo>, others: seq<Todo>, userId: string)
    requires forall i :: 0 <= i < |others| ==> others[i].userId != userId
    ensures OwnRows(table + others, userId) == OwnRows(table, userId)
  {
    var own := (t: Todo) => t.userId == userId;
    FilterAppend(table, others, own);
    assert Filter(others, own) == [];
    assert Filter(table, own) + [] == Filter(table, own);
  }

  /** The analysis the handler runs: the period's statistics with every row as the comparison
      base, at the fixed current date `now`. */
  function AnalysisOf(rows: seq<Todo>, period: Analytics.Period, now: int): Analytics.Analysis {
    Analytics.AnalyzeTodos(rows, period, now, Some(rows))
  }

  /** The request reaches the model: signed in, a valid body and period, a key, rows fetched,
      and a non-empty period. */
  predicate CallsModel(userId: Option<string>, body: RequestBody, apiKeySet: bool, query: Query, now: int) {
    && userId.Some?
    && body.Body?
    && ParsePeriod(body.period).Some?
    && apiKeySet
    && query.Table?
    && AnalysisOf(OwnRows(query.todos, userId.value), ParsePeriod(body.period).value, now).total > 0
  }

  /** The error text of a thrown value. */
  function ErrorText(message: Option<string>): string {
    message.GetOr(UnknownErrorMessage)
  }

  /** The outer `catch`: the quota answer when the text names a rate limit, otherwise a 500
      carrying the text. The unknown-error text of a thrown non-`Error` names no rate limit, so
      it is always a 500. */
  function Caught(text: string): (r: Response)
    ensures r.Failed? && r.status == RateLimit.FailureStatus(text, 500)
    ensures RateLimit.IsRateLimited(text) ==> r.error == RateLimit.RateLimitedMessage
    ensures !RateLimit.IsRateLimited(text) ==> r.error == SummaryFailedPrefix + text
    ensures text == UnknownErrorMessage ==> r == Failed(500, SummaryFailedPrefix + UnknownErrorMessage)
  {
    RateLimit.NoMarkerLetterNotRateLimited(UnknownErrorMessage);
    if RateLimit.IsRateLimited(text) then Failed(429, RateLimit.RateLimitedMessage)
    else Failed(500, SummaryFailedPrefix + text)
  }

  /** `POST /api/ai/summary`; `userId` is the signed-in user, if any. */
  function Post(userId: Option<string>, body: RequestBody, apiKeySet: bool, query: Query, now: int,
                reply: ModelReply): (r: Response)
    ensures userId.None? ==> r == Failed(401, AuthRequiredMessage)
    ensures userId.Some? && body.Malformed? ==> r == Failed(400, BadJsonMessage)
    ensures userId.Some? && body.NullBody? ==> r == Caught(body.thrown)
    ensures userId.Some? && body.Body? && ParsePeriod(body.period).None? ==> r == Failed(400, BadPeriodMessage)
    ensures userId.Some? && body.Body? && ParsePeriod(body.period).Some? && !apiKeySet
      ==> r == Failed(500, NoApiKeyMessage)
    ensures userId.Some? && body.Body? && ParsePeriod(body.period).Some? && apiKeySet && query.QueryFailed?
      ==> r == Failed(500, FetchFailedMessage)
    ensures userId.Some? && body.Body? && ParsePeriod(body.period).Some? && apiKeySet && query.Table?
      && AnalysisOf(OwnRows(query.todos, userId.value), ParsePeriod(body.period).value, now).total == 0
      ==> r == Summary(if body.period == Some("today") then NoTodosToday else NoTodosThisWeek, [], [], [])
    ensures CallsModel(userId, body, apiKeySet, query, now) && reply.ModelSummary? ==>
      r == Summary(reply.summary, reply.urgentTasks, reply.insights, reply.recommendations)
    ensures CallsModel(userId, body, apiKeySet, query, now) && reply.ModelThrew? ==>
      r == Caught(ErrorText(reply.message))
    ensures r.Summary? && r.insights != [] ==> CallsModel(userId, body, apiKeySet, query, now)
  {
    if userId.None? then Failed(401, AuthRequiredMessage)
    else match body
      case Malformed => Failed(400, BadJsonMessage)
      case NullBody(thrown) => Caught(thrown)
      case Body(p) =>
        match ParsePeriod(p)
        case None => Failed(400, BadPeriodMessage)
        case Some(period) =>
          if !apiKeySet then Failed(500, NoApiKeyMessage)
          else match query
            case QueryFailed => Failed(500, FetchFailedMessage)
            case Table(table) =>
              var rows := OwnRows(table, userId.value);
              if AnalysisOf(rows, period, now).total == 0 then
                Summary(if period == Analytics.Today then NoTodosToday else NoTodosThisWeek, [], [], [])
              else match reply
                case ModelSummary(summary, urgent, insights, recommendations) =>
                  Summary(summary, urgent, insights, recommendations)
                case ModelThrew(message) => Caught(ErrorText(message))
  }

  /** What the caller reads decides the answer: rows other users add to the table change
      nothing. */
  lemma PostIgnoresOtherUsers(userId: string, body: RequestBody, apiKeySet: bool, table: seq<Todo>,
                              others: seq<Todo>, now: int, reply: ModelReply)
    requires forall i :: 0 <= i < |others| ==> others[i].userId != userId
    ensures Post(Some(userId), body, apiKeySet, Table(table + others), now, reply)
         == Post(Some(userId), body, apiKeySet, Table(table), now, reply)
  {
    OtherUsersIgnored(table, others, userId);
  }

  /** A period with no to-dos never reaches the model: the answer is fixed and has three empty
      lists, whatever the model would have said. */
  lemma EmptyPeriodSkipsModel(userId: Option<string>, body: RequestBody, apiKeySet: bool, table: seq<Todo>,
                              now: int, reply1: ModelReply, reply2: ModelReply)
    requires userId.Some? && body.Body? && ParsePeriod(body.period).Some? && apiKeySet
    requires AnalysisOf(OwnRows(table, userId.value), ParsePeriod(body.period).value, now).total == 0
    ensures Post(userId, body, apiKeySet, Table(table), now, reply1)
         == Post(userId, body, apiKeySet, Table(table), now, reply2)
    ensures var r := Post(userId, body, apiKeySet, Table(table), now, reply1);
      r.Summary? && r.urgentTasks == [] && r.insights == [] && r.recommendations == []
  {
  }
}

=== FILE: text.dfy ===
/** String primitives with JavaScript semantics: `\s`/`trim` whitespace, ASCII lowercasing,
    `includes`, `split` and `join`. Strings are sequences of Unicode scalar values. */
module Text {

  /** The characters JavaScript's `\s` and `String.prototype.trim` treat as white space
      (WhiteSpace and LineTerminator of ECMA-262). */
  predicate IsSpace(c: char) {
    || c == ' ' || c == '\t' || c == '\n' || c == '\U{000B}' || c == '\U{000C}' || c == '\r'
    || c == '\U{00A0}' || c == '\U{1680}' || ('\U{2000}' <= c <= '\U{200A}')
    || c == '\U{2028}' || c == '\U{2029}' || c == '\U{202F}' || c == '\U{205F}'
    || c == '\U{3000}' || c == '\U{FEFF}'
  }

  /** The characters a regular-expression `.` does not match. */
  predicate IsLineTerminator(c: char) {
    c == '\n' || c == '\r' || c == '\U{2028}' || c == '\U{2029}'
  }

  /** `\d` without the `u` flag: an ASCII digit. */
  predicate IsDigit(c: char) {
    '0' <= c <= '9'
  }

  /** `[a-zA-Z]`. */
  predicate IsAsciiLetter(c: char) {
    ('a' <= c <= 'z') || ('A' <= c <= 'Z')
  }

  function LowerChar(c: char): char {
    if 'A' <= c <= 'Z' then (c as int + 32) as char else c
  }

  /** `toLowerCase`, for the ASCII letters the classifiers look for. */
  function Lower(s: string): (r: string)
    ensures |r| == |s|
    ensures forall i :: 0 <= i < |s| ==> r[i] == LowerChar(s[i])
  {
    if s == [] then [] else [LowerChar(s[0])] + Lower(s[1..])
  }

  /** `s` has `sub` at position `i`. */
  predicate StartsAt(s: string, i: int, sub: string) {
    0 <= i && i + |sub| <= |s| && s[i..i + |sub|] == sub
  }

  /** `s.includes(sub)`. */
  predicate Contains(s: string, sub: string) {
    exists i :: 0 <= i <= |s| - |sub| && StartsAt(s, i, sub)
  }

  /** A text that contains `sub` contains every slice of `sub`. */
  lemma ContainsSlice(s: string, sub: string, lo: nat, hi: nat)
    requires Contains(s, sub) && lo <= hi <= |sub|
    ensures Contains(s, sub[lo..hi])
  {
    var i :| 0 <= i <= |s| - |sub| && StartsAt(s, i, sub);
    assert s[i..i + |sub|] == sub;
    forall k | 0 <= k < hi - lo
      ensures s[i + lo..i + hi][k] == sub[lo..hi][k]
    {
      assert s[i + lo + k] == s[i..i + |sub|][lo + k];
    }
    assert StartsAt(s, i + lo, sub[lo..hi]);
  }

  /** No line terminator occurs in `s` before index `i`. */
  predicate NoBreakBefore(s: string, i: int)
    requires 0 <= i <= |s|
  {
    forall j :: 0 <= j < i ==> !IsLineTerminator(s[j])
  }

  /** Whether the lookahead `(?=.*X)` succeeds at the start of `s`, `X` being the character
      class `want`: `.` does not cross a line terminator, so only the first line is searched. */
  function LineHas(s: string, want: char -> bool): bool {
    if s == [] then false else want(s[0]) || (!IsLineTerminator(s[0]) && LineHas(s[1..], want))
  }

  lemma {:induction false} LineHasMeaning(s: string, want: char -> bool)
    ensures LineHas(s, want) <==> exists i :: 0 <= i < |s| && want(s[i]) && NoBreakBefore(s, i)
  {
    if s != [] {
      LineHasMeaning(s[1..], want);
      if LineHas(s[1..], want) && !IsLineTerminator(s[0]) {
        var i :| 0 <= i < |s| - 1 && want(s[1..][i]) && NoBreakBefore(s[1..], i);
        assert NoBreakBefore(s, i + 1);
      }
      if exists i :: 0 <= i < |s| && want(s[i]) && NoBreakBefore(s, i) {
        var i :| 0 <= i < |s| && want(s[i]) && NoBreakBefore(s, i);
        if i > 0 {
          assert want(s[1..][i - 1]) && NoBreakBefore(s[1..], i - 1);
        }
      }
    }
  }

  /** Drops the leading white space (`trimStart`). */
  function TrimStart(s: string): (r: string)
    ensures |r| <= |s|
    ensures r == s[|s| - |r|..]
    ensures forall k :: 0 <= k < |s| - |r| ==> IsSpace(s[k])
    ensures r == [] || !IsSpace(r[0])
  {
    if s == [] || !IsSpace(s[0]) then s else TrimStart(s[1..])
  }

  /** Drops the trailing white space (`trimEnd`). */
  function TrimEnd(s: string): (r: string)
    ensures |r| <= |s|
    ensures r == s[..|r|]
    ensures forall k :: |r| <= k < |s| ==> IsSpace(s[k])
    ensures r == [] || !IsSpace(r[|r| - 1])
  {
    if s == [] || !IsSpace(s[|s| - 1]) then s else TrimEnd(s[..|s| - 1])
  }

  /** `s.trim()`: the longest slice of `s` that neither starts nor ends with white space. */
  function Trim(s: string): (r: string)
    ensures |r| <= |s|
    ensures r == [] || (!IsSpace(r[0]) && !IsSpace(r[|r| - 1]))
  {
    TrimEnd(TrimStart(s))
  }

  /** The trim is a slice of `s` with nothing but white space cut from either end; with the
      ends of the trim not being white space, that makes it the longest such slice. */
  lemma TrimIsSlice(s: string)
    ensures exists i :: TrimmedAt(s, i, Trim(s))
  {
    var t := TrimStart(s);
    var r := TrimEnd(t);
    assert r == Trim(s);
    PrefixOfSuffix(s, t, r, |s| - |t|);
    assert TrimmedAt(s, |s| - |t|, r);
  }

  /** A prefix `r` of the suffix `t` of `s` starting at `i`, with white space only before `t`
      and after `r`, is `s` trimmed at `i`. */
  lemma PrefixOfSuffix(s: string, t: string, r: string, i: int)
    requires 0 <= i <= |s| && t == s[i..] && |r| <= |t| && r == t[..|r|]
    requires forall k :: 0 <= k < i ==> IsSpace(s[k])
    requires forall k :: |r| <= k < |t| ==> IsSpace(t[k])
    ensures TrimmedAt(s, i, r)
  {
    forall k | i + |r| <= k < |s|
      ensures IsSpace(s[k])
    {
      assert s[k] == t[k - i];
    }
  }

  /** `r` is the slice of `s` starting at `i` with nothing but white space on either side of it. */
  predicate TrimmedAt(s: string, i: int, r: string) {
    0 <= i <= i + |r| <= |s| && r == s[i..i + |r|]
    && (forall k :: 0 <= k < i ==> IsSpace(s[k]))
    && (forall k :: i + |r| <= k < |s| ==> IsSpace(s[k]))
  }

  /** `!s.trim()`: the string is empty or all white space. */
  predicate IsBlank(s: string) {
    Trim(s) == []
  }

  /** A string is blank exactly when every character of it is white space. */
  lemma BlankIffAllSpace(s: string)
    ensures IsBlank(s) <==> forall k :: 0 <= k < |s| ==> IsSpace(s[k])
  {
    var t := TrimStart(s);
    if IsBlank(s) {
      assert TrimEnd(t) == [];
    }
  }

  /** Index of the first occurrence of `c` in `s`, or `|s|` when there is none. */
  function IndexOf(s: string, c: char): (k: nat)
    ensures k <= |s|
    ensures k < |s| ==> s[k] == c
    ensures forall j :: 0 <= j < k ==> s[j] != c
  {
    if s == [] then 0 else if s[0] == c then 0 else 1 + IndexOf(s[1..], c)
  }

  /** `s.split(c)` for a one-character separator: never empty, and no piece contains `c`. */
  function Split(s: string, c: char): (parts: seq<string>)
    ensures |parts| >= 1
    ensures forall i :: 0 <= i < |parts| ==> c !in parts[i]
    decreases |s|
  {
    var k := IndexOf(s, c);
    if k == |s| then [s] else [s[..k]] + Split(s[k + 1..], c)
  }

  /** `parts.join(sep)`. */
  function Join(parts: seq<string>, sep: string): string {
    if parts == [] then []
    else if |parts| == 1 then parts[0]
    else parts[0] + sep + Join(parts[1..], sep)
  }

  /** Joining with `c` and splitting on `c` gives back the pieces, provided none contains `c`. */
  lemma {:induction false} SplitJoin(parts: seq<string>, c: char)
    requires |parts| >= 1
    requires forall i :: 0 <= i < |parts| ==> c !in parts[i]
    ensures Split(Join(parts, [c]), c) == parts
  {
    if |parts| > 1 {
      var s := Join(parts, [c]);
      var tail := Join(parts[1..], [c]);
      assert s == parts[0] + [c] + tail;
      assert IndexOf(s, c) == |parts[0]| by {
        assert s == parts[0] + ([c] + tail);
        IndexOfPrefix(parts[0], c, [c] + tail);
        assert IndexOf([c] + tail, c) == 0;
      }
      assert s[..|parts[0]|] == parts[0];
      assert s[|parts[0]| + 1..] == tail;
      SplitJoin(parts[1..], c);
    } else {
      IndexOfPrefix(parts[0], c, []);
      assert parts[0] + [] == parts[0];
    }
  }

  /** The first `c` of `a + b` is the first `c` of `b`, shifted, when `a` has none. */
  lemma {:induction false} IndexOfPrefix(a: string, c: char, b: string)
    requires c !in a
    ensures IndexOf(a + b, c) == |a| + IndexOf(b, c)
  {
    if a != [] {
      assert (a + b)[1..] == a[1..] + b;
      IndexOfPrefix(a[1..], c, b);
    } else {
      assert a + b == b;
    }
  }

  // ---------------------------------------------------------------- scanning

  /** Every character of `s[a..b]` satisfies `p`. */
  predicate Run(s: string, a: int, b: int, p: char -> bool)
    requires 0 <= a <= b <= |s|
  {
    forall k :: a <= k < b ==> p(s[k])
  }

  /** The end of the longest run of `p`-characters starting at `j`: what a greedy `X*` consumes. */
  function SkipWhile(s: string, j: nat, p: char -> bool): (r: nat)
    requires j <= |s|
    ensures j <= r <= |s|
    ensures Run(s, j, r, p)
    ensures r < |s| ==> !p(s[r])
    decreases |s| - j
  {
    if j == |s| || !p(s[j]) then j else SkipWhile(s, j + 1, p)
  }

  /** A run that stops at a character outside the class ends where the greedy scan ends. */
  lemma RunEndsAtSkip(s: string, j: nat, q: nat, p: char -> bool)
    requires j <= q <= |s| && Run(s, j, q, p) && (q == |s| || !p(s[q]))
    ensures q == SkipWhile(s, j, p)
  {
  }

  // ---------------------------------------------------------------- decimal numbers

  /** The digit for `0 <= d < 10`. */
  function DigitChar(d: nat): (c: char)
    requires d < 10
    ensures IsDigit(c) && c as int - '0' as int == d
  {
    (d + '0' as int) as char
  }

  /** `String(n)`: the decimal numeral of `n`, without leading zeros. */
  function NatToString(n: nat): (s: string)
    ensures s != []
    ensures forall k :: 0 <= k < |s| ==> IsDigit(s[k])
    ensures n > 0 ==> s[0] != '0'
  {
    if n < 10 then [DigitChar(n)] else NatToString(n / 10) + [DigitChar(n % 10)]
  }

  /** `parseInt` of a string of digits. */
  function DecimalValue(s: string): (v: nat)
    requires forall k :: 0 <= k < |s| ==> IsDigit(s[k])
  {
    if s == [] then 0
    else
      assert IsDigit(s[|s| - 1]);
      DecimalValue(s[..|s| - 1]) * 10 + (s[|s| - 1] as int - '0' as int)
  }

  /** Reading a written number back gives the number. */
  lemma {:induction false} DecimalOfNatToString(n: nat)
    ensures DecimalValue(NatToString(n)) == n
  {
    var s := NatToString(n);
    if n >= 10 {
      assert s[..|s| - 1] == NatToString(n / 10);
      DecimalOfNatToString(n / 10);
    }
  }
}

=== FILE: todo_form.dfy ===
/** The to-do form (components/todo/todo-form.tsx): its schema, its default values, the mapping
    of a submitted form to the stored fields, and the natural-language fill. */
module TodoForm {
  import opened Base
  import opened Text
  import opened Todos
  import ParseTodo

  const MaxTitle: int := 80
  const MaxDescription: int := 500
  const MaxCategory: int := 30

  const TitleRequiredMessage: string := "제목을 입력해주세요."
  const TitleTooLongMessage: string := "제목은 80자 이하여야 합니다."
  const DescriptionTooLongMessage: string := "설명은 500자 이하여야 합니다."
  const CategoryTooLongMessage: string := "카테고리는 30자 이하여야 합니다."
  const BlankAiInputMessage: string := "자연어를 입력해주세요."
  const ParseFailedMessage: string := "파싱에 실패했습니다."

  /** The values the form holds. The text inputs always hold strings; the date may be unset. */
  datatype FormValues = FormValues(
    title: string, description: string, dueDate: Option<int>, priority: Priority, category: string)

  /** What `onSubmit` receives: an empty description is left out, an empty category is null. */
  datatype FormData = FormData(
    title: string, description: Option<string>, dueDate: Option<int>, priority: Priority,
    category: Option<string>)

  datatype Field = TitleField | DescriptionField | CategoryField
  datatype Issue = Issue(field: Field, message: string)

  /** The schema accepts these values. */
  predicate Accepts(v: FormValues) {
    1 <= |v.title| <= MaxTitle && |v.description| <= MaxDescription && |v.category| <= MaxCategory
  }

  /** `todoFormSchema`: every field is checked and all issues are reported, in field order. */
  function Validate(v: FormValues): (issues: seq<Issue>)
    ensures issues == [] <==> Accepts(v)
    ensures Issue(TitleField, TitleRequiredMessage) in issues <==> v.title == []
    ensures Issue(TitleField, TitleTooLongMessage) in issues <==> |v.title| > MaxTitle
    ensures Issue(DescriptionField, DescriptionTooLongMessage) in issues
      <==> |v.description| > MaxDescription
    ensures Issue(CategoryField, CategoryTooLongMessage) in issues <==> |v.category| > MaxCategory
    ensures |issues| <= 3
  {
    (if |v.title| < 1 then [Issue(TitleField, TitleRequiredMessage)] else [])
    + (if |v.title| > MaxTitle then [Issue(TitleField, TitleTooLongMessage)] else [])
    + (if |v.description| > MaxDescription then [Issue(DescriptionField, DescriptionTooLongMessage)] else [])
    + (if |v.category| > MaxCategory then [Issue(CategoryField, CategoryTooLongMessage)] else [])
  }

  /** The form's `defaultValues`: the edited to-do's fields, or empty values and "medium". */
  function Defaults(todo: Option<Todo>): (v: FormValues)
    ensures todo.None? ==> v == FormValues([], [], None, Medium, [])
    ensures todo.Some? ==>
      && v.title == todo.value.title
      && v.description == todo.value.description.GetOr([])
      && v.dueDate == todo.value.dueDate
      && v.priority == todo.value.priority
      && v.category == todo.value.category.GetOr([])
  {
    match todo
    case None => FormValues([], [], None, Medium, [])
    case Some(t) =>
      FormValues(t.title, t.description.GetOr([]), t.dueDate, t.priority, t.category.GetOr([]))
  }

  /** `handleSubmit`, applied once the schema accepted the values. */
  function Submit(v: FormValues): (d: FormData)
    requires Accepts(v)
    ensures d.title == v.title && d.priority == v.priority && d.dueDate == v.dueDate
    ensures d.description.None? <==> v.description == []
    ensures d.category.None? <==> v.category == []
    ensures d.description.Some? ==> d.description.value == v.description
    ensures d.category.Some? ==> d.category.value == v.category
    ensures 1 <= |d.title| <= MaxTitle
  {
    FormData(v.title, NonEmpty(Some(v.description)), v.dueDate, v.priority,
             NonEmpty(Some(v.category)))
  }

  /** Opening a stored to-do and submitting it unchanged gives back its fields, except that an
      empty description or category is stored as absent. */
  lemma EditUnchangedRoundTrip(t: Todo)
    requires Accepts(Defaults(Some(t)))
    ensures var d := Submit(Defaults(Some(t)));
      && d.title == t.title && d.dueDate == t.dueDate && d.priority == t.priority
      && d.description == NonEmpty(t.description)
      && d.category == NonEmpty(t.category)
  {
  }

  /** The form's state around the natural-language box. */
  datatype FormState = FormState(values: FormValues, aiInput: string, parseError: Option<string>)

  /** The answer of `POST /api/ai/parse-todo` as the form sees it: a parsed to-do, an error
      response with its `error` field (possibly empty or missing), or a failed fetch. */
  datatype ParseReply =
    | Parsed(todo: ParseTodo.ParsedTodo)
    | ErrorResponse(error: Option<string>)
    | FetchFailed(message: string)

  /** The form sends a request only for an input that is not blank. */
  predicate SendsParseRequest(aiInput: string) {
    !IsBlank(aiInput)
  }

  /** The fields a successful parse writes: the title, the description only when non-empty, the
      due date (cleared when absent), the priority, and the category or "". */
  function Fill(v: FormValues, p: ParseTodo.ParsedTodo): (w: FormValues)
    ensures w.title == p.title && w.priority == p.priority && w.dueDate == p.dueDate
    ensures p.description.Some? && p.description.value != [] ==> w.description == p.description.value
    ensures !(p.description.Some? && p.description.value != []) ==> w.description == v.description
    ensures w.category == p.category.GetOr([])
  {
    var description := if p.description.Some? && p.description.value != [] then p.description.value
                       else v.description;
    FormValues(p.title, description, p.dueDate, p.priority, p.category.GetOr([]))
  }

  /** `handleParseNaturalLanguage`: a blank input only sets the error; otherwise the reply either
      fills the form and clears the box, or sets the error message. */
  function ParseNaturalLanguage(s: FormState, reply: ParseReply): (s': FormState)
    ensures !SendsParseRequest(s.aiInput) ==> s' == s.(parseError := Some(BlankAiInputMessage))
    ensures SendsParseRequest(s.aiInput) && reply.Parsed? ==>
      s' == FormState(Fill(s.values, reply.todo), [], None)
    ensures SendsParseRequest(s.aiInput) && !reply.Parsed? ==>
      s'.values == s.values && s'.aiInput == s.aiInput && s'.parseError.Some?
    ensures SendsParseRequest(s.aiInput) && reply.ErrorResponse? ==>
      s'.parseError == Some(NonEmpty(reply.error).GetOr(ParseFailedMessage))
  {
    if !SendsParseRequest(s.aiInput) then s.(parseError := Some(BlankAiInputMessage))
    else match reply
      case Parsed(p) => FormState(Fill(s.values, p), [], None)
      case ErrorResponse(e) =>
        s.(parseError := Some(if e.Some? && e.value != [] then e.value else ParseFailedMessage))
      case FetchFailed(m) => s.(parseError := Some(m))
  }

  /** A title produced by the parse endpoint always passes the form's title rule, so a filled
      form is accepted whenever its description and category fit. */
  lemma FilledTitleAccepted(v: FormValues, p: ParseTodo.ParsedTodo, raw: ParseTodo.RawTodo,
                            today: int, clock: int, parseDay: string -> Option<int>)
    requires p == ParseTodo.Clean(raw, today, clock, parseDay)
    ensures Validate(Fill(v, p)) == [] <==>
      var w := Fill(v, p);
      |w.description| <= MaxDescription && |w.category| <= MaxCategory
  {
  }
}

=== FILE: todo_guards.dfy ===
/** The home page's write handlers (app/page.tsx): the guards that run before each database
    call and the user-scoped call each one issues. The `todos` table is modelled as a sequence
    of rows so that the effect of a call can be stated. */
module TodoGuards {
  import opened Base
  import opened Todos
  import TodoForm

  const AuthRequiredMessage: string := "인증이 필요합니다."
  const NothingToUpdateMessage: string := "수정할 할 일이 없습니다."
  const NotOwnerUpdateMessage: string := "본인의 할 일만 수정할 수 있습니다."
  const DeleteNotFoundMessage: string := "삭제할 할 일을 찾을 수 없습니다."
  const NotOwnerDeleteMessage: string := "본인의 할 일만 삭제할 수 있습니다."
  const ToggleNotFoundMessage: string := "할 일을 찾을 수 없습니다."

  /** What the page knows about the session: whether the client exists and who is signed in. */
  datatype Session = Session(hasClient: bool, userId: Option<string>)

  predicate SignedIn(s: Session) {
    s.hasClient && s.userId.Some?
  }

  /** The editable columns an update writes. */
  datatype Fields = Fields(
    title: string, description: Option<string>, dueDate: Option<int>, priority: Priority,
    category: Option<string>)

  /** A database call, each filtered by `id` and by `user_id`. */
  datatype Command =
    | UpdateFields(id: string, userId: string, fields: Fields)
    | Remove(id: string, userId: string)
    | SetCompleted(id: string, userId: string, completed: bool)

  /** A handler either stops with a toast, stops because the user cancelled, or calls the
      database. */
  datatype Outcome = Rejected(message: string) | Cancelled | Issued(command: Command)

  /** `todos.find(t => t.id === id)`: the first to-do with that id. */
  function FindById(todos: seq<Todo>, id: string): (r: Option<Todo>)
    ensures r.None? <==> forall i :: 0 <= i < |todos| ==> todos[i].id != id
    ensures r.Some? ==> r.value in todos && r.value.id == id
    ensures r.Some? ==>
      exists i :: 0 <= i < |todos| && todos[i] == r.value && (forall j :: 0 <= j < i ==> todos[j].id != id)
  {
    if todos == [] then None
    else if todos[0].id == id then Some(todos[0])
    else
      var r := FindById(todos[1..], id);
      FirstShift(todos, id, r);
      r
  }

  lemma FirstShift(todos: seq<Todo>, id: string, r: Option<Todo>)
    requires todos != [] && todos[0].id != id
    requires r.Some? ==>
      exists i :: 0 <= i < |todos[1..]| && todos[1..][i] == r.value
        && (forall j :: 0 <= j < i ==> todos[1..][j].id != id)
    ensures r.Some? ==>
      exists i :: 0 <= i < |todos| && todos[i] == r.value && (forall j :: 0 <= j < i ==> todos[j].id != id)
  {
    if r.Some? {
      var i :| 0 <= i < |todos[1..]| && todos[1..][i] == r.value
        && forall j :: 0 <= j < i ==> todos[1..][j].id != id;
      assert todos[i + 1] == r.value;
      assert forall j :: 0 <= j < i + 1 ==> todos[j].id != id by {
        forall j | 0 <= j < i + 1 ensures todos[j].id != id {
          if j > 0 {
            assert todos[j] == todos[1..][j - 1];
          }
        }
      }
    }
  }

  /** The editable columns of a row. */
  function RowFields(row: Todo): Fields {
    Fields(row.title, row.description, row.dueDate, row.priority, row.category)
  }

  /** The update columns built from a submitted form: empty text becomes null. */
  function FieldsOf(d: TodoForm.FormData): Fields {
    Fields(d.title, NonEmpty(d.description), d.dueDate, d.priority, NonEmpty(d.category))
  }

  /** `handleUpdateTodo`. */
  function Update(s: Session, editing: Option<Todo>, d: TodoForm.FormData): (o: Outcome)
    ensures editing.None? || !SignedIn(s) ==> o == Rejected(NothingToUpdateMessage)
    ensures editing.Some? && SignedIn(s) && editing.value.userId != s.userId.value
      ==> o == Rejected(NotOwnerUpdateMessage)
    ensures o.Issued? <==> editing.Some? && SignedIn(s) && editing.value.userId == s.userId.value
    ensures o.Issued? ==> o.command == UpdateFields(editing.value.id, s.userId.value, FieldsOf(d))
  {
    if editing.None? || !s.hasClient || s.userId.None? then Rejected(NothingToUpdateMessage)
    else if editing.value.userId != s.userId.value then Rejected(NotOwnerUpdateMessage)
    else Issued(UpdateFields(editing.value.id, s.userId.value, FieldsOf(d)))
  }

  /** `handleDeleteTodo`; `confirmed` is the answer to the browser's confirmation dialog. */
  function Delete(s: Session, todos: seq<Todo>, id: string, confirmed: bool): (o: Outcome)
    ensures !SignedIn(s) ==> o == Rejected(AuthRequiredMessage)
    ensures SignedIn(s) && FindById(todos, id).None? ==> o == Rejected(DeleteNotFoundMessage)
    ensures SignedIn(s) && FindById(todos, id).Some? && FindById(todos, id).value.userId != s.userId.value
      ==> o == Rejected(NotOwnerDeleteMessage)
    ensures o.Issued? <==>
      SignedIn(s) && FindById(todos, id).Some? && FindById(todos, id).value.userId == s.userId.value
      && confirmed
    ensures o.Issued? ==> o.command == Remove(id, s.userId.value)
  {
    if !s.hasClient || s.userId.None? then Rejected(AuthRequiredMessage)
    else match FindById(todos, id)
      case None => Rejected(DeleteNotFoundMessage)
      case Some(t) =>
        if t.userId != s.userId.value then Rejected(NotOwnerDeleteMessage)
        else if !confirmed then Cancelled
        else Issued(Remove(id, s.userId.value))
  }

  /** `handleToggleComplete`. */
  function Toggle(s: Session, todos: seq<Todo>, id: string, completed: bool): (o: Outcome)
    ensures !SignedIn(s) ==> o == Rejected(AuthRequiredMessage)
    ensures SignedIn(s) && FindById(todos, id).None? ==> o == Rejected(ToggleNotFoundMessage)
    ensures SignedIn(s) && FindById(todos, id).Some? && FindById(todos, id).value.userId != s.userId.value
      ==> o == Rejected(NotOwnerUpdateMessage)
    ensures o.Issued? <==>
      SignedIn(s) && FindById(todos, id).Some? && FindById(todos, id).value.userId == s.userId.value
    ensures o.Issued? ==> o.command == SetCompleted(id, s.userId.value, completed)
    ensures !o.Cancelled?
  {
    if !s.hasClient || s.userId.None? then Rejected(AuthRequiredMessage)
    else match FindById(todos, id)
      case None => Rejected(ToggleNotFoundMessage)
      case Some(t) =>
        if t.userId != s.userId.value then Rejected(NotOwnerUpdateMessage)
        else Issued(SetCompleted(id, s.userId.value, completed))
  }

  /** The row a command targets: both filters match. */
  predicate Targets(c: Command, row: Todo) {
    row.id == c.id && row.userId == c.userId
  }

  /** One row after an update or toggle. */
  function UpdateRow(c: Command, row: Todo): Todo
    requires !c.Remove?
  {
    if !Targets(c, row) then row
    else match c
      case UpdateFields(_, _, f) =>
        row.(title := f.title, description := f.description, dueDate := f.dueDate,
             priority := f.priority, category := f.category)
      case SetCompleted(_, _, done) => row.(completed := done)
  }

  /** The table after the database runs a command. */
  function Apply(table: seq<Todo>, c: Command): (r: seq<Todo>)
    ensures c.Remove? ==> forall row :: multiset(r)[row] == (if Targets(c, row) then 0 else multiset(table)[row])
    ensures !c.Remove? ==> |r| == |table|
    ensures !c.Remove? ==> forall i :: 0 <= i < |table| ==>
      r[i].id == table[i].id && r[i].userId == table[i].userId
      && (Targets(c, table[i]) || r[i] == table[i])
    ensures c.UpdateFields? ==> forall i :: 0 <= i < |table| && Targets(c, table[i]) ==>
      && RowFields(r[i]) == c.fields
      && r[i].completed == table[i].completed && r[i].createdDate == table[i].createdDate
      && r[i].updatedAt == table[i].updatedAt
    ensures c.SetCompleted? ==> forall i :: 0 <= i < |table| && Targets(c, table[i]) ==>
      && r[i].completed == c.completed
      && RowFields(r[i]) == RowFields(table[i]) && r[i].createdDate == table[i].createdDate
      && r[i].updatedAt == table[i].updatedAt
  {
    if c.Remove? then Filter(table, row => !Targets(c, row))
    else Map(table, row => UpdateRow(c, row))
  }

  /** Running a command a second time changes nothing more. */
  lemma ApplyIdempotent(table: seq<Todo>, c: Command)
    ensures Apply(Apply(table, c), c) == Apply(table, c)
  {
    var r := Apply(table, c);
    if c.Remove? {
      FilterAll(r, row => !Targets(c, row));
    } else {
      MapPointwise(r, row => UpdateRow(c, row), r);
    }
  }

  /** After an update the page issues, the caller's row holds exactly the submitted form's
      columns; after a toggle, exactly the requested flag. */
  lemma IssuedWriteReadsBack(s: Session, editing: Option<Todo>, d: TodoForm.FormData, todos: seq<Todo>,
                             id: string, completed: bool, table: seq<Todo>, i: int)
    requires 0 <= i < |table| && SignedIn(s) && table[i].userId == s.userId.value
    ensures Update(s, editing, d).Issued? && table[i].id == editing.value.id ==>
      RowFields(Apply(table, Update(s, editing, d).command)[i]) == FieldsOf(d)
    ensures Toggle(s, todos, id, completed).Issued? && table[i].id == id ==>
      Apply(table, Toggle(s, todos, id, completed).command)[i].completed == completed
  {
  }

  /** Every command is scoped to its user: the rows of other users are left exactly as they were. */
  lemma OtherUsersUntouched(table: seq<Todo>, c: Command, row: Todo)
    requires row.userId != c.userId
    ensures multiset(Apply(table, c))[row] == multiset(table)[row]
  {
    var r := Apply(table, c);
    if !c.Remove? {
      MapKeepsRow(table, r, c, row);
    }
  }

  /** When every row is either kept or targeted, a non-targeted row keeps its count. */
  lemma {:induction false} MapKeepsRow(table: seq<Todo>, r: seq<Todo>, c: Command, row: Todo)
    requires !c.Remove? && row.userId != c.userId
    requires |r| == |table|
    requires forall i :: 0 <= i < |table| ==>
      r[i].userId == table[i].userId && (Targets(c, table[i]) || r[i] == table[i])
    ensures multiset(r)[row] == multiset(table)[row]
  {
    if table != [] {
      MapKeepsRow(table[1..], r[1..], c, row);
      assert table == [table[0]] + table[1..];
      assert r == [r[0]] + r[1..];
      assert r[0] == row <==> table[0] == row;
    }
  }

  /** A delete the page issues removes exactly the caller's row with that id and nothing else. */
  lemma DeleteRemovesOnlyTarget(s: Session, todos: seq<Todo>, id: string, table: seq<Todo>, row: Todo)
    requires Delete(s, todos, id, true).Issued?
    ensures var r := Apply(table, Delete(s, todos, id, true).command);
      multiset(r)[row] == (if row.id == id && row.userId == s.userId.value then 0 else multiset(table)[row])
  {
  }
}

=== FILE: todo_view.dfy ===
/** The home page's `filteredAndSortedTodos` (app/page.tsx): title search, priority filter,
    status filter, then a stable sort by the chosen key. */
module TodoView {
  import opened Base
  import opened Text
  import opened Todos

  datatype PriorityFilter = AnyPriority | OnlyPriority(p: Priority)
  datatype StatusFilter = AnyStatus | CompletedOnly | InProgressOnly | OverdueOnly
  datatype SortOption = ByCreatedDate | ByDueDate | ByPriority | ByTitle

  /** The page's controls: search box, two selects and the sort select. */
  datatype ViewOptions = ViewOptions(
    query: string, priority: PriorityFilter, status: StatusFilter, sortBy: SortOption)

  /** The search keeps a to-do whose lowercased title contains the lowercased query; the query
      itself is not trimmed. */
  predicate TitleMatches(t: Todo, query: string) {
    Contains(Lower(t.title), Lower(query))
  }

  predicate PriorityKeeps(f: PriorityFilter, t: Todo) {
    f.AnyPriority? || t.priority == f.p
  }

  /** The status filter, with `new Date()` passed in as `now`. */
  predicate StatusKeeps(f: StatusFilter, t: Todo, now: int) {
    match f
    case AnyStatus => true
    case CompletedOnly => t.completed
    case InProgressOnly => !t.completed && (t.dueDate.None? || t.dueDate.value >= now)
    case OverdueOnly => !t.completed && t.dueDate.Some? && t.dueDate.value < now
  }

  /** Everything the three filter steps ask of one to-do; a blank query asks nothing. */
  predicate Keeps(o: ViewOptions, t: Todo, now: int) {
    && (IsBlank(o.query) || TitleMatches(t, o.query))
    && PriorityKeeps(o.priority, t)
    && StatusKeeps(o.status, t, now)
  }

  /** `priorityOrder` of the priority sort. */
  function Rank(p: Priority): int {
    match p
    case High => 3
    case Medium => 2
    case Low => 1
  }

  /** Code-point lexicographic order on titles. */
  predicate LexLeq(a: string, b: string) {
    a == [] || (b != [] && (a[0] < b[0] || (a[0] == b[0] && LexLeq(a[1..], b[1..]))))
  }

  /** The sort comparator returns a value `<= 0` for `(a, b)`: `a` may stay before `b`. */
  predicate InOrder(key: SortOption, a: Todo, b: Todo) {
    match key
    case ByCreatedDate => b.createdDate - a.createdDate <= 0
    case ByDueDate =>
      if a.dueDate.None? && b.dueDate.None? then true
      else if a.dueDate.None? then false
      else if b.dueDate.None? then true
      else a.dueDate.value - b.dueDate.value <= 0
    case ByPriority => Rank(b.priority) - Rank(a.priority) <= 0
    case ByTitle => LexLeq(a.title, b.title)
  }

  predicate Sorted(key: SortOption, s: seq<Todo>) {
    forall i, j :: 0 <= i < j < |s| ==> InOrder(key, s[i], s[j])
  }

  lemma {:induction false} LexLeqTotal(a: string, b: string)
    ensures LexLeq(a, b) || LexLeq(b, a)
  {
    if a != [] && b != [] && a[0] == b[0] {
      LexLeqTotal(a[1..], b[1..]);
    }
  }

  lemma {:induction false} LexLeqTransitive(a: string, b: string, c: string)
    requires LexLeq(a, b) && LexLeq(b, c)
    ensures LexLeq(a, c)
  {
    if a != [] && b != [] && c != [] && a[0] == b[0] && b[0] == c[0] {
      LexLeqTransitive(a[1..], b[1..], c[1..]);
    }
  }

  /** Each comparator is total: of two to-dos, one may precede the other. */
  lemma InOrderTotal(key: SortOption, a: Todo, b: Todo)
    ensures InOrder(key, a, b) || InOrder(key, b, a)
  {
    if key == ByTitle {
      LexLeqTotal(a.title, b.title);
    }
  }

  lemma InOrderTransitive(key: SortOption, a: Todo, b: Todo, c: Todo)
    requires InOrder(key, a, b) && InOrder(key, b, c)
    ensures InOrder(key, a, c)
  {
    if key == ByTitle {
      LexLeqTransitive(a.title, b.title, c.title);
    }
  }

  /** Places `x` in front of the first element it may precede, so it stays ahead of the equal
      elements that followed it in the input. */
  function Insert(key: SortOption, x: Todo, s: seq<Todo>): (r: seq<Todo>)
    requires Sorted(key, s)
    ensures Sorted(key, r)
    ensures multiset(r) == multiset(s) + multiset{x}
  {
    if s == [] then [x]
    else if InOrder(key, x, s[0]) then
      assert forall j :: 0 < j < |s| ==> InOrder(key, x, s[j]) by {
        forall j | 0 < j < |s| ensures InOrder(key, x, s[j]) {
          InOrderTransitive(key, x, s[0], s[j]);
        }
      }
      [x] + s
    else
      var rest := Insert(key, x, s[1..]);
      InOrderTotal(key, x, s[0]);
      HeadPrecedesInsert(key, x, s, rest);
      assert s == [s[0]] + s[1..];
      [s[0]] + rest
  }

  /** When `x` may not precede the head of `s`, the head may precede every element of `x`
      inserted into the tail. */
  lemma HeadPrecedesInsert(key: SortOption, x: Todo, s: seq<Todo>, rest: seq<Todo>)
    requires s != [] && Sorted(key, s) && InOrder(key, s[0], x)
    requires multiset(rest) == multiset(s[1..]) + multiset{x}
    ensures forall k :: 0 <= k < |rest| ==> InOrder(key, s[0], rest[k])
  {
    forall k | 0 <= k < |rest| ensures InOrder(key, s[0], rest[k]) {
      assert rest[k] in multiset(rest);
      if rest[k] != x {
        assert rest[k] in multiset(s[1..]);
        var j :| 0 <= j < |s[1..]| && s[1..][j] == rest[k];
        assert s[j + 1] == rest[k];
      }
    }
  }

  /** `Array.prototype.sort` with the comparator of `key`: a sorted permutation. */
  function SortBy(key: SortOption, s: seq<Todo>): (r: seq<Todo>)
    ensures Sorted(key, r)
    ensures multiset(r) == multiset(s)
  {
    if s == [] then []
    else
      assert s == [s[0]] + s[1..];
      Insert(key, s[0], SortBy(key, s[1..]))
  }

  /** Neither to-do may be ordered before the other: the comparator returns 0 for the pair. */
  predicate Tied(key: SortOption, a: Todo, b: Todo) {
    InOrder(key, a, b) && InOrder(key, b, a)
  }

  /** The to-dos of `s` tied with `y`, in their order in `s`. */
  function TiedWith(key: SortOption, s: seq<Todo>, y: Todo): seq<Todo> {
    Filter(s, (t: Todo) => Tied(key, t, y))
  }

  lemma TiedWithCons(key: SortOption, x: Todo, s: seq<Todo>, y: Todo)
    ensures TiedWith(key, [x] + s, y) == (if Tied(key, x, y) then [x] else []) + TiedWith(key, s, y)
  {
    FilterCons(x, s, (t: Todo) => Tied(key, t, y));
  }

  lemma TiedWithHead(key: SortOption, s: seq<Todo>, y: Todo)
    requires s != []
    ensures TiedWith(key, s, y) == (if Tied(key, s[0], y) then [s[0]] else []) + TiedWith(key, s[1..], y)
  {
    assert s == [s[0]] + s[1..];
    TiedWithCons(key, s[0], s[1..], y);
  }

  /** Inserting `x` adds it in front of the to-dos it is tied with and leaves their order alone. */
  lemma {:induction false} InsertStable(key: SortOption, x: Todo, s: seq<Todo>, y: Todo)
    requires Sorted(key, s)
    ensures TiedWith(key, Insert(key, x, s), y)
      == (if Tied(key, x, y) then [x] else []) + TiedWith(key, s, y)
    decreases |s|
  {
    var goal := (if Tied(key, x, y) then [x] else []) + TiedWith(key, s, y);
    if s == [] {
      TiedWithCons(key, x, [], y);
      assert [x] + [] == [x];
      assert TiedWith(key, Insert(key, x, s), y) == goal;
    } else if InOrder(key, x, s[0]) {
      TiedWithCons(key, x, s, y);
      assert TiedWith(key, Insert(key, x, s), y) == goal;
    } else {
      var rest := Insert(key, x, s[1..]);
      assert Insert(key, x, s) == [s[0]] + rest;
      InsertStable(key, x, s[1..], y);
      TiedWithHead(key, s, y);
      PassedHeadStable(key, x, s[0], rest, s[1..], y);
    }
  }

  /** When `x` goes after `head`, the two are not both tied with `y`, so the tied to-dos keep
      their order. */
  lemma PassedHeadStable(key: SortOption, x: Todo, head: Todo, rest: seq<Todo>, tail: seq<Todo>, y: Todo)
    requires !InOrder(key, x, head)
    requires TiedWith(key, rest, y) == (if Tied(key, x, y) then [x] else []) + TiedWith(key, tail, y)
    ensures TiedWith(key, [head] + rest, y)
      == (if Tied(key, x, y) then [x] else []) + ((if Tied(key, head, y) then [head] else []) + TiedWith(key, tail, y))
  {
    TiedWithCons(key, head, rest, y);
    var t := TiedWith(key, tail, y);
    if Tied(key, x, y) {
      if Tied(key, head, y) {
        InOrderTransitive(key, x, y, head);
      }
      assert TiedWith(key, [head] + rest, y) == [] + ([x] + t);
    } else {
      assert TiedWith(key, rest, y) == t;
    }
  }

  /** The sort is stable: the to-dos tied under `key` keep their input order. */
  lemma {:induction false} SortByStable(key: SortOption, s: seq<Todo>, y: Todo)
    ensures TiedWith(key, SortBy(key, s), y) == TiedWith(key, s, y)
  {
    if s != [] {
      SortByStable(key, s[1..], y);
      InsertStable(key, s[0], SortBy(key, s[1..]), y);
      TiedWithHead(key, s, y);
    }
  }

  /** The search step: skipped when the query is blank. */
  function Search(todos: seq<Todo>, query: string): (r: seq<Todo>)
    ensures forall t :: multiset(r)[t] == (if IsBlank(query) || TitleMatches(t, query) then multiset(todos)[t] else 0)
  {
    if IsBlank(query) then todos else Filter(todos, t => TitleMatches(t, query))
  }

  /** The priority step: skipped for "all". */
  function PriorityStep(todos: seq<Todo>, f: PriorityFilter): (r: seq<Todo>)
    ensures forall t :: multiset(r)[t] == (if PriorityKeeps(f, t) then multiset(todos)[t] else 0)
  {
    if f.AnyPriority? then todos else Filter(todos, t => PriorityKeeps(f, t))
  }

  /** The status step: skipped for "all". */
  function StatusStep(todos: seq<Todo>, f: StatusFilter, now: int): (r: seq<Todo>)
    ensures forall t :: multiset(r)[t] == (if StatusKeeps(f, t, now) then multiset(todos)[t] else 0)
  {
    if f.AnyStatus? then todos else Filter(todos, t => StatusKeeps(f, t, now))
  }

  /** The three filter steps in the page's order. */
  function Selected(todos: seq<Todo>, o: ViewOptions, now: int): (r: seq<Todo>)
    ensures forall t :: multiset(r)[t] == (if Keeps(o, t, now) then multiset(todos)[t] else 0)
  {
    StatusStep(PriorityStep(Search(todos, o.query), o.priority), o.status, now)
  }

  /** `filteredAndSortedTodos`. */
  function FilteredAndSorted(todos: seq<Todo>, o: ViewOptions, now: int): (r: seq<Todo>)
    ensures forall t :: multiset(r)[t] == (if Keeps(o, t, now) then multiset(todos)[t] else 0)
    ensures multiset(r) <= multiset(todos)
    ensures Sorted(o.sortBy, r)
  {
    SortBy(o.sortBy, Selected(todos, o, now))
  }

  /** With both selects on "all" and a blank query, the page shows every to-do, reordered. */
  lemma NoFilterIsPermutation(todos: seq<Todo>, o: ViewOptions, now: int)
    requires IsBlank(o.query) && o.priority == AnyPriority && o.status == AnyStatus
    ensures multiset(FilteredAndSorted(todos, o, now)) == multiset(todos)
  {
    var r := FilteredAndSorted(todos, o, now);
    assert forall t :: multiset(r)[t] == multiset(todos)[t];
  }

  /** Every shown to-do satisfies the search, priority and status filters. */
  lemma ShownSatisfyFilters(todos: seq<Todo>, o: ViewOptions, now: int, i: int)
    requires 0 <= i < |FilteredAndSorted(todos, o, now)|
    ensures var t := FilteredAndSorted(todos, o, now)[i];
      && t in todos
      && (!IsBlank(o.query) ==> Contains(Lower(t.title), Lower(o.query)))
      && (o.priority.OnlyPriority? ==> t.priority == o.priority.p)
      && (o.status == CompletedOnly ==> t.completed)
  {
    var r := FilteredAndSorted(todos, o, now);
    assert r[i] in multiset(r);
  }

  /** A to-do in the list that passes every filter is shown. */
  lemma PassingTodoIsShown(todos: seq<Todo>, o: ViewOptions, now: int, t: Todo)
    requires t in todos && Keeps(o, t, now)
    ensures t in FilteredAndSorted(todos, o, now)
  {
    var r := FilteredAndSorted(todos, o, now);
    assert multiset(todos)[t] > 0;
    assert multiset(r)[t] > 0;
  }

  /** Each status filter keeps exactly the to-dos whose card shows that status, for one `now`. */
  lemma StatusFilterAgreesWithCard(t: Todo, now: int)
    ensures StatusKeeps(CompletedOnly, t, now) <==> StatusOf(t, now) == Completed
    ensures StatusKeeps(InProgressOnly, t, now) <==> StatusOf(t, now) == InProgress
    ensures StatusKeeps(OverdueOnly, t, now) <==> StatusOf(t, now) == Overdue
  {
  }

  /** "in progress" and "overdue" split the open to-dos: each open one passes exactly one. */
  lemma OpenTodoInExactlyOneOpenFilter(t: Todo, now: int)
    requires !t.completed
    ensures StatusKeeps(InProgressOnly, t, now) != StatusKeeps(OverdueOnly, t, now)
    ensures !StatusKeeps(CompletedOnly, t, now)
  {
  }

  /** Sorting by due date puts every dated to-do before every undated one, dated ascending. */
  lemma DueDateOrderMeaning(s: seq<Todo>, i: int, j: int)
    requires Sorted(ByDueDate, s) && 0 <= i < j < |s|
    ensures s[i].dueDate.None? ==> s[j].dueDate.None?
    ensures s[i].dueDate.Some? && s[j].dueDate.Some? ==> s[i].dueDate.value <= s[j].dueDate.value
  {
    assert InOrder(ByDueDate, s[i], s[j]);
  }

  /** Sorting by priority gives non-increasing ranks, by creation date non-increasing stamps. */
  lemma DescendingOrderMeaning(s: seq<Todo>, i: int, j: int)
    requires 0 <= i < j < |s|
    ensures Sorted(ByPriority, s) ==> Rank(s[i].priority) >= Rank(s[j].priority)
    ensures Sorted(ByCreatedDate, s) ==> s[i].createdDate >= s[j].createdDate
  {
    if Sorted(ByPriority, s) {
      assert InOrder(ByPriority, s[i], s[j]);
    }
    if Sorted(ByCreatedDate, s) {
      assert InOrder(ByCreatedDate, s[i], s[j]);
    }
  }
}

=== FILE: todos.dfy ===
/** The to-do record, its priority and status enums, and the card's status classifier and
    label tables (components/todo/todo-card.tsx). */
module Todos {
  import opened Base

  datatype Priority = High | Medium | Low

  /** One row of the `todos` table. Timestamps are already-parsed integers; `createdDate` is
      always set by the database. */
  datatype Todo = Todo(
    id: string,
    userId: string,
    title: string,
    description: Option<string>,
    createdDate: int,
    dueDate: Option<int>,
    priority: Priority,
    category: Option<string>,
    completed: bool,
    updatedAt: Option<int>)

  datatype Status = Completed | Overdue | InProgress

  /** `todo.due_date` is set. */
  predicate HasDue(t: Todo) {
    t.dueDate.Some?
  }

  predicate IsCompleted(t: Todo) {
    t.completed
  }

  predicate IsOpen(t: Todo) {
    !t.completed
  }

  /** Open and due strictly before `now`. */
  predicate IsLate(t: Todo, now: int) {
    !t.completed && t.dueDate.Some? && t.dueDate.value < now
  }

  /** `getTodoStatus`: completion wins over the due date; an open to-do is overdue once its due
      time has passed, and in progress otherwise (also when it has no due date). */
  function StatusOf(t: Todo, now: int): (s: Status)
    ensures s == Completed <==> t.completed
    ensures s == Overdue <==> IsLate(t, now)
    ensures s == InProgress <==> !t.completed && (t.dueDate.None? || t.dueDate.value >= now)
  {
    if t.completed then Completed
    else if t.dueDate.Some? && t.dueDate.value < now then Overdue
    else InProgress
  }

  /** `priorityConfig[p].label`. */
  function PriorityLabel(p: Priority): string {
    match p
    case High => "높음"
    case Medium => "보통"
    case Low => "낮음"
  }

  /** `statusConfig[s].label`. */
  function StatusLabel(s: Status): string {
    match s
    case Completed => "완료"
    case Overdue => "지연"
    case InProgress => "진행 중"
  }

  /** Both label tables cover their whole enum with non-empty labels, and no two values share a
      label, so every card shows exactly one priority badge and one status text. */
  lemma LabelsTotalAndDistinct(p: Priority, q: Priority, s: Status, u: Status)
    ensures |PriorityLabel(p)| > 0 && |StatusLabel(s)| > 0
    ensures PriorityLabel(p) == PriorityLabel(q) ==> p == q
    ensures StatusLabel(s) == StatusLabel(u) ==> s == u
  {
    assert PriorityLabel(High)[0] != PriorityLabel(Medium)[0];
    assert PriorityLabel(High)[0] != PriorityLabel(Low)[0];
    assert PriorityLabel(Medium)[0] != PriorityLabel(Low)[0];
    assert StatusLabel(Completed)[0] != StatusLabel(Overdue)[0];
    assert StatusLabel(Completed)[0] != StatusLabel(InProgress)[0];
    assert StatusLabel(Overdue)[0] != StatusLabel(InProgress)[0];
  }
}
